=== FILE: README.md ===
# demo-ecommerce-tool, modelled in Dafny

The system is a demo e-commerce analytics tool in three parts:

- **Browser tracker** (`packages/tracker`). Builds tracking events, drops repeated events inside a short window, queues them in a batcher and posts them with retries and exponential backoff. It also records a page view each time the URL changes.
- **Shop** (`packages/shop`). Keeps a cart.
- **Dashboard and NestJS backend** (`packages/dashboard`, `packages/backend`):
  - the backend ingests and lists events and aggregates shop statistics;
  - it asks a language model for insights and answers chat questions;
  - the dashboard pages through the event list.

This project models that behaviour as pure functions over immutable datatypes. It proves the promises each part makes. Whatever the code cannot see becomes a parameter:

- the clock;
- UUIDs;
- network answers;
- the model's reply;
- the browser page.

| file | module | models |
|---|---|---|
| `wrappers.dfy` | `Wrappers` | `Option` and `Result` |
| `text.dfy` | `Text` | ASCII case mapping, substring search, `join`, decimal rendering of a number |
| `shared.dfy` | `Shared` | the insight type names, the stored `Insight` and the `Paginated` response |
| `sender.dfy` | `Sender` | `sendEvents`: one POST per attempt, 4xx final, 5xx and network errors retried with doubling delays |
| `batcher.dfy` | `Batcher` | the queue, the size and timer triggers, the single in-flight flush, `flushSync` on page exit, `destroy` |
| `dedup.dfy` | `Dedup` | the dedup key and the per-type time window over the ledger of recent events |
| `event_names.dfy` | `EventNames` | `formatEventName` (`add_to_cart` to `Add To Cart`) |
| `pageview.dfy` | `PageView` | the History API patch, URL-change page views, setup and teardown |
| `tracker.dfy` | `Tracker` | `init`, `track`, `trackPageView`, `flush`, `destroy` over the tracker state |
| `cart.dfy` | `Cart` | the cart reducer operations and its running total |
| `pagination.dfy` | `Pagination` | the range label and previous/next buttons of the event list |
| `paging.dfy`, `ordering.dfy` | `Paging`, `Ordering` | falsy query defaults, skip, newest-first ordering, `skip`/`take` windows, `ceil` |
| `event_store.dfy` | `EventStore` | event filtering and paging, DTO mapping, lookup by id, creation |
| `ingestion.dfy` | `Ingestion` | single and batch ingestion with required-field validation |
| `insight_store.dfy` | `InsightStore` | insight listing by page or offset, latest insights, insights of one type |
| `llm.dfy` | `Llm` | configuration from the environment, validation of the model's candidates, `toInsight` |
| `stats.dfy` | `Stats` | the dashboard statistics from grouped counts, the conversion rate, top product names |
| `chat.dfy` | `Chat` | the conversation id, the event summary, the listed sources, the missing `chat` method and the controller's error replies |
| `insights_controller.dfy` | `InsightsController` | the mapping of generation failures to HTTP 503 or 500 |

Representation choices:

- ISO timestamps are integer milliseconds. Two ISO strings in the same format compare like the numbers they denote.
- A property bag is a `map<string, string>` of rendered values.
- A page or limit query parameter is `Missing`, `NotANumber` or a number. Each of `Missing`, `NotANumber` and 0 falls back to the default, as `||` does.
- Prices are integer cents.
- The conversion rate is in integer hundredths of a percent, rounded half up.

## Model

| member | source | states |
|---|---|---|
| Sender.RetryDelayDoubles | packages/tracker/src/sender.ts:35-37 | the first retry waits the base delay and every further retry waits twice the previous one |
| Sender.IsRetryableStatus | packages/tracker/src/sender.ts:27-29 | a retryable status is 0 or a 5xx, and never a success or a client error |
| Sender.RetryDelay | packages/tracker/src/sender.ts:35-37 | the first retry waits the base delay, and no retry waits less than a non-negative base |
| Sender.AttemptStep | packages/tracker/src/sender.ts:71-137 | one attempt ends in success exactly on a 2xx and in a final non-retryable failure exactly on a 4xx; it retries exactly when attempts remain and the outcome is a 5xx or a network error, waiting the backoff delay for that attempt |
| Sender.SendFrom | packages/tracker/src/sender.ts:61-145 | from a given attempt the loop makes between 1 and the remaining number of attempts, one fewer waits than attempts, and past the last attempt reports "max retries exceeded" |
| Sender.SendFromTrace | packages/tracker/src/sender.ts:61-138 | every attempt before the last saw a retryable outcome, the last attempt's outcome decides the result, and each wait is the backoff delay for its attempt |
| Sender.Send | packages/tracker/src/sender.ts:50-146 | no events means success without a request; otherwise there are at most maxRetries+1 requests, a success is due to a 2xx answer, a final failure to a 4xx, and all earlier answers were retryable |
| Sender.SendEvents | packages/tracker/src/sender.ts:50-146 | the retry loop computes the same delivery as the recursive definition and never exceeds maxRetries+1 attempts |
| Sender.OkFirstAttemptSends | packages/tracker/src/sender.ts:71-78 | a 2xx on the first attempt sends the batch in one request with no wait |
| Sender.ClientErrorIsFinal | packages/tracker/src/sender.ts:80-93 | a 4xx after only retryable outcomes stops the loop at once with a non-retryable client error |
| Sender.TransientFailuresExhaustAttempts | packages/tracker/src/sender.ts:95-137 | when every remaining attempt fails transiently, all attempts are used and the result is a retryable failure |
| Sender.DefaultBackoffSchedule | packages/tracker/src/sender.ts:22-111 | with default settings, four 503 answers make four requests separated by waits of 1000, 2000 and 4000 ms |
| Sender.RedirectFailsRetryableWithoutRetry | packages/tracker/src/sender.ts:95-111 | a 3xx answer is neither success, nor client error, nor retryable: the send stops after that one request with a failure flagged retryable |
| Batcher.New | packages/tracker/src/batcher.ts:41-51 | a new batcher has nothing outstanding, is not flushing, runs its timer and listens for page exit only when a window exists |
| Batcher.BeginFlush | packages/tracker/src/batcher.ts:83-103 | a flush is skipped only while one is in flight or when the queue is empty, and a destroyed batcher still flushes; otherwise it moves the whole queue into the in-flight snapshot, and no event is lost either way |
| Batcher.SkippedFlushResult | packages/tracker/src/batcher.ts:83-93 | a skipped flush resolves at once to `{success: true, eventCount: 0}` with no error and changes nothing; otherwise there is no immediate result and the whole non-empty queue is in flight |
| Batcher.CompleteFlush | packages/tracker/src/batcher.ts:105-128 | the flush ends and reports the snapshot's size; a retryable failure puts the snapshot back in front of the queue and any other result drops it |
| Batcher.Add | packages/tracker/src/batcher.ts:57-77 | after destroy an add does nothing; otherwise the event joins the outstanding events and a flush starts exactly when the queue reaches the batch size |
| Batcher.TimerTick | packages/tracker/src/batcher.ts:207-215 | a tick with no timer, after destroy or with an empty queue changes nothing, and no tick loses an outstanding event |
| Batcher.FlushSync | packages/tracker/src/batcher.ts:135-178 | a page-exit flush hands the whole queue to the beacon or XHR; the queue survives only a refused beacon or a throwing XHR |
| Batcher.OnBeforeUnload | packages/tracker/src/batcher.ts:224-226 | unload triggers the synchronous flush only while the listeners are attached |
| Batcher.OnVisibilityChange | packages/tracker/src/batcher.ts:228-232 | only becoming hidden with attached listeners triggers the synchronous flush |
| Batcher.Destroy | packages/tracker/src/batcher.ts:190-205 | destroy stops the timer, detaches the listeners, sends the queue once and marks the batcher destroyed |
| Batcher.RetryableFailureLosesNothing | packages/tracker/src/batcher.ts:117-123 | after a retryable failure the outstanding events are unchanged and the failed batch comes first in the queue |
| Batcher.NoOverlappingSends | packages/tracker/src/batcher.ts:88-93 | while a flush is in flight, no flush, tick or add starts another send |
| Batcher.AddsBelowBatchSizeOnlyQueue | packages/tracker/src/batcher.ts:73-76 | adds that stay below the batch size only append to the queue |
| Batcher.BatchSizeTriggersOneFlush | packages/tracker/src/batcher.ts:65-99 | on a fresh batcher, the batch-size-th add triggers the flush and puts exactly those events in flight |
| Batcher.PageExitDrainsOrKeepsQueue | packages/tracker/src/batcher.ts:224-246 | on page exit the queue is either handed off and emptied or kept intact, and becoming visible sends nothing |
| Batcher.DestroyIsIdempotent | packages/tracker/src/batcher.ts:190-193 | a second destroy sends nothing and changes nothing |
| Dedup.DedupKey | packages/tracker/src/index.ts:65-73 | the key is the event type, `::`, then `name:value` for each of productId, orderId, url and path that is present, in that order and joined by `\|` |
| Dedup.DedupKeyWithoutIdentifyingProps | packages/tracker/src/index.ts:65-73 | without any identifying property the key is just the type and `::` |
| Dedup.DedupKeyFixedOrder | packages/tracker/src/index.ts:67-72 | with all identifying properties present, the key lists productId, orderId, url and path in that order, as `name:value` parts joined by `\|` |
| Dedup.DedupKeyIgnoresOtherProps | packages/tracker/src/index.ts:67-71 | two property bags that agree on the identifying properties give the same key |
| Dedup.DedupKeySeparatesTypes | packages/tracker/src/index.ts:72 | events of two different types without colons never share a key |
| Dedup.DedupKeyProductOnly | packages/tracker/src/index.ts:65-73 | a product view with only a product id has the key `product_viewed::productId:<id>` |
| Dedup.DedupKeyPageView | packages/tracker/src/index.ts:65-73 | a page view with url and path but no product or order id has the key `page_view::url:<url>\|path:<path>` |
| Dedup.WindowFor | packages/tracker/src/index.ts:57-91 | page views use the 3000 ms window and every other type the 1000 ms one; both are shorter than the 6000 ms after which entries are purged |
| Dedup.CheckDuplicate | packages/tracker/src/index.ts:78-98 | an event is a duplicate exactly when its key was last seen (at a non-zero time) within its type's window; a duplicate leaves the ledger alone; otherwise the key is stamped now, stale entries are pruned and fresh ones kept |
| Dedup.SecondSightingWithinWindow | packages/tracker/src/index.ts:80-96 | right after an event is recorded, the same key is a duplicate until its window has passed and not after |
| Dedup.DuplicatesDoNotExtendWindow | packages/tracker/src/index.ts:85-87 | a dropped duplicate does not restart the window, which still ends at the first sighting plus the window |
| Dedup.WindowScenarios | packages/tracker/src/index.ts:57-87 | an add_to_cart repeat 999 ms later is dropped and one 1500 ms later is not; a page-view repeat 2000 ms later is dropped and one 3500 ms later is not |
| EventNames.SplitOnJoins | packages/tracker/src/index.ts:105 | splitting on `_` and joining the pieces with `_` gives back the type, and no piece contains `_` |
| EventNames.Capitalize | packages/tracker/src/index.ts:106 | a capitalised word keeps its length, has its first letter upper-cased and the rest lower-cased |
| EventNames.CapitalizeAll | packages/tracker/src/index.ts:106 | each word of the list is capitalised in place |
| EventNames.FormatEventNamePointwise | packages/tracker/src/index.ts:103-108 | the display name has the type's length; every `_` becomes a space, a letter after `_` or at the start is upper-cased and every other letter is lower-cased |
| EventNames.FormatEventName | packages/tracker/src/index.ts:103-108 | a type without `_` is one capitalised word |
| Tracker.Fresh | packages/tracker/src/index.ts:49-55 | a fresh tracker is uninitialised with no batcher and an empty dedup ledger |
| Tracker.Resolve | packages/tracker/src/index.ts:130-136 | batch size, flush interval, debug and auto page views fall back to 10, 5000 ms, off and on |
| Tracker.BatcherConfigOf | packages/tracker/src/index.ts:141-149 | the batcher gets the resolved size, interval and endpoint, with the sender's default retries |
| Tracker.MakeEvent | packages/tracker/src/index.ts:187-196 | the event carries the shop, session, type, display name, properties, current time, user agent and the page URL when a window exists |
| Tracker.Track | packages/tracker/src/index.ts:169-204 | tracking before init does nothing; otherwise the dedup ledger decides, a duplicate changes nothing, and a new event is queued on a live batcher |
| Tracker.Init | packages/tracker/src/index.ts:114-162 | a second init is a no-op; the missing-shopId, missing-endpoint and missing-apiKey errors are reported in that order exactly when those fields are empty; a successful init stores the resolved config and session, builds the batcher and, with auto page views, records the landing page; with auto page views but no window, the page-view setup throws after the tracker is marked initialized and the batcher built, leaving the history unpatched and nothing tracked |
| Tracker.TrackPageView | packages/tracker/src/index.ts:234-240 | a manual page view does nothing before init; outside a browser it throws before tracking, because capturing the page reads `window.location`; otherwise it is a `page_view` track of the captured page properties; it never touches the URL suppression of automatic page views |
| Tracker.ManualPageViewBypassesUrlSuppression | packages/tracker/src/pageview.ts:182-185 | in a browser, on the URL automatic tracking last reported, and outside the 3000 ms window, a manual page view queues exactly one `page_view` where the automatic trigger emits nothing |
| Tracker.Navigate | packages/tracker/src/index.ts:159-161 | a navigation updates the page-view state and tracks a page view only when one is emitted |
| Tracker.NavigateQueuesEmittedPageView | packages/tracker/src/index.ts:159-161 | when a page view is emitted on a ready tracker, exactly that `page_view`, on the new page, is queued unless its key is inside the dedup window |
| Tracker.Flush | packages/tracker/src/index.ts:246-252 | a manual flush loses no outstanding event and starts a send when one can start |
| Tracker.Destroy | packages/tracker/src/index.ts:257-273 | destroy resets config, session, batcher and ledger, tears down page views and sends the queue once |
| Tracker.InitTracksLandingPage | packages/tracker/src/index.ts:158-161 | in a browser, a first init queues exactly one `page_view` event for the current page |
| Tracker.InitWithoutWindowThrowsHalfInitialized | packages/tracker/src/pageview.ts:85-92 | outside a browser, a first init with auto page views throws, yet leaves a ready tracker with nothing queued and the history untouched, and a retried init is a no-op |
| Tracker.RepeatWithinWindowIsDropped | packages/tracker/src/index.ts:178-185 | repeating a tracked event within its window queues nothing and changes no state |
| Tracker.DestroyThenReinit | packages/tracker/src/index.ts:257-273 | after destroy, tracking is ignored; init again succeeds exactly when a window exists or auto page views are off, and otherwise throws from the page-view setup with the tracker initialized |
| Tracker.ReinitTracksSamePageAgain | packages/tracker/src/index.ts:261-272 | because teardown forgets the last URL, re-initialising in a browser on the same page records that page view again |
| PageView.Initial | packages/tracker/src/pageview.ts:28-38 | at load nothing is patched, no URL is tracked and no callback is set |
| PageView.CaptureProperties | packages/tracker/src/pageview.ts:45-52 | page-view properties are exactly url, title, referrer and path, taken from the page |
| PageView.TriggerPageView | packages/tracker/src/pageview.ts:57-80 | a page view is emitted only when the URL differs from the last tracked one and a callback is set, and the new URL is remembered either way |
| PageView.PatchHistoryApi | packages/tracker/src/pageview.ts:85-123 | patching saves the original pushState and replaceState, wraps them and listens for popstate; patching again does nothing |
| PageView.UnpatchHistoryApi | packages/tracker/src/pageview.ts:128-147 | unpatching restores the saved originals, stops listening and clears the saved state |
| PageView.PatchIsIdempotent | packages/tracker/src/pageview.ts:86-88 | patching twice is the same as patching once |
| PageView.UnpatchUndoesPatch | packages/tracker/src/pageview.ts:128-147 | unpatching right after patching gives back entry points equivalent to the original ones (the source keeps bound copies) |
| PageView.Setup | packages/tracker/src/pageview.ts:154-166 | setup patches the history, installs the callback and emits the current page exactly when it is not the last tracked URL |
| PageView.Teardown | packages/tracker/src/pageview.ts:171-176 | teardown unpatches the history and forgets the callback and the last URL |
| PageView.Navigate | packages/tracker/src/pageview.ts:95-120 | with the history not patched, a navigation is only a URL change and emits nothing |
| PageView.OnePageViewPerDistinctUrl | packages/tracker/src/pageview.ts:57-123 | while observing, a sequence of push, replace and back/forward navigations, each trigger running before the next navigation, emits one page view per change of URL and keeps observing |
| PageView.RepeatedTriggerEmitsOnce | packages/tracker/src/pageview.ts:60-71 | triggering twice on the same page emits at most once |
| PageView.SetupAfterTeardownTracksAgain | packages/tracker/src/pageview.ts:154-176 | after teardown, setup always emits the current page |
| Cart.TotalAppend | packages/shop/src/context/CartContext.tsx:22-24 | the total of two item lists together is the sum of their totals |
| Cart.TotalUpdate | packages/shop/src/context/CartContext.tsx:22-24 | replacing one item changes the total by the difference of the two line amounts |
| Cart.FindIndex | packages/shop/src/context/CartContext.tsx:67 | the index found is the first item with that product id, and none means no item has it |
| Cart.Without | packages/shop/src/context/CartContext.tsx:108 | the filtered list holds exactly the items with another product id |
| Cart.DecrementAll | packages/shop/src/context/CartContext.tsx:92-94 | every item with the product id loses one unit and every other item is unchanged |
| Cart.AddToCart | packages/shop/src/context/CartContext.tsx:65-83 | adding a product already in the cart raises its quantity by one and leaves the rest alone; a new product is appended with quantity 1; the total is recomputed |
| Cart.RemoveFromCart | packages/shop/src/context/CartContext.tsx:85-104 | removing an absent product changes nothing; with quantity above 1 that line loses one unit and every other line stays in place; otherwise the result is `Cart.RemoveItem` |
| Cart.RemoveItem | packages/shop/src/context/CartContext.tsx:106-114 | removing an item drops every line of that product, keeps each other line as often as before and in its order, and recomputes the total |
| Cart.ClearCart | packages/shop/src/context/CartContext.tsx:116-118 | clearing leaves no items and a zero total |
| Cart.WithoutAppend | packages/shop/src/context/CartContext.tsx:108 | filtering out a product distributes over concatenation |
| Cart.WithoutKeepsOrder | packages/shop/src/context/CartContext.tsx:108 | the filter keeps exactly the other products' lines, each as often as before, as a subsequence of the cart |
| Cart.WithoutAbsent | packages/shop/src/context/CartContext.tsx:108 | filtering out a product the cart lacks changes nothing |
| Cart.AddRaisesTotalByPrice | packages/shop/src/context/CartContext.tsx:65-83 | adding a product raises the total by one unit price |
| Cart.AddPreservesWellFormed | packages/shop/src/context/CartContext.tsx:65-83 | adding keeps product ids distinct, quantities positive and the total in step |
| Cart.RemoveFromCartPreservesWellFormed | packages/shop/src/context/CartContext.tsx:85-104 | removing one unit keeps product ids distinct, quantities positive and the total in step |
| Cart.RemoveItemPreservesWellFormed | packages/shop/src/context/CartContext.tsx:106-114 | removing an item keeps product ids distinct, quantities positive and the total in step |
| Cart.AddThenRemoveRestores | packages/shop/src/context/CartContext.tsx:65-104 | on a well-formed cart, adding a product and then removing one unit of it gives back the original cart |
| Pagination.StartItem | packages/dashboard/src/components/EventList/Pagination.tsx:18 | the label starts at the first row of the current page, or at 0 when there are no rows |
| Pagination.EndItem | packages/dashboard/src/components/EventList/Pagination.tsx:19 | the label ends at the last row of the page or the last row overall, whichever comes first |
| Pagination.Previous | packages/dashboard/src/components/EventList/Pagination.tsx:21-25 | "previous" is enabled exactly after the first page and goes back one page |
| Pagination.Next | packages/dashboard/src/components/EventList/Pagination.tsx:27-31 | "next" is enabled exactly before the last page and goes forward one page |
| Pagination.DisplayedPageCount | packages/dashboard/src/components/EventList/Pagination.tsx:53 | the page count shown is the total page count, or 1 when that is 0 |
| Pagination.IsHidden | packages/dashboard/src/components/EventList/Pagination.tsx:33-35 | the control is hidden only when there are no rows, and never with more than one page |
| Pagination.HiddenIffNoRows | packages/dashboard/src/components/EventList/Pagination.tsx:33-35 | against `ceil(total / limit)`, the control is hidden exactly when there are no rows |
| Pagination.NavigationStaysInRange | packages/dashboard/src/components/EventList/Pagination.tsx:21-31 | from a page in range, previous and next stay in range and are disabled exactly on the first and last page |
| Pagination.RangeLabelCountsPageRows | packages/dashboard/src/components/EventList/Pagination.tsx:18-35 | for a page in range, the label spans exactly the rows the backend returns for that page, and the control is shown |
| Paging.OrDefault | packages/backend/src/events/events.service.ts:40-41 | a missing, non-numeric or zero parameter falls back to the default and any other value is kept |
| Paging.Skip | packages/backend/src/events/events.service.ts:42 | page 1 skips nothing and each later page skips one more page of rows |
| Paging.PageOf | packages/backend/src/events/events.service.ts:78-89 | the response holds the window after the skipped rows, the total, the page, the limit and the fewest pages that hold the total |
| Ordering.InsertDesc | packages/backend/src/events/events.service.ts:76 | inserting into a newest-first list keeps it newest first and adds exactly that element |
| Ordering.SortDesc | packages/backend/src/events/events.service.ts:76 | sorting is a permutation into newest-first order |
| Ordering.Window | packages/backend/src/events/events.service.ts:78-81 | `skip` then `take` returns the consecutive rows after the skipped ones, at most `take` of them |
| Ordering.CeilDiv | packages/backend/src/events/events.service.ts:88 | the page count is the fewest pages of the given size that hold the total |
| EventStore.Filter | packages/backend/src/events/events.service.ts:46-74 | the filtered rows are exactly the rows matching every given criterion, with their multiplicities |
| EventStore.PageParam | packages/backend/src/events/events.service.ts:40 | the page is the given number, or 1 when it is missing, zero or not a number |
| EventStore.LimitParam | packages/backend/src/events/events.service.ts:41 | the limit is the given number, or 20 when it is missing, zero or not a number |
| EventStore.FindAll | packages/backend/src/events/events.service.ts:39-90 | a page holds at most `limit` matching rows, newest first, with the matching total and its page count, and is non-empty whenever rows remain past the skip |
| EventStore.EveryMatchIsOnAPage | packages/backend/src/events/infrastructure/event.repository.ts:59-72 | every matching event appears on some page between 1 and the reported page count |
| EventStore.ToDto | packages/backend/src/events/application/event-query.service.ts:18-30 | the DTO copies every public field of the event |
| EventStore.ToDtoRoundTrip | packages/backend/src/events/application/event-query.service.ts:18-30 | DTO mapping loses only the creation time: mapping back restores the event and vice versa |
| EventStore.MapToDto | packages/backend/src/events/application/event-query.service.ts:78 | each row of the page is mapped in place |
| EventStore.GetEvents | packages/backend/src/events/application/event-query.service.ts:32-87 | the listing returns DTOs of matching events, newest first, at most `limit`, with the matching total and page count |
| EventStore.FindById | packages/backend/src/events/application/event-query.service.ts:90 | the lookup finds a row with that id, and none means no row has it |
| EventStore.GetEventById | packages/backend/src/events/application/event-query.service.ts:89-97 | the result is empty exactly when no event has the id, and otherwise it is that event's DTO |
| EventStore.CreatedEventIsFound | packages/backend/src/events/application/event-query.service.ts:89-97 | an event created with a new id can be looked up by that id and carries its shop and timestamp |
| EventStore.Create | packages/backend/src/events/events.service.ts:19-26 | a stored event copies the DTO, gets the given id and creation time, and takes the current time when no timestamp is given |
| EventStore.CreateBatch | packages/backend/src/events/events.service.ts:28-37 | each DTO of a batch becomes one stored event, in order |
| EventStore.FindByShopId | packages/backend/src/events/events.service.ts:92-97 | the shop's events are exactly the rows with that shop id, newest first |
| EventStore.EmptyShopIdDiffers | packages/backend/src/events/events.service.ts:92-97 | an empty shop id matches nothing in `findByShopId`, whereas the listing filter ignores it |
| Ingestion.ValidateEvent | packages/backend/src/events/application/event-ingestion.service.ts:87-100 | the first empty field among shopId, sessionId, eventType and eventName is reported, and none exactly when all are present |
| Ingestion.IngestEvent | packages/backend/src/events/application/event-ingestion.service.ts:19-41 | an event is stored exactly when it is valid, with a fresh id and its own or the current timestamp, and the notice repeats its id, shop, type and time |
| Ingestion.IngestBatch | packages/backend/src/events/application/event-ingestion.service.ts:43-85 | an empty batch is rejected; the first invalid event is reported with its index and field; otherwise every event is stored in order with one shared default timestamp, and the notice names the first shop |
| Ingestion.BatchSharesOneTimestamp | packages/backend/src/events/application/event-ingestion.service.ts:61-69 | events of a batch without their own timestamp all get the batch's timestamp |
| Ingestion.SingletonBatchIsSingleIngest | packages/backend/src/events/application/event-ingestion.service.ts:43-85 | a one-event batch succeeds or fails exactly as a single ingest does, failing at index 0 with the same field |
| Ingestion.OneInvalidRejectsBatch | packages/backend/src/events/application/event-ingestion.service.ts:48-59 | one invalid event rejects the whole batch, reported at or before its index |
| InsightStore.ByType | packages/backend/src/insights/infrastructure/insight.repository.ts:35-37 | the type clause keeps exactly the insights of that type, and all of them when no type is given |
| InsightStore.LimitOf | packages/backend/src/insights/infrastructure/insight.repository.ts:28 | the limit is at least 1, and 20 when absent, 0 or not a number |
| InsightStore.SkipOf | packages/backend/src/insights/infrastructure/insight.repository.ts:29-30 | an explicit offset, even 0, wins over the page |
| InsightStore.PageOfQuery | packages/backend/src/insights/infrastructure/insight.repository.ts:31 | the page is the given one, otherwise the page that the offset falls on |
| InsightStore.FindAll | packages/backend/src/insights/infrastructure/insight.repository.ts:25-53 | the listing holds at most `limit` insights of the requested type, newest first, with the type's total and its page count |
| InsightStore.OffsetAndPageAgree | packages/backend/src/insights/infrastructure/insight.repository.ts:29-31 | asking for page p and asking for offset (p-1)*limit give the same response |
| InsightStore.ReportedPageHoldsOffset | packages/backend/src/insights/infrastructure/insight.repository.ts:31 | with only an offset, the reported page is the one whose rows contain that offset |
| InsightStore.FindLatest | packages/backend/src/insights/infrastructure/insight.repository.ts:55-60 | the latest are the first `take` insights (10 by default), newest first; a take of 0 returns every insight |
| InsightStore.LatestIsFirstPage | packages/backend/src/insights/infrastructure/insight.repository.ts:55-60 | the latest n insights are the first page of the listing with limit n |
| InsightStore.LatestAreNewest | packages/backend/src/insights/infrastructure/insight.repository.ts:55-60 | no insight left out of the latest is newer than one kept |
| InsightStore.FindByType | packages/backend/src/insights/infrastructure/insight.repository.ts:62-67 | returns every insight of the type, and only those, newest first |
| InsightStore.ByTypeIsOneBigPage | packages/backend/src/insights/infrastructure/insight.repository.ts:62-67 | one page large enough for every row gives the same insights as `findByType` |
| Llm.LoadConfig | packages/backend/src/llm/llm.service.ts:52-81 | configuration fails exactly when neither API key is set; OpenAI is preferred when its key is set; model, max tokens (1024) and temperature (0.7) fall back to their defaults |
| Llm.ParseInt | packages/backend/src/llm/llm.service.ts:73-76 | parsing fails exactly when the text does not start with a digit |
| Llm.ParseIntRoundTrip | packages/backend/src/llm/llm.service.ts:73-76 | parsing a rendered number gives the number back |
| Llm.DefaultMaxTokensParses | packages/backend/src/llm/llm.service.ts:74 | the default max-tokens text parses to 1024 |
| Llm.TruncateTitle | packages/backend/src/llm/llm.service.ts:217 | a truncated title is a prefix of at most 60 characters (Unicode scalar values), and a short title is kept whole |
| Llm.Normalize | packages/backend/src/llm/llm.service.ts:215-220 | a kept candidate keeps its type, content and metadata (empty when absent) and has its title truncated |
| Llm.ValidateInsights | packages/backend/src/llm/llm.service.ts:201-221 | validation keeps at most the given candidates, each validated insight comes from a well-formed candidate, and every title is at most 60 characters |
| Llm.ValidateConcat | packages/backend/src/llm/llm.service.ts:202-214 | validating a concatenation is concatenating the validations, so the filter keeps order |
| Llm.ValidateOne | packages/backend/src/llm/llm.service.ts:203-220 | a single candidate is kept, normalised, exactly when it is an object with a known type, a title and content |
| Llm.KeptAreValidated | packages/backend/src/llm/llm.service.ts:203-214 | every well-formed candidate is among the validated insights |
| Llm.ValidateIdempotent | packages/backend/src/llm/llm.service.ts:201-221 | validating already validated insights changes nothing |
| Llm.ToInsight | packages/backend/src/llm/llm.service.ts:223-232 | the stored insight's id is `ins-` and the UUID, it is stamped now and copies type, title, content and metadata |
| Llm.ToInsightIdsDistinct | packages/backend/src/llm/llm.service.ts:225 | distinct UUIDs give distinct insight ids |
| Llm.ToInsights | packages/backend/src/llm/llm.service.ts:101-103 | each validated insight becomes one stored insight with its own UUID and its own clock reading, in order |
| Llm.GenerateInsight | packages/backend/src/llm/llm.service.ts:91-111 | a failed model call fails exactly with "Failed to generate insights"; otherwise one insight per validated candidate, in order, with its type, title, content and metadata, an `ins-` id, stamped with its own clock reading, with short titles |
| Shared.ParseInsightType | packages/backend/src/llm/llm.service.ts:210-212 | a type name is accepted exactly when it is summary, trend or anomaly |
| Shared.InsightTypeRoundTrip | packages/shared/src/types/insights.ts:4 | every insight type's name parses back to that type |
| Stats.CountsMap | packages/backend/src/stats/stats.service.ts:45-47 | the counts map has a key for exactly the event types among the rows |
| Stats.CountsMapLastWins | packages/backend/src/stats/stats.service.ts:45-47 | when a type repeats, the map keeps the count of its last row |
| Stats.KeyOrder | packages/backend/src/stats/stats.service.ts:49-52 | the summed keys are exactly the map's keys, each once |
| Stats.CountOf | packages/backend/src/stats/stats.service.ts:54 | a type with no row counts 0 |
| Stats.ConversionRate | packages/backend/src/stats/stats.service.ts:147-156 | the rate is 0 without product views, and otherwise purchases per viewing session in hundredths of a percent, rounded half up |
| Stats.ConversionRateBounded | packages/backend/src/stats/stats.service.ts:147-156 | with purchases at most views the rate lies between 0 and 100 %, is 100 % when they are equal and 0 without purchases |
| Stats.ProductMap | packages/backend/src/stats/stats.service.ts:33 | the product map has a key for exactly the catalog's ids |
| Stats.ProductName | packages/backend/src/stats/stats.service.ts:161 | the name is the catalog's non-empty name, or "Unknown Product" |
| Stats.MapTopProducts | packages/backend/src/stats/stats.service.ts:158-164 | each top product keeps its id and count, in order, and gets its catalog name |
| Stats.GetStats | packages/backend/src/stats/stats.service.ts:36-71 | the statistics carry the summed total, the per-type totals, the revenue (0 when null), the conversion rate and the named top products |
| Stats.GroupCount | packages/backend/src/stats/stats.service.ts:73-81 | grouping gives one row per type whose count is that type's number of events, with counts summing to the number of events |
| Stats.TotalOfDistinctRows | packages/backend/src/stats/stats.service.ts:45-52 | with one row per type, the total is the sum of the rows' counts |
| Stats.TotalEventsCountsEvents | packages/backend/src/stats/stats.service.ts:49-52 | over grouped counts, the total events equals the number of events |
| Stats.CountOfDistinctRows | packages/backend/src/stats/stats.service.ts:54 | with one row per type, a type's count is its row's count |
| Stats.PerTypeTotalsCountEvents | packages/backend/src/stats/stats.service.ts:63-66 | over grouped counts, page views, product views, add-to-carts and purchases each equal their number of events |
| Stats.TopProductsNamedFromCatalog | packages/backend/src/stats/stats.service.ts:158-164 | a top product takes the name of its last catalog entry when non-empty, and "Unknown Product" when it is not in the catalog |
| Chat.ConversationId | packages/backend/src/chat/chat.service.ts:25 | a given non-empty conversation id is kept, otherwise the fresh one is used |
| Chat.Tally | packages/backend/src/chat/chat.service.ts:83-89 | the summary has one row per event type, counting that type's events, with counts summing to the number of events |
| Chat.SummarizeEvents | packages/backend/src/chat/chat.service.ts:78-94 | the placeholder "No recent events." appears exactly when there are no events |
| Chat.ExtractSources | packages/backend/src/chat/chat.service.ts:96-123 | the sources are the stats source, then the events source when there are events, then the insights source when there are insights, with their counts in the references |
| Chat.SourcesReflectData | packages/backend/src/chat/chat.service.ts:108-120 | an events source is listed exactly when there are recent events and an insights source exactly when there are insights; the stats source is always listed |
| Chat.EventsReferenceNamesCount | packages/backend/src/chat/chat.service.ts:111 | the number in the events reference reads back as the number of recent events |
| Text.NatToStringRoundTrip | packages/backend/src/chat/chat.service.ts:111 | reading back the decimal text of a number gives the number |
| Chat.AskQuestion | packages/backend/src/chat/chat.service.ts:20-46 | the response carries the model's answer and the conversation id, and lists events exactly when an event of the shop exists and insights exactly when any exist |
| Chat.RecentIffMatches | packages/backend/src/chat/chat.service.ts:27-33 | the first page of the shop's recent events is non-empty exactly when some event belongs to the shop |
| Chat.ChatShopId | packages/backend/src/chat/chat.controller.ts:23 | an empty or absent shop id falls back to `shop_123` |
| Chat.AskQuestionAsWritten | packages/backend/src/chat/chat.service.ts:37 | as written, `askQuestion` fails with a missing `chat` method exactly when the injected service has none, and otherwise answers as `Chat.AskQuestion` |
| Chat.ReplyTo | packages/backend/src/chat/chat.controller.ts:25-39 | success returns the response; an `LlmServiceError` becomes a 500 with the retry message; any other error becomes the default 500 |
| Chat.EveryChatFailsAsWritten | packages/backend/src/chat/chat.service.ts:37 | with the `LlmService` that has only `onModuleInit` and `generateInsight`, every chat request ends in the default 500 |
| Chat.ChatAnswersWithChatMethod | packages/backend/src/chat/chat.service.ts:37-45 | with a service that has `chat`, the request answers with the model's answer, the conversation id and the sources `Chat.AskQuestion` lists |
| InsightsController.ShopIdOf | packages/backend/src/insights/insights.controller.ts:25 | a missing or empty shop id becomes `default` |
| InsightsController.ErrorResponse | packages/backend/src/insights/insights.controller.ts:33-58 | a model failure maps to 503 with its message when transient and to 500 with its message otherwise, and any other failure to a bare 500 |
| InsightsController.GenerateAsWritten | packages/backend/src/insights/insights.controller.ts:24-60 | as written: success passes the insights through, and a model failure is 503 exactly when its lower-cased message contains rate, timeout or unavailable as a substring |
| InsightsController.Generate | packages/backend/src/insights/insights.controller.ts:24-60 | corrected: success passes the insights through, and a model failure is 503 exactly when its message has rate, timeout or unavailable as a whole word |
| InsightsController.EveryLlmFailureIsUnavailableAsWritten | packages/backend/src/insights/insights.controller.ts:33-45 | as written, every failed model call becomes a 503, because "generate" contains "rate" |
| InsightsController.LlmFailureIsInternalError | packages/backend/src/insights/insights.controller.ts:47-51 | with whole-word matching, a failed model call becomes a 500 carrying the message |
| InsightsController.WholeWordImpliesSubstring | packages/backend/src/insights/insights.controller.ts:33-45 | every message the corrected check treats as transient is also treated as transient by the substring check |
| InsightsController.FailedMessageNotTransient | packages/backend/src/insights/insights.controller.ts:33-45 | the generation failure message has no transient keyword as a whole word |

## Left out

- Network, timers, the DOM, `localStorage` and logging are left out. Network answers, the clock, the page and the UUIDs are parameters. Cart persistence (`CartContext.tsx` lines 26-48 and 57-63) is not modelled.
- The language-model calls, prompt building and the extraction of JSON from the reply are left out. The reply is a parameter: either a failed call or the list of parsed candidates.
- Floating point is left out:
  - the conversion rate is computed in integer hundredths of a percent, rounded half up, where the code uses `Math.round(x * 100) / 100`;
  - the temperature stays the text it was read as.
- Llm.TruncateTitle: counts Unicode scalar values, the unit of a Dafny `char`. JavaScript's `slice(0, 60)` counts UTF-16 code units. So a title with characters outside the Basic Multilingual Plane, such as emoji, keeps fewer characters in the source, and a cut may split a surrogate pair. A split pair is a lone surrogate, which no Dafny string can hold.
- Llm.ParseInt: parses only a leading run of digits. Leading whitespace, signs and other radix prefixes accepted by `parseInt` are not modelled.
- Case mapping is ASCII only. That covers `toUpperCase` and `toLowerCase` on the event-type and message texts this code handles.
- The statistics' SQL queries are parameters: `getTotalRevenue`, `getTopProducts`, the grouped counts and the session counts. The chat's statistics only feed the prompt and are left out with it.
- Object.entries orders integer-like keys first. The model keeps first-insertion order for event-type keys, which are never integer-like here.
- Among events or insights with equal timestamps, the database's order is not modelled. Any newest-first order is allowed.
- Negative page, limit or offset values are not modelled. Query numbers are natural numbers.
- A stored insight's `createdAt` column is not modelled. Neither is the metadata check for truthy non-object values: metadata is a map or absent.
- Ingestion.IngestBatch: the `Array.isArray` check is not modelled. A batch is always a sequence, so only the empty batch is rejected.
- Batcher.FlushSync: follows the code. An XHR answered with a non-2xx status still leaves the queue empty; only a thrown XHR error restores it.
- Sender.Send: requires an answer for every possible attempt (more outcomes than `maxRetries`), because the environment always answers.
- Tracker: the getters `getConfig`, `isInitialized`, `getSessionId` and `getQueueLength` are left out. So is the random fallback of `generateId`; the session id is a parameter of `Tracker.Init`.
- PageView.Navigate: its contract covers only the unpatched history. The patched case is stated by `PageView.OnePageViewPerDistinctUrl`.
- PageView.OnePageViewPerDistinctUrl: the deferred `setTimeout(triggerPageView, 0)` after `pushState` and `replaceState` is modelled as running at once. Two navigations in the same tick (push A, then push B) emit only B in the source, but one page view each in the model. The same holds for `PageView.Navigate` and `Tracker.Navigate`.
- Tracker.Resolve: an absent option takes its default. A field present but explicitly `undefined` is not modelled. In the spread it overrides the default: `autoTrackPageViews: undefined` turns automatic page views off, and `batchSize: undefined` disables the size-triggered flush.
- PageView.ManualPageView: only forwards the captured properties; `Tracker.TrackPageView` states the manual page view.
- InsightStore.FindLatest: a `take` of 0 returns every insight, because TypeORM drops a falsy `take`.

## Findings

| source | as written | input that shows it | evidently intended | confidence | as-written member | corrected member |
|---|---|---|---|---|---|---|
| packages/backend/src/insights/insights.controller.ts:33-45 | a model failure is classified as transient (503) when its lower-cased message contains `rate`, `timeout` or `unavailable` as a substring | any failed model call: `generateInsight` (packages/backend/src/llm/llm.service.ts:107-110) always rethrows with the message "Failed to generate insights", and "gene**rate**" contains `rate` | only rate-limit, timeout or unavailability messages give 503; other model failures give 500 | not executed | InsightsController.EveryLlmFailureIsUnavailableAsWritten | InsightsController.LlmFailureIsInternalError |
| packages/backend/src/chat/chat.service.ts:37 | `askQuestion` calls `this.llmService.chat(contextPrompt, question)` on the `LlmService` imported from `../llm/llm.service`, which has no `chat` method (its public methods are `onModuleInit` and `generateInsight`) | any chat request, e.g. `{ message: "hi" }`: after the three queries the call throws a `TypeError`, which the controller rethrows, so the reply is Nest's default 500 | the question goes to a model client with a `chat` method and the answer is returned with the sources | not executed | Chat.EveryChatFailsAsWritten | Chat.ChatAnswersWithChatMethod |

=== FILE: batcher.dfy ===
/**
 * The tracker's event batcher (packages/tracker/src/batcher.ts) as an
 * explicit state machine.
 *
 * The asynchronous `flush` is split at its only suspension point:
 * `BeginFlush` runs the synchronous prefix (guards, snapshot, clear) and
 * `CompleteFlush` runs what follows the awaited send. Between the two, any
 * other step (an `add`, a timer tick, a sync flush, `destroy`) may happen.
 * The snapshot being sent lives in `inFlight`; `isFlushing` is `inFlight.Some?`.
 */
module Batcher {
  import opened Wrappers
  import opened Shared
  import Sender

  datatype BatcherConfig = BatcherConfig(
    batchSize: int,
    flushInterval: int,
    sender: Sender.SenderConfig,
    debug: bool)

  datatype Batcher = Batcher(
    config: BatcherConfig,
    queue: seq<CreateEventDto>,
    inFlight: Option<seq<CreateEventDto>>,
    destroyed: bool,
    timerRunning: bool,
    listenersAttached: bool)
  {
    predicate IsFlushing() {
      inFlight.Some?
    }
  }

  /** `FlushResult`. */
  datatype FlushResult = FlushResult(success: bool, eventCount: nat, error: Option<Sender.SendError>)

  datatype Added = Added(batcher: Batcher, flushTriggered: bool)

  datatype Completed = Completed(batcher: Batcher, result: FlushResult)

  /** What a synchronous flush left behind, reported, and handed to the transport. */
  datatype SyncFlush = SyncFlush(batcher: Batcher, ok: bool, sent: seq<CreateEventDto>)

  /** How the unload path reaches the network: a beacon if the browser has one, else a blocking XHR. */
  datatype SyncTransport = Beacon(queued: bool) | Xhr(status: int) | XhrThrows

  /** Every event the batcher still answers for: the batch in flight, then the queue. */
  function Outstanding(b: Batcher): seq<CreateEventDto> {
    (if b.IsFlushing() then b.inFlight.value else []) + b.queue
  }

  /** The constructor: empty queue, timer started, unload listeners attached when a window exists. */
  function New(config: BatcherConfig, hasWindow: bool): (b: Batcher)
    ensures Outstanding(b) == [] && !b.IsFlushing() && !b.destroyed
    ensures b.timerRunning && b.listenersAttached == hasWindow
    ensures b.config == config
  {
    Batcher(config, [], None, false, true, hasWindow)
  }

  /** `flush()` returns `{success: true, eventCount: 0}` at once and sends nothing. */
  predicate FlushSkips(b: Batcher) {
    |b.queue| == 0 || b.IsFlushing()
  }

  /** The synchronous part of `flush()`: the guards, then snapshot-and-clear before the send. */
  function BeginFlush(b: Batcher): (b': Batcher)
    ensures FlushSkips(b) ==> b' == b
    ensures !FlushSkips(b) ==> b'.inFlight == Some(b.queue) && b'.queue == []
    ensures b'.config == b.config && b'.destroyed == b.destroyed
    ensures b'.timerRunning == b.timerRunning && b'.listenersAttached == b.listenersAttached
    ensures Outstanding(b') == Outstanding(b)
  {
    if FlushSkips(b) then b
    else b.(inFlight := Some(b.queue), queue := [])
  }

  /**
   * What a `flush()` call resolves to without awaiting a send: the skip
   * result `{success: true, eventCount: 0}` when the queue is empty or a
   * flush is in flight, and nothing yet when `BeginFlush` started a send,
   * whose result `CompleteFlush` gives.
   */
  function SkippedFlushResult(b: Batcher): (r: Option<FlushResult>)
    ensures r.Some? <==> FlushSkips(b)
    ensures r.Some? ==> r.value.success && r.value.eventCount == 0 && r.value.error.None?
    ensures r.Some? ==> BeginFlush(b) == b
    ensures r.None? ==> |b.queue| > 0 && BeginFlush(b).inFlight == Some(b.queue)
  {
    if FlushSkips(b) then Some(FlushResult(true, 0, None)) else None
  }

  /**
   * The part of `flush()` after the awaited send of the in-flight snapshot:
   * re-queue the snapshot in front of newer events on a retryable failure,
   * then clear `isFlushing`.
   */
  function CompleteFlush(b: Batcher, outcomes: seq<Sender.HttpOutcome>): (c: Completed)
    requires b.IsFlushing()
    requires |outcomes| > Sender.MaxRetriesOf(b.config.sender)
    ensures !c.batcher.IsFlushing()
    ensures c.result.eventCount == |b.inFlight.value|
    ensures var r := Sender.Send(b.inFlight.value, b.config.sender, outcomes).result;
            && c.result.success == r.Sent?
            && (r.Failed? && r.retryable ==> c.batcher.queue == b.inFlight.value + b.queue)
            && (!(r.Failed? && r.retryable) ==> c.batcher.queue == b.queue)
    ensures c.batcher.config == b.config && c.batcher.destroyed == b.destroyed
    ensures c.batcher.timerRunning == b.timerRunning && c.batcher.listenersAttached == b.listenersAttached
  {
    var snapshot := b.inFlight.value;
    var r := Sender.Send(snapshot, b.config.sender, outcomes).result;
    var result := FlushResult(r.Sent?, |snapshot|, if r.Failed? then Some(r.error) else None);
    var queue := if r.Failed? && r.retryable then snapshot + b.queue else b.queue;
    Completed(b.(queue := queue, inFlight := None), result)
  }

  /** `add(event)`: dropped when destroyed; otherwise appended, and a flush triggered at `batchSize`. */
  function Add(b: Batcher, e: CreateEventDto): (a: Added)
    ensures b.destroyed ==> a == Added(b, false)
    ensures !b.destroyed ==> a.flushTriggered == (|b.queue| + 1 >= b.config.batchSize)
    ensures !b.destroyed ==> Outstanding(a.batcher) == Outstanding(b) + [e]
    ensures !b.destroyed && !a.flushTriggered ==> a.batcher == b.(queue := b.queue + [e])
    ensures a.flushTriggered && !b.IsFlushing() ==> a.batcher.inFlight == Some(b.queue + [e]) && a.batcher.queue == []
    ensures a.flushTriggered && b.IsFlushing() ==> a.batcher == b.(queue := b.queue + [e])
    ensures a.batcher.destroyed == b.destroyed && a.batcher.config == b.config
  {
    if b.destroyed then Added(b, false)
    else
      var appended := b.(queue := b.queue + [e]);
      if |appended.queue| >= b.config.batchSize then Added(BeginFlush(appended), true)
      else Added(appended, false)
  }

  /** The interval callback: flush only a non-empty queue of a live batcher. */
  function TimerTick(b: Batcher): (b': Batcher)
    ensures !b.timerRunning || b.destroyed || |b.queue| == 0 ==> b' == b
    ensures Outstanding(b') == Outstanding(b)
  {
    if b.timerRunning && |b.queue| > 0 && !b.destroyed then BeginFlush(b) else b
  }

  /**
   * `flushSync()`: snapshot and clear, hand the snapshot to the beacon or
   * the XHR; a refused beacon or a throwing XHR puts it back, a non-2xx XHR
   * status does not.
   */
  function FlushSync(b: Batcher, transport: SyncTransport): (s: SyncFlush)
    ensures |b.queue| == 0 ==> s == SyncFlush(b, true, [])
    ensures |b.queue| > 0 ==> s.sent == b.queue
    ensures |b.queue| > 0 ==> s.ok == (transport == Beacon(true) || (transport.Xhr? && 200 <= transport.status < 300))
    ensures |b.queue| > 0 && (transport == Beacon(false) || transport.XhrThrows?) ==> s.batcher == b
    ensures |b.queue| > 0 && (transport == Beacon(true) || transport.Xhr?) ==> s.batcher == b.(queue := [])
  {
    if |b.queue| == 0 then SyncFlush(b, true, [])
    else
      var snapshot := b.queue;
      var cleared := b.(queue := []);
      match transport
      case Beacon(queued) =>
        if queued then SyncFlush(cleared, true, snapshot)
        else SyncFlush(cleared.(queue := snapshot), false, snapshot)
      case Xhr(status) => SyncFlush(cleared, 200 <= status < 300, snapshot)
      case XhrThrows => SyncFlush(cleared.(queue := snapshot), false, snapshot)
  }

  /** The `beforeunload` listener, present until `destroy` removes it. */
  function OnBeforeUnload(b: Batcher, transport: SyncTransport): (s: SyncFlush)
    ensures !b.listenersAttached ==> s == SyncFlush(b, true, [])
    ensures b.listenersAttached ==> s == FlushSync(b, transport)
  {
    if b.listenersAttached then FlushSync(b, transport) else SyncFlush(b, true, [])
  }

  /** The `visibilitychange` listener: a sync flush only when the page became hidden. */
  function OnVisibilityChange(b: Batcher, hidden: bool, transport: SyncTransport): (s: SyncFlush)
    ensures !(b.listenersAttached && hidden) ==> s == SyncFlush(b, true, [])
    ensures b.listenersAttached && hidden ==> s == FlushSync(b, transport)
  {
    if b.listenersAttached && hidden then FlushSync(b, transport) else SyncFlush(b, true, [])
  }

  /** `destroy()`: once only; stop the timer, drop the listeners, one last sync flush. */
  function Destroy(b: Batcher, transport: SyncTransport): (s: SyncFlush)
    ensures b.destroyed ==> s == SyncFlush(b, true, [])
    ensures s.batcher.destroyed
    ensures !b.destroyed ==> !s.batcher.timerRunning && !s.batcher.listenersAttached
    ensures !b.destroyed ==> s.sent == b.queue
    ensures s.batcher.inFlight == b.inFlight && s.batcher.config == b.config
  {
    if b.destroyed then SyncFlush(b, true, [])
    else FlushSync(b.(destroyed := true, timerRunning := false, listenersAttached := false), transport)
  }

  /** Feeds events to `Add` one after another. */
  function AddAll(b: Batcher, es: seq<CreateEventDto>): Batcher
    decreases |es|
  {
    if es == [] then b else AddAll(Add(b, es[0]).batcher, es[1..])
  }

  /**
   * On any failure other than a retryable one the snapshot is gone; on a
   * retryable failure nothing outstanding is lost and the retried events
   * stay ahead of everything added while they were in flight.
   */
  lemma RetryableFailureLosesNothing(b: Batcher, outcomes: seq<Sender.HttpOutcome>)
    requires b.IsFlushing()
    requires |outcomes| > Sender.MaxRetriesOf(b.config.sender)
    requires var r := Sender.Send(b.inFlight.value, b.config.sender, outcomes).result;
             r.Failed? && r.retryable
    ensures Outstanding(CompleteFlush(b, outcomes).batcher) == Outstanding(b)
    ensures CompleteFlush(b, outcomes).batcher.queue[..|b.inFlight.value|] == b.inFlight.value
  {
  }

  /** While a send is in flight, no trigger starts a second one. */
  lemma NoOverlappingSends(b: Batcher, e: CreateEventDto)
    requires b.IsFlushing()
    ensures BeginFlush(b) == b
    ensures TimerTick(b).inFlight == b.inFlight
    ensures Add(b, e).batcher.inFlight == b.inFlight
  {
  }

  /**
   * Below `batchSize`, adds only queue; the add that reaches `batchSize`
   * triggers the one flush, whose snapshot is every queued event.
   */
  lemma {:induction false} AddsBelowBatchSizeOnlyQueue(b: Batcher, es: seq<CreateEventDto>)
    requires !b.destroyed && !b.IsFlushing()
    requires |b.queue| + |es| < b.config.batchSize
    ensures AddAll(b, es) == b.(queue := b.queue + es)
    decreases |es|
  {
    if es != [] {
      var b1 := Add(b, es[0]).batcher;
      assert b1 == b.(queue := b.queue + [es[0]]);
      AddsBelowBatchSizeOnlyQueue(b1, es[1..]);
      assert b.queue + [es[0]] + es[1..] == b.queue + es;
    }
  }

  /** The size trigger: a fresh batcher given exactly `batchSize` events sends them all as one snapshot. */
  lemma BatchSizeTriggersOneFlush(config: BatcherConfig, hasWindow: bool, es: seq<CreateEventDto>)
    requires |es| == config.batchSize && |es| >= 1
    ensures var b := AddAll(New(config, hasWindow), es[..|es| - 1]);
            var a := Add(b, es[|es| - 1]);
            && !b.IsFlushing()
            && a.flushTriggered
            && a.batcher.inFlight == Some(es)
            && a.batcher.queue == []
  {
    var b0 := New(config, hasWindow);
    AddsBelowBatchSizeOnlyQueue(b0, es[..|es| - 1]);
    var b := AddAll(b0, es[..|es| - 1]);
    assert b.queue == es[..|es| - 1];
    assert b.queue + [es[|es| - 1]] == es;
  }

  /**
   * The unload handlers either hand the whole queue to the transport and
   * leave it empty, or leave the batcher exactly as it was; a visible page
   * and a detached listener send nothing. The batch in flight is never touched.
   */
  lemma PageExitDrainsOrKeepsQueue(b: Batcher, hidden: bool, t: SyncTransport)
    ensures var s := OnVisibilityChange(b, hidden, t);
            s.batcher == b || (b.listenersAttached && hidden && s.batcher == b.(queue := []) && s.sent == b.queue)
    ensures var s := OnBeforeUnload(b, t);
            s.batcher == b || (b.listenersAttached && s.batcher == b.(queue := []) && s.sent == b.queue)
    ensures !hidden ==> OnVisibilityChange(b, hidden, t).sent == []
    ensures b.listenersAttached && hidden && |b.queue| > 0 && (t == Beacon(true) || t.Xhr?)
            ==> OnVisibilityChange(b, hidden, t).batcher.queue == []
  {
  }

  /** A second `destroy` does nothing and sends nothing; a destroyed batcher drops every `add`. */
  lemma DestroyIsIdempotent(b: Batcher, t1: SyncTransport, t2: SyncTransport, e: CreateEventDto)
    ensures var d := Destroy(b, t1).batcher;
            Destroy(d, t2) == SyncFlush(d, true, []) && Add(d, e) == Added(d, false)
  {
  }
}

=== FILE: cart.dfy ===
/**
 * The shop's cart reducers (packages/shop/src/context/CartContext.tsx).
 *
 * Prices are integers (cents), so totals are exact. Each reducer is the
 * function it passes to `setCart`, from the previous cart to the next.
 */
module Cart {
  import opened Wrappers

  datatype CartItem = CartItem(productId: string, productName: string, price: int, quantity: int)

  /** What `addToCart` receives: an item without its quantity. */
  datatype NewItem = NewItem(productId: string, productName: string, price: int)

  datatype Cart = Cart(items: seq<CartItem>, total: int)

  /** `defaultCart`. */
  const EmptyCart: Cart := Cart([], 0)

  /** Σ price × quantity over the items: `calculateTotal`. */
  function Total(items: seq<CartItem>): int {
    if items == [] then 0 else items[0].price * items[0].quantity + Total(items[1..])
  }

  lemma {:induction false} TotalAppend(a: seq<CartItem>, b: seq<CartItem>)
    ensures Total(a + b) == Total(a) + Total(b)
    decreases |a|
  {
    if a == [] {
      assert a + b == b;
    } else {
      assert (a + b)[1..] == a[1..] + b;
      TotalAppend(a[1..], b);
    }
  }

  /** Changing one item's line changes the total by exactly the line's change. */
  lemma {:induction false} TotalUpdate(items: seq<CartItem>, k: nat, x: CartItem)
    requires k < |items|
    ensures Total(items[k := x]) == Total(items) - items[k].price * items[k].quantity + x.price * x.quantity
    decreases |items|
  {
    if k > 0 {
      assert items[k := x][1..] == items[1..][k - 1 := x];
      TotalUpdate(items[1..], k - 1, x);
    }
  }

  /** `items.findIndex(i => i.productId === productId)`. */
  function FindIndex(items: seq<CartItem>, productId: string): (k: Option<nat>)
    ensures k.Some? ==> k.value < |items| && items[k.value].productId == productId
    ensures k.Some? ==> forall j :: 0 <= j < k.value ==> items[j].productId != productId
    ensures k.None? ==> forall j :: 0 <= j < |items| ==> items[j].productId != productId
  {
    if items == [] then None
    else if items[0].productId == productId then Some(0)
    else
      var k := FindIndex(items[1..], productId);
      if k.Some? then Some(k.value + 1) else None
  }

  /** `items.filter(i => i.productId !== productId)`. */
  function Without(items: seq<CartItem>, productId: string): (r: seq<CartItem>)
    ensures |r| <= |items|
    ensures forall x :: x in r <==> x in items && x.productId != productId
  {
    if items == [] then []
    else (if items[0].productId == productId then [] else [items[0]]) + Without(items[1..], productId)
  }

  /** `items.map(i => i.productId === productId ? {...i, quantity: i.quantity - 1} : i)`. */
  function DecrementAll(items: seq<CartItem>, productId: string): (r: seq<CartItem>)
    ensures |r| == |items|
    ensures forall j :: 0 <= j < |items| && items[j].productId != productId ==> r[j] == items[j]
    ensures forall j :: 0 <= j < |items| && items[j].productId == productId ==> r[j] == items[j].(quantity := items[j].quantity - 1)
  {
    if items == [] then []
    else
      var head := if items[0].productId == productId then items[0].(quantity := items[0].quantity - 1) else items[0];
      [head] + DecrementAll(items[1..], productId)
  }

  /** `addToCart(item)`: one more of an item already in the cart, or a new line with quantity 1 at the end. */
  function AddToCart(cart: Cart, item: NewItem): (r: Cart)
    ensures r.total == Total(r.items)
    ensures var k := FindIndex(cart.items, item.productId);
            k.Some? ==>
              && |r.items| == |cart.items|
              && r.items[k.value] == cart.items[k.value].(quantity := cart.items[k.value].quantity + 1)
              && forall j :: 0 <= j < |cart.items| && j != k.value ==> r.items[j] == cart.items[j]
    ensures FindIndex(cart.items, item.productId).None? ==>
              r.items == cart.items + [CartItem(item.productId, item.productName, item.price, 1)]
  {
    var k := FindIndex(cart.items, item.productId);
    var items :=
      if k.Some? then cart.items[k.value := cart.items[k.value].(quantity := cart.items[k.value].quantity + 1)]
      else cart.items + [CartItem(item.productId, item.productName, item.price, 1)];
    Cart(items, Total(items))
  }

  /**
   * `removeFromCart(productId)`: decided by the first matching line; more
   * than one left means one fewer, otherwise the product leaves the cart.
   */
  function RemoveFromCart(cart: Cart, productId: string): (r: Cart)
    ensures FindIndex(cart.items, productId).None? ==> r == cart
    ensures var k := FindIndex(cart.items, productId);
            k.Some? ==> r.total == Total(r.items)
    ensures var k := FindIndex(cart.items, productId);
            k.Some? && cart.items[k.value].quantity > 1 ==>
              && |r.items| == |cart.items|
              && forall j :: 0 <= j < |cart.items| ==>
                   r.items[j] == if cart.items[j].productId == productId
                                 then cart.items[j].(quantity := cart.items[j].quantity - 1)
                                 else cart.items[j]
    ensures var k := FindIndex(cart.items, productId);
            k.Some? && cart.items[k.value].quantity <= 1 ==>
              && r == RemoveItem(cart, productId)
              && forall x :: x in r.items <==> x in cart.items && x.productId != productId
  {
    var k := FindIndex(cart.items, productId);
    if k.None? then cart
    else
      var items :=
        if cart.items[k.value].quantity > 1 then DecrementAll(cart.items, productId)
        else Without(cart.items, productId);
      Cart(items, Total(items))
  }

  /**
   * `removeItem(productId)`: every line of the product leaves the cart; the
   * other lines stay, each as often as before and in their order.
   */
  function RemoveItem(cart: Cart, productId: string): (r: Cart)
    ensures r.total == Total(r.items)
    ensures forall x :: x in r.items <==> x in cart.items && x.productId != productId
    ensures forall x :: multiset(r.items)[x] == if x.productId != productId then multiset(cart.items)[x] else 0
    ensures Subsequence(r.items, cart.items)
  {
    WithoutKeepsOrder(cart.items, productId);
    var items := Without(cart.items, productId);
    Cart(items, Total(items))
  }

  /** `a` is `b` with some elements left out, the rest in their order. */
  predicate Subsequence(a: seq<CartItem>, b: seq<CartItem>)
    decreases |b|
  {
    if a == [] then true
    else if b == [] then false
    else (a[0] == b[0] && Subsequence(a[1..], b[1..])) || Subsequence(a, b[1..])
  }

  /** The filter keeps each surviving line as often as before, in its order. */
  lemma WithoutKeepsOrder(items: seq<CartItem>, productId: string)
    ensures forall x :: multiset(Without(items, productId))[x]
                        == if x.productId != productId then multiset(items)[x] else 0
    ensures Subsequence(Without(items, productId), items)
  {
    WithoutCounts(items, productId);
    WithoutIsSubsequence(items, productId);
  }

  lemma {:induction false} WithoutCounts(items: seq<CartItem>, productId: string)
    ensures forall x :: multiset(Without(items, productId))[x]
                        == if x.productId != productId then multiset(items)[x] else 0
    decreases |items|
  {
    if items != [] {
      WithoutCounts(items[1..], productId);
      assert items == [items[0]] + items[1..];
      var head := if items[0].productId == productId then [] else [items[0]];
      assert Without(items, productId) == head + Without(items[1..], productId);
      assert multiset(Without(items, productId)) == multiset(head) + multiset(Without(items[1..], productId));
    }
  }

  lemma {:induction false} WithoutIsSubsequence(items: seq<CartItem>, productId: string)
    ensures Subsequence(Without(items, productId), items)
    decreases |items|
  {
    if items != [] {
      var rest := Without(items[1..], productId);
      WithoutIsSubsequence(items[1..], productId);
      if items[0].productId == productId {
        assert Without(items, productId) == rest;
        SubsequenceOfTail(rest, items);
      } else {
        var r := [items[0]] + rest;
        assert Without(items, productId) == r;
        assert r[0] == items[0] && r[1..] == rest;
      }
    }
  }

  lemma SubsequenceOfTail(a: seq<CartItem>, b: seq<CartItem>)
    requires b != [] && Subsequence(a, b[1..])
    ensures Subsequence(a, b)
  {
  }

  /** `clearCart()`. */
  function ClearCart(cart: Cart): (r: Cart)
    ensures r.items == [] && r.total == 0
  {
    EmptyCart
  }

  /** The filter keeps the surviving lines in their order: it distributes over concatenation. */
  lemma {:induction false} WithoutAppend(a: seq<CartItem>, b: seq<CartItem>, productId: string)
    ensures Without(a + b, productId) == Without(a, productId) + Without(b, productId)
    decreases |a|
  {
    if a == [] {
      assert a + b == b;
    } else {
      assert (a + b)[1..] == a[1..] + b;
      WithoutAppend(a[1..], b, productId);
    }
  }

  /** Without a line of that product, the filter changes nothing. */
  lemma {:induction false} WithoutAbsent(items: seq<CartItem>, productId: string)
    requires forall j :: 0 <= j < |items| ==> items[j].productId != productId
    ensures Without(items, productId) == items
    decreases |items|
  {
    if items != [] {
      WithoutAbsent(items[1..], productId);
    }
  }

  /** The cart as the reducers keep it: one line per product, positive quantities, the total in step. */
  predicate WellFormed(cart: Cart) {
    DistinctIds(cart.items) && PositiveQuantities(cart.items) && cart.total == Total(cart.items)
  }

  predicate DistinctIds(items: seq<CartItem>) {
    forall i, j :: 0 <= i < j < |items| ==> items[i].productId != items[j].productId
  }

  predicate PositiveQuantities(items: seq<CartItem>) {
    forall i :: 0 <= i < |items| ==> items[i].quantity >= 1
  }

  /** Adding one of a product raises the total by exactly its price. */
  lemma AddRaisesTotalByPrice(cart: Cart, item: NewItem)
    requires cart.total == Total(cart.items)
    ensures var k := FindIndex(cart.items, item.productId);
            AddToCart(cart, item).total == cart.total + (if k.Some? then cart.items[k.value].price else item.price)
  {
    var k := FindIndex(cart.items, item.productId);
    if k.Some? {
      var x := cart.items[k.value];
      TotalUpdate(cart.items, k.value, x.(quantity := x.quantity + 1));
    } else {
      var line := CartItem(item.productId, item.productName, item.price, 1);
      TotalAppend(cart.items, [line]);
    }
  }

  /** With one line per product, the first match is the only match. */
  lemma OnlyMatch(items: seq<CartItem>, productId: string, k: nat)
    requires DistinctIds(items)
    requires FindIndex(items, productId) == Some(k)
    ensures forall j :: 0 <= j < |items| && j != k ==> items[j].productId != productId
  {
    forall j | 0 <= j < |items| && j != k
      ensures items[j].productId != productId
    {
      if j > k {
        assert items[k].productId != items[j].productId;
      }
    }
  }

  /** A product not yet in the cart is found at the line appended for it. */
  lemma {:induction false} FindAppended(items: seq<CartItem>, x: CartItem)
    requires forall j :: 0 <= j < |items| ==> items[j].productId != x.productId
    ensures FindIndex(items + [x], x.productId) == Some(|items|)
    decreases |items|
  {
    if items == [] {
      assert items + [x] == [x];
    } else {
      assert (items + [x])[1..] == items[1..] + [x];
      FindAppended(items[1..], x);
    }
  }

  lemma AddPreservesWellFormed(cart: Cart, item: NewItem)
    requires WellFormed(cart)
    ensures WellFormed(AddToCart(cart, item))
  {
    var a := AddToCart(cart, item);
    if FindIndex(cart.items, item.productId).None? {
      forall i, j | 0 <= i < j < |a.items|
        ensures a.items[i].productId != a.items[j].productId
      {
        if j == |cart.items| {
          assert a.items[i] == cart.items[i];
        }
      }
    }
  }

  lemma RemoveFromCartPreservesWellFormed(cart: Cart, productId: string)
    requires WellFormed(cart)
    ensures WellFormed(RemoveFromCart(cart, productId))
  {
    var k := FindIndex(cart.items, productId);
    if k.Some? {
      if cart.items[k.value].quantity > 1 {
        OnlyMatch(cart.items, productId, k.value);
        var r := DecrementAll(cart.items, productId);
        assert forall i :: 0 <= i < |r| ==> r[i].productId == cart.items[i].productId;
      } else {
        assert RemoveFromCart(cart, productId).items == Without(cart.items, productId);
        WithoutKeepsDistinct(cart.items, productId);
      }
    }
  }

  lemma RemoveItemPreservesWellFormed(cart: Cart, productId: string)
    requires WellFormed(cart)
    ensures WellFormed(RemoveItem(cart, productId))
  {
    var r := RemoveItem(cart, productId);
    assert r.items == Without(cart.items, productId);
    WithoutKeepsDistinct(cart.items, productId);
  }

  lemma {:induction false} WithoutKeepsDistinct(items: seq<CartItem>, productId: string)
    requires DistinctIds(items) && PositiveQuantities(items)
    ensures DistinctIds(Without(items, productId)) && PositiveQuantities(Without(items, productId))
    decreases |items|
  {
    WithoutKeepsPositive(items, productId);
    if items != [] {
      WithoutKeepsDistinct(items[1..], productId);
      var rest := Without(items[1..], productId);
      if items[0].productId != productId {
        HeadNotInTail(items);
        assert Without(items, productId) == [items[0]] + rest;
        ConsDistinct(items[0], rest);
      } else {
        assert Without(items, productId) == rest;
      }
    }
  }

  lemma WithoutKeepsPositive(items: seq<CartItem>, productId: string)
    requires PositiveQuantities(items)
    ensures PositiveQuantities(Without(items, productId))
  {
    var r := Without(items, productId);
    forall i | 0 <= i < |r|
      ensures r[i].quantity >= 1
    {
      assert r[i] in items;
    }
  }

  /** With one line per product, no later line shares the first line's product. */
  lemma HeadNotInTail(items: seq<CartItem>)
    requires DistinctIds(items) && items != []
    ensures forall x :: x in items[1..] ==> x.productId != items[0].productId
  {
    forall x | x in items[1..]
      ensures x.productId != items[0].productId
    {
      var j :| 0 <= j < |items[1..]| && items[1..][j] == x;
      assert items[j + 1] == x;
    }
  }

  lemma ConsDistinct(h: CartItem, rest: seq<CartItem>)
    requires DistinctIds(rest)
    requires forall x :: x in rest ==> x.productId != h.productId
    ensures DistinctIds([h] + rest)
  {
    var r := [h] + rest;
    forall i, j | 0 <= i < j < |r|
      ensures r[i].productId != r[j].productId
    {
      assert r[j] == rest[j - 1];
      if i > 0 {
        assert r[i] == rest[i - 1];
      } else {
        assert rest[j - 1] in rest;
      }
    }
  }

  /** Removing one of what was just added gives back the cart as it was. */
  lemma AddThenRemoveRestores(cart: Cart, item: NewItem)
    requires WellFormed(cart)
    ensures RemoveFromCart(AddToCart(cart, item), item.productId) == cart
  {
    var k := FindIndex(cart.items, item.productId);
    if k.Some? {
      AddExistingThenRemove(cart, item, k.value);
    } else {
      AddNewThenRemove(cart, item);
    }
  }

  lemma AddExistingThenRemove(cart: Cart, item: NewItem, k: nat)
    requires WellFormed(cart)
    requires FindIndex(cart.items, item.productId) == Some(k)
    ensures RemoveFromCart(AddToCart(cart, item), item.productId) == cart
  {
    var id := item.productId;
    var a := AddToCart(cart, item);
    OnlyMatch(cart.items, id, k);
    assert FindIndex(a.items, id) == Some(k);
    assert a.items[k].quantity > 1;
    var d := DecrementAll(a.items, id);
    assert RemoveFromCart(a, id) == Cart(d, Total(d));
    assert forall j :: 0 <= j < |d| ==> d[j] == cart.items[j];
    assert d == cart.items;
  }

  lemma AddNewThenRemove(cart: Cart, item: NewItem)
    requires WellFormed(cart)
    requires FindIndex(cart.items, item.productId).None?
    ensures RemoveFromCart(AddToCart(cart, item), item.productId) == cart
  {
    var id := item.productId;
    var a := AddToCart(cart, item);
    var line := CartItem(id, item.productName, item.price, 1);
    assert a.items == cart.items + [line];
    FindAppended(cart.items, line);
    assert a.items[|cart.items|].quantity == 1;
    var w := Without(a.items, id);
    assert RemoveFromCart(a, id) == Cart(w, Total(w));
    WithoutAppend(cart.items, [line], id);
    WithoutAbsent(cart.items, id);
    assert Without([line], id) == [];
    assert w == cart.items;
  }
}

=== FILE: chat.dfy ===
/**
 * The analytics chat (packages/backend/src/chat/chat.service.ts): the
 * conversation id, the per-type summary of the recent events, and the
 * sources listed with an answer.
 *
 * The model's answer and the fresh UUID are parameters; the statistics only
 * feed the prompt, which is left out.
 *
 * As written, the service calls a `chat` method that the injected
 * `LlmService` does not have: `AskQuestionAsWritten` and the controller's
 * `ReplyTo` show every request failing, and `AskQuestion` is the intended
 * answer.
 */
module Chat {
  import opened Wrappers
  import opened Text
  import Stats
  import EventStore
  import InsightStore
  import opened Shared
  import opened Paging

  const RecentEventsLimit: nat := 50
  const RecentInsightsLimit: nat := 5
  const NoRecentEvents: string := "No recent events."
  const StatsReference: string := "Aggregated shop statistics"

  datatype ChatSource = ChatSource(sourceType: string, reference: string)

  datatype ChatResponse = ChatResponse(answer: string, conversationId: string, sources: seq<ChatSource>)

  /** `conversationId || randomUUID()`. */
  function ConversationId(given: Option<string>, freshId: string): (id: string)
    ensures given.Some? && given.value != "" ==> id == given.value
    ensures !(given.Some? && given.value != "") ==> id == freshId
  {
    if given.Some? && given.value != "" then given.value else freshId
  }

  function TypesOf(events: seq<EventStore.Event>): (ts: seq<string>)
    ensures |ts| == |events|
    ensures forall i :: 0 <= i < |events| ==> ts[i] == events[i].eventType
  {
    if events == [] then [] else [events[0].eventType] + TypesOf(events[1..])
  }

  /**
   * The `reduce` into `byType`: one entry per event type, in the order the
   * types first appear, counting that type's events.
   */
  function Tally(events: seq<EventStore.Event>): (rows: seq<Stats.CountRow>)
    ensures Stats.DistinctTypes(rows)
    ensures Stats.SumCounts(rows) == |events|
    ensures forall t :: Stats.CountFor(rows, t) == Stats.Occurrences(TypesOf(events), t)
  {
    Stats.GroupCount(TypesOf(events))
  }

  function SummaryLine(row: Stats.CountRow): string {
    "- " + row.eventType + ": " + NatToString(row.count) + " events"
  }

  function SummaryLines(rows: seq<Stats.CountRow>): (lines: seq<string>)
    ensures |lines| == |rows|
    ensures forall i :: 0 <= i < |rows| ==> lines[i] == SummaryLine(rows[i])
  {
    if rows == [] then [] else [SummaryLine(rows[0])] + SummaryLines(rows[1..])
  }

  /** `summarizeEvents(events)`: a placeholder for no events, otherwise one line per type. */
  function SummarizeEvents(events: seq<EventStore.Event>): (s: string)
    ensures events == [] <==> s == NoRecentEvents
  {
    if events == [] then NoRecentEvents
    else
      var lines := SummaryLines(Tally(events));
      assert |lines| >= 1 by {
        assert |Tally(events)| >= 1;
      }
      SummaryStartsWithDash(lines);
      Join("\n", lines)
  }

  /** A non-empty summary starts with a line's `-`, so it is never the placeholder. */
  lemma SummaryStartsWithDash(lines: seq<string>)
    requires |lines| >= 1 && forall i :: 0 <= i < |lines| ==> |lines[i]| >= 1 && lines[i][0] == '-'
    ensures |Join("\n", lines)| >= 1 && Join("\n", lines)[0] == '-'
  {
    if |lines| >= 2 {
      assert Join("\n", lines) == lines[0] + "\n" + Join("\n", lines[1..]);
    }
  }

  /** `extractSources(stats, recentEvents, insights)`, from the two list lengths. */
  function ExtractSources(recentEvents: nat, insights: nat): (ss: seq<ChatSource>)
    ensures 1 <= |ss| <= 3
    ensures ss[0] == ChatSource("stats", StatsReference)
    ensures |ss| == 1 + (if recentEvents > 0 then 1 else 0) + (if insights > 0 then 1 else 0)
    ensures recentEvents > 0 ==> ss[1] == ChatSource("events", "Last " + NatToString(recentEvents) + " events")
    ensures insights > 0 ==> ss[|ss| - 1] == ChatSource("insights", NatToString(insights) + " recent insights")
  {
    [ChatSource("stats", StatsReference)]
    + (if recentEvents > 0 then [ChatSource("events", "Last " + NatToString(recentEvents) + " events")] else [])
    + (if insights > 0 then [ChatSource("insights", NatToString(insights) + " recent insights")] else [])
  }

  predicate HasSource(ss: seq<ChatSource>, sourceType: string) {
    exists i :: 0 <= i < |ss| && ss[i].sourceType == sourceType
  }

  /** An `events` source is listed iff there are recent events, and an `insights` source iff there are insights. */
  lemma SourcesReflectData(recentEvents: nat, insights: nat)
    ensures HasSource(ExtractSources(recentEvents, insights), "events") <==> recentEvents > 0
    ensures HasSource(ExtractSources(recentEvents, insights), "insights") <==> insights > 0
    ensures HasSource(ExtractSources(recentEvents, insights), "stats")
  {
    var ss := ExtractSources(recentEvents, insights);
    assert ss[0].sourceType == "stats";
    if recentEvents > 0 {
      assert ss[1].sourceType == "events";
    }
    if insights > 0 {
      assert ss[|ss| - 1].sourceType == "insights";
    }
  }

  /** The count in the `events` reference reads back as the number of recent events. */
  lemma EventsReferenceNamesCount(recentEvents: nat)
    requires recentEvents > 0
    ensures var r := ExtractSources(recentEvents, 0)[1].reference;
            var digits := r[5..|r| - 7];
            && r == "Last " + digits + " events"
            && (forall i :: 0 <= i < |digits| ==> '0' <= digits[i] <= '9')
            && DigitsValue(digits) == recentEvents
  {
    var r := ExtractSources(recentEvents, 0)[1].reference;
    var n := NatToString(recentEvents);
    assert r == "Last " + n + " events";
    assert r[5..|r| - 7] == n;
    NatToStringRoundTrip(recentEvents);
  }

  /** `findAll({ shopId, limit: 50 })`. */
  function RecentEventsQuery(shopId: string): EventStore.EventsQuery {
    EventStore.EventsQuery(EventStore.EventFilter(Some(shopId), None, None, None, None), Missing, Value(RecentEventsLimit))
  }

  /**
   * `askQuestion(question, shopId, conversationId)` against the event and
   * insight tables; `answer` is what the model replied.
   */
  function AskQuestion(
    shopId: string, conversationId: Option<string>, freshId: string,
    events: seq<EventStore.Event>, insights: seq<Insight>, answer: string): (r: ChatResponse)
    ensures r.answer == answer
    ensures r.conversationId == ConversationId(conversationId, freshId)
    ensures 1 <= |r.sources| <= 3 && r.sources[0].sourceType == "stats"
    ensures HasSource(r.sources, "events") <==>
              exists e :: e in events && EventStore.Matches(e, RecentEventsQuery(shopId).filter)
    ensures HasSource(r.sources, "insights") <==> insights != []
  {
    var recent := EventStore.FindAll(events, RecentEventsQuery(shopId)).data;
    var latest := InsightStore.FindLatest(insights, Some(RecentInsightsLimit));
    RecentIffMatches(events, shopId);
    SourcesReflectData(|recent|, |latest|);
    ChatResponse(answer, ConversationId(conversationId, freshId), ExtractSources(|recent|, |latest|))
  }

  /** The first page of recent events is non-empty exactly when some event matches the shop. */
  lemma RecentIffMatches(events: seq<EventStore.Event>, shopId: string)
    ensures |EventStore.FindAll(events, RecentEventsQuery(shopId)).data| > 0 <==>
              exists e :: e in events && EventStore.Matches(e, RecentEventsQuery(shopId).filter)
  {
    var q := RecentEventsQuery(shopId);
    var r := EventStore.FindAll(events, q);
    assert r.page == 1;
    assert Skip(1, r.limit) == 0;
    if exists e :: e in events && EventStore.Matches(e, q.filter) {
      var e :| e in events && EventStore.Matches(e, q.filter);
      assert e in EventStore.Filter(events, q.filter);
    }
    if |r.data| > 0 {
      assert r.data[0] in r.data;
    }
  }

  /** The public methods of the `LlmService` class the chat service is given: it has no `chat`. */
  const InsightLlmMethods: set<string> := {"onModuleInit", "generateInsight"}
  const DefaultShopId: string := "shop_123"
  const ChatFailedMessage: string := "Failed to process your question. Please try again later."
  /** The body Nest sends for an error that is not an HTTP exception. */
  const UnhandledErrorMessage: string := "Internal server error"

  /** Why `askQuestion` threw: the provider's `LlmServiceError`, or calling a method the service lacks. */
  datatype ChatFailure = LlmFailed(message: string) | NotAFunction(name: string)

  datatype ChatReply = Answered(body: ChatResponse) | ServerError(status: nat, message: string)

  /** `dto.shopId || 'shop_123'`. */
  function ChatShopId(given: Option<string>): (id: string)
    ensures given.Some? && given.value != "" ==> id == given.value
    ensures !(given.Some? && given.value != "") ==> id == DefaultShopId
    ensures id != ""
  {
    if given.Some? && given.value != "" then given.value else DefaultShopId
  }

  /**
   * `askQuestion` as written: after the three queries it calls
   * `this.llmService.chat(...)`, which throws a `TypeError` when the injected
   * service has no such method; `llmMethods` names the methods it has.
   */
  function AskQuestionAsWritten(
    shopId: string, conversationId: Option<string>, freshId: string,
    events: seq<EventStore.Event>, insights: seq<Insight>,
    llmMethods: set<string>, answer: string): (r: Result<ChatResponse, ChatFailure>)
    ensures r.Failure? <==> "chat" !in llmMethods
    ensures r.Failure? ==> r.error == NotAFunction("chat")
    ensures r.Success? ==> r.value.answer == answer && r.value.conversationId == ConversationId(conversationId, freshId)
  {
    if "chat" !in llmMethods then Failure(NotAFunction("chat"))
    else Success(AskQuestion(shopId, conversationId, freshId, events, insights, answer))
  }

  /**
   * The `chat` handler's `catch` (chat.controller.ts): an `LlmServiceError`
   * becomes a 500 with the retry message; anything else is rethrown and Nest
   * answers with its default 500.
   */
  function ReplyTo(r: Result<ChatResponse, ChatFailure>): (h: ChatReply)
    ensures r.Success? <==> h.Answered?
    ensures r.Success? ==> h.body == r.value
    ensures h.ServerError? ==> h.status == 500
    ensures r.Failure? && r.error.LlmFailed? ==> h.message == ChatFailedMessage
    ensures r.Failure? && r.error.NotAFunction? ==> h.message == UnhandledErrorMessage
  {
    match r
    case Success(body) => Answered(body)
    case Failure(LlmFailed(_)) => ServerError(500, ChatFailedMessage)
    case Failure(NotAFunction(_)) => ServerError(500, UnhandledErrorMessage)
  }

  /** With the service the module injects, every chat request ends in the default 500, whatever the data. */
  lemma EveryChatFailsAsWritten(
    shopId: string, conversationId: Option<string>, freshId: string,
    events: seq<EventStore.Event>, insights: seq<Insight>, answer: string)
    ensures ReplyTo(AskQuestionAsWritten(shopId, conversationId, freshId, events, insights, InsightLlmMethods, answer))
            == ServerError(500, UnhandledErrorMessage)
  {
    assert "chat" !in InsightLlmMethods;
  }

  /**
   * Given a service that does have `chat`, the handler returns the model's
   * answer with the sources `AskQuestion` lists.
   */
  lemma ChatAnswersWithChatMethod(
    shopId: string, conversationId: Option<string>, freshId: string,
    events: seq<EventStore.Event>, insights: seq<Insight>, answer: string)
    ensures var h := ReplyTo(AskQuestionAsWritten(shopId, conversationId, freshId, events, insights,
                                                  InsightLlmMethods + {"chat"}, answer));
            && h.Answered?
            && h.body.answer == answer
            && h.body.conversationId == ConversationId(conversationId, freshId)
            && (HasSource(h.body.sources, "insights") <==> insights != [])
  {
    assert "chat" in InsightLlmMethods + {"chat"};
  }
}

=== FILE: dedup.dfy ===
/**
 * Duplicate suppression of the tracker facade (packages/tracker/src/index.ts):
 * the dedup key of an event and the time-windowed ledger of recently seen keys.
 * The clock reading `now` is a parameter.
 */
module Dedup {
  import opened Shared
  import opened Text

  const DedupWindowMs: int := 1000
  const PageViewDedupWindowMs: int := 3000
  /** Ledger entries older than this are purged on every non-duplicate check. */
  const StaleAfterMs: int := PageViewDedupWindowMs * 2
  const PageViewEvent: string := "page_view"

  /** The identifying properties, in the order they enter the key. */
  const KeyProps: seq<string> := ["productId", "orderId", "url", "path"]

  /** `k:value` when `k` is present: one step of the key derivation's filter-then-map. */
  function Part(props: Props, k: string): seq<string> {
    if k in props then [k + ":" + props[k]] else []
  }

  /** `key:value` for each of `keys` present in `props`, in the order of `keys`. */
  function PropParts(props: Props, keys: seq<string>): (parts: seq<string>)
    ensures |parts| <= |keys|
  {
    if keys == [] then []
    else Part(props, keys[0]) + PropParts(props, keys[1..])
  }

  /**
   * `generateDedupKey(eventType, properties)`: the type, `::`, then `k:value`
   * for each identifying property that is present, in the fixed order
   * productId, orderId, url, path, joined by `|`.
   */
  function DedupKey(eventType: string, props: Props): (key: string)
    ensures |key| >= |eventType| + 2 && key[..|eventType| + 2] == eventType + "::"
    ensures key == eventType + "::" + Join("|", Part(props, "productId") + Part(props, "orderId")
                                               + Part(props, "url") + Part(props, "path"))
  {
    UnrollKeyProps(props);
    eventType + "::" + Join("|", PropParts(props, KeyProps))
  }

  /** With none of the identifying properties present, the key is the event type alone. */
  lemma DedupKeyWithoutIdentifyingProps(eventType: string, props: Props)
    requires forall k :: k in KeyProps ==> k !in props
    ensures DedupKey(eventType, props) == eventType + "::"
  {
    assert "productId" in KeyProps && "orderId" in KeyProps && "url" in KeyProps && "path" in KeyProps;
    UnrollKeyProps(props);
  }

  /** All four present: `productId`, `orderId`, `url`, `path`, in that order, joined by `|`. */
  lemma DedupKeyFixedOrder(eventType: string, props: Props)
    requires forall k :: k in KeyProps ==> k in props
    ensures DedupKey(eventType, props)
         == eventType + "::" + (("productId" + ":" + props["productId"]) + "|" + ("orderId" + ":" + props["orderId"])
                                + "|" + ("url" + ":" + props["url"]) + "|" + ("path" + ":" + props["path"]))
  {
    assert "productId" in KeyProps && "orderId" in KeyProps && "url" in KeyProps && "path" in KeyProps;
    UnrollKeyProps(props);
    var a, b, c, d := "productId" + ":" + props["productId"], "orderId" + ":" + props["orderId"],
                      "url" + ":" + props["url"], "path" + ":" + props["path"];
    assert Part(props, "productId") == [a] && Part(props, "orderId") == [b];
    assert Part(props, "url") == [c] && Part(props, "path") == [d];
    JoinFour("|", a, b, c, d);
  }

  lemma JoinFour(sep: string, a: string, b: string, c: string, d: string)
    ensures Join(sep, [a] + [b] + [c] + [d]) == a + sep + b + sep + c + sep + d
  {
    var ps := [a] + [b] + [c] + [d];
    assert ps[1..] == [b, c, d] && ps[1..][1..] == [c, d] && ps[1..][1..][1..] == [d];
    assert Join(sep, [c, d]) == c + sep + d;
    assert Join(sep, [b, c, d]) == b + sep + (c + sep + d);
  }

  /** `PropParts` over the four identifying keys, one key at a time. */
  lemma UnrollKeyProps(props: Props)
    ensures PropParts(props, KeyProps)
         == Part(props, "productId") + Part(props, "orderId") + Part(props, "url") + Part(props, "path")
  {
    var ks := ["productId", "orderId", "url", "path"];
    assert ks[1..] == ["orderId", "url", "path"];
    assert ks[1..][1..] == ["url", "path"];
    assert ks[1..][1..][1..] == ["path"];
    assert ks[1..][1..][1..][1..] == [];
    assert PropParts(props, ["path"]) == Part(props, "path");
    assert PropParts(props, ["url", "path"]) == Part(props, "url") + Part(props, "path");
    assert PropParts(props, ["orderId", "url", "path"]) == Part(props, "orderId") + Part(props, "url") + Part(props, "path");
  }

  /** Two property maps that agree on the four identifying keys give the same dedup key. */
  lemma DedupKeyIgnoresOtherProps(eventType: string, p1: Props, p2: Props)
    requires forall k :: k in KeyProps ==> (k in p1 <==> k in p2)
    requires forall k :: k in KeyProps && k in p1 ==> p1[k] == p2[k]
    ensures DedupKey(eventType, p1) == DedupKey(eventType, p2)
  {
    PropPartsAgree(p1, p2, KeyProps);
  }

  lemma {:induction false} PropPartsAgree(p1: Props, p2: Props, keys: seq<string>)
    requires forall k :: k in keys ==> (k in p1 <==> k in p2)
    requires forall k :: k in keys && k in p1 ==> p1[k] == p2[k]
    ensures PropParts(p1, keys) == PropParts(p2, keys)
  {
    if keys != [] {
      assert keys[0] in keys;
      PropPartsAgree(p1, p2, keys[1..]);
    }
  }

  /** Events of two different (colon-free) types never share a dedup key. */
  lemma DedupKeySeparatesTypes(t1: string, t2: string, p1: Props, p2: Props)
    requires ':' !in t1 && ':' !in t2
    requires t1 != t2
    ensures DedupKey(t1, p1) != DedupKey(t2, p2)
  {
    var k1 := DedupKey(t1, p1);
    var k2 := DedupKey(t2, p2);
    if |t1| == |t2| {
      assert k1[..|t1|] == t1;
      assert k2[..|t2|] == t2;
    } else if |t1| < |t2| {
      assert k1[|t1|] == ':';
      assert k2[|t1|] == t2[|t1|];
    } else {
      assert k2[|t2|] == ':';
      assert k1[|t2|] == t1[|t2|];
    }
  }

  /** A product view carrying only its product id is keyed by that id alone. */
  lemma DedupKeyProductOnly(props: Props)
    requires "productId" in props && "orderId" !in props && "url" !in props && "path" !in props
    ensures DedupKey("product_viewed", props) == "product_viewed::productId:" + props["productId"]
  {
    var q := "productId" + ":" + props["productId"];
    assert "productId" + ":" == "productId:";
    assert Part(props, "productId") == [q];
    assert Part(props, "orderId") == [] && Part(props, "url") == [] && Part(props, "path") == [];
    assert [q] + [] + [] + [] == [q];
  }

  /** A page view carrying url and path is keyed by both, url first. */
  lemma DedupKeyPageView(props: Props)
    requires "url" in props && "path" in props && "productId" !in props && "orderId" !in props
    ensures DedupKey(PageViewEvent, props) == PageViewEvent + "::url:" + props["url"] + "|path:" + props["path"]
  {
    var u, p := "url" + ":" + props["url"], "path" + ":" + props["path"];
    assert "url" + ":" == "url:" && "path" + ":" == "path:";
    assert Part(props, "productId") == [] && Part(props, "orderId") == [];
    assert Part(props, "url") == [u] && Part(props, "path") == [p];
    assert [] + [] + [u] + [p] == [u, p];
    assert [u, p][1..] == [p];
    assert Join("|", [u, p]) == u + "|" + p;
    assert PageViewEvent + "::" + (u + "|" + p) == PageViewEvent + "::url:" + props["url"] + "|path:" + props["path"];
  }

  /**
   * The window that applies to an event type: the longer page-view window for
   * page views only. Either window is shorter than the age at which ledger
   * entries are purged, so purging never forgets a key still inside its window.
   */
  function WindowFor(eventType: string): (w: int)
    ensures 0 < w < StaleAfterMs
    ensures w == PageViewDedupWindowMs <==> eventType == PageViewEvent
  {
    if eventType == PageViewEvent then PageViewDedupWindowMs else DedupWindowMs
  }

  /** The verdict of `isDuplicate` and the ledger it leaves behind. */
  datatype Verdict = Verdict(duplicate: bool, ledger: map<string, int>)

  /** `isDuplicate(eventType, dedupKey)` at clock reading `now`; a zero timestamp reads as absent. */
  function CheckDuplicate(ledger: map<string, int>, eventType: string, key: string, now: int): (v: Verdict)
    ensures v.duplicate <==> key in ledger && ledger[key] != 0 && now - ledger[key] < WindowFor(eventType)
    ensures v.duplicate ==> v.ledger == ledger
    ensures !v.duplicate ==> key in v.ledger && v.ledger[key] == now
    ensures !v.duplicate ==> forall k :: k in v.ledger ==> now - v.ledger[k] <= StaleAfterMs
    ensures !v.duplicate ==> forall k :: k in v.ledger && k != key ==> k in ledger && v.ledger[k] == ledger[k]
    ensures !v.duplicate ==> forall k :: k in ledger && now - ledger[k] <= StaleAfterMs ==> k in v.ledger
  {
    if key in ledger && ledger[key] != 0 && now - ledger[key] < WindowFor(eventType) then Verdict(true, ledger)
    else
      var kept := map k | k in ledger && !(now - ledger[k] > StaleAfterMs) :: ledger[k];
      Verdict(false, kept[key := now])
  }

  /**
   * The window runs from the last recorded (non-duplicate) sighting: a second
   * check `d` ms later is a duplicate exactly when `d` is under the window.
   */
  lemma SecondSightingWithinWindow(ledger: map<string, int>, eventType: string, key: string, t: int, d: int)
    requires t != 0
    requires !CheckDuplicate(ledger, eventType, key, t).duplicate
    ensures var l := CheckDuplicate(ledger, eventType, key, t).ledger;
            CheckDuplicate(l, eventType, key, t + d).duplicate <==> d < WindowFor(eventType)
  {
  }

  /** A duplicate does not restart the window: the ledger still holds the first sighting. */
  lemma DuplicatesDoNotExtendWindow(ledger: map<string, int>, eventType: string, key: string, t1: int, t2: int)
    requires t1 != 0 && !CheckDuplicate(ledger, eventType, key, t1).duplicate
    requires var l := CheckDuplicate(ledger, eventType, key, t1).ledger;
             CheckDuplicate(l, eventType, key, t2).duplicate
    ensures var l1 := CheckDuplicate(ledger, eventType, key, t1).ledger;
            CheckDuplicate(l1, eventType, key, t2).ledger[key] == t1
  {
  }

  /** The add-to-cart and page-view timings that `DEDUP_WINDOW_MS` (1000 ms) and `PAGE_VIEW_DEDUP_WINDOW_MS` (3000 ms) give. */
  lemma WindowScenarios(ledger: map<string, int>, key: string, t: int)
    requires t != 0
    requires !CheckDuplicate(ledger, "add_to_cart", key, t).duplicate
    requires !CheckDuplicate(ledger, PageViewEvent, key, t).duplicate
    ensures var l := CheckDuplicate(ledger, "add_to_cart", key, t).ledger;
            CheckDuplicate(l, "add_to_cart", key, t + 999).duplicate
            && !CheckDuplicate(l, "add_to_cart", key, t + 1500).duplicate
    ensures var l := CheckDuplicate(ledger, PageViewEvent, key, t).ledger;
            CheckDuplicate(l, PageViewEvent, key, t + 2000).duplicate
            && !CheckDuplicate(l, PageViewEvent, key, t + 3500).duplicate
  {
    SecondSightingWithinWindow(ledger, "add_to_cart", key, t, 999);
    SecondSightingWithinWindow(ledger, "add_to_cart", key, t, 1500);
    SecondSightingWithinWindow(ledger, PageViewEvent, key, t, 2000);
    SecondSightingWithinWindow(ledger, PageViewEvent, key, t, 3500);
  }
}

=== FILE: event_names.dfy ===
/**
 * `formatEventName` of the tracker facade (packages/tracker/src/index.ts):
 * split the event type on `_`, capitalise each word, join with spaces.
 * `FormattedChar` describes the same result one character at a time, and
 * `FormatEventNamePointwise` proves the two agree.
 */
module EventNames {
  import opened Text

  /** Position of the first `c` in `s`. */
  function IndexOf(s: string, c: char): (i: nat)
    requires c in s
    ensures i < |s| && s[i] == c
    ensures forall j :: 0 <= j < i ==> s[j] != c
  {
    if s[0] == c then 0
    else
      assert c in s[1..] by {
        var k :| 0 <= k < |s| && s[k] == c;
        assert s[1..][k - 1] == c;
      }
      IndexOf(s[1..], c) + 1
  }

  /** `s.split(c)`. */
  function SplitOn(s: string, c: char): (words: seq<string>)
    ensures |words| >= 1
    decreases |s|
  {
    if c !in s then [s]
    else
      var i := IndexOf(s, c);
      [s[..i]] + SplitOn(s[i + 1..], c)
  }

  /** Splitting and joining back with the separator restores the text; no piece holds the separator. */
  lemma {:induction false} SplitOnJoins(s: string, c: char)
    ensures Join([c], SplitOn(s, c)) == s
    ensures forall w :: w in SplitOn(s, c) ==> c !in w
    decreases |s|
  {
    if c in s {
      var i := IndexOf(s, c);
      var rest := SplitOn(s[i + 1..], c);
      SplitOnJoins(s[i + 1..], c);
      assert SplitOn(s, c) == [s[..i]] + rest;
      JoinCons([c], s[..i], rest);
      assert s == s[..i] + [c] + s[i + 1..];
      assert c !in s[..i] by {
        assert forall j :: 0 <= j < i ==> s[..i][j] == s[j];
      }
    }
  }

  /** `word.charAt(0).toUpperCase() + word.slice(1).toLowerCase()`. */
  function Capitalize(w: string): (r: string)
    ensures |r| == |w|
    ensures |w| > 0 ==> r[0] == UpperChar(w[0])
    ensures forall i :: 0 < i < |w| ==> r[i] == LowerChar(w[i])
  {
    if w == [] then [] else [UpperChar(w[0])] + LowerString(w[1..])
  }

  function CapitalizeAll(ws: seq<string>): (rs: seq<string>)
    ensures |rs| == |ws|
    ensures forall i :: 0 <= i < |ws| ==> rs[i] == Capitalize(ws[i])
  {
    if ws == [] then [] else [Capitalize(ws[0])] + CapitalizeAll(ws[1..])
  }

  /** `formatEventName(eventType)`. */
  function FormatEventName(eventType: string): (name: string)
    ensures '_' !in eventType ==> name == Capitalize(eventType)
  {
    Join(" ", CapitalizeAll(SplitOn(eventType, '_')))
  }

  /** Character `i` of the formatted name: `_` becomes a space, a word's first letter is upper-cased, the rest lower-cased. */
  function FormattedChar(t: string, i: nat): char
    requires i < |t|
  {
    if t[i] == '_' then ' '
    else if i == 0 || t[i - 1] == '_' then UpperChar(t[i])
    else LowerChar(t[i])
  }

  /** One word split off the front. */
  lemma FormatFirstWord(t: string)
    requires '_' in t
    ensures var i := IndexOf(t, '_');
            FormatEventName(t) == Capitalize(t[..i]) + " " + FormatEventName(t[i + 1..])
  {
    var i := IndexOf(t, '_');
    SplitFirstWord(t);
    FormatCons(t, t[..i], t[i + 1..]);
  }

  /** `split('_')` peels off the text before the first `_`. */
  lemma SplitFirstWord(t: string)
    requires '_' in t
    ensures var i := IndexOf(t, '_');
            SplitOn(t, '_') == [t[..i]] + SplitOn(t[i + 1..], '_')
  {
  }

  /** Formatting distributes over a split-off first word. */
  lemma FormatCons(t: string, w: string, r: string)
    requires SplitOn(t, '_') == [w] + SplitOn(r, '_')
    ensures FormatEventName(t) == Capitalize(w) + " " + FormatEventName(r)
  {
    var ws := SplitOn(r, '_');
    CapitalizeAllCons(w, ws);
    JoinCons(" ", Capitalize(w), CapitalizeAll(ws));
  }

  lemma CapitalizeAllCons(w: string, ws: seq<string>)
    ensures CapitalizeAll([w] + ws) == [Capitalize(w)] + CapitalizeAll(ws)
  {
    assert ([w] + ws)[1..] == ws;
  }

  lemma JoinCons(sep: string, p: string, ps: seq<string>)
    requires |ps| >= 1
    ensures Join(sep, [p] + ps) == p + sep + Join(sep, ps)
  {
    assert ([p] + ps)[1..] == ps;
  }

  /** The first word's capitalisation, character by character. */
  lemma HeadChars(t: string, k: nat)
    requires k <= |t| && forall j :: 0 <= j < k ==> t[j] != '_'
    ensures forall i :: 0 <= i < k ==> Capitalize(t[..k])[i] == FormattedChar(t, i)
  {
    forall i | 0 <= i < k
      ensures Capitalize(t[..k])[i] == FormattedChar(t, i)
    {
      assert t[..k][i] == t[i];
      if i > 0 {
        assert t[i - 1] == t[..k][i - 1];
      }
    }
  }

  /** Characters after the first `_` are those of the rest, formatted on its own. */
  lemma TailChars(t: string, k: nat, g: string)
    requires k < |t| && t[k] == '_'
    requires |g| == |t| - k - 1
    requires forall j :: 0 <= j < |g| ==> g[j] == FormattedChar(t[k + 1..], j)
    ensures forall i :: k < i < |t| ==> g[i - k - 1] == FormattedChar(t, i)
  {
    var rest := t[k + 1..];
    forall i | k < i < |t|
      ensures g[i - k - 1] == FormattedChar(t, i)
    {
      assert rest[i - k - 1] == t[i];
      if i - k - 1 > 0 {
        assert rest[i - k - 2] == t[i - 1];
      }
    }
  }

  /** The first word, a space, then the rest: the pieces' characters line up with `t`'s. */
  lemma Assemble(t: string, k: nat, head: string, g: string)
    requires k < |t| && t[k] == '_' && |head| == k && |g| == |t| - k - 1
    requires forall i :: 0 <= i < k ==> head[i] == FormattedChar(t, i)
    requires forall i :: k < i < |t| ==> g[i - k - 1] == FormattedChar(t, i)
    ensures |head + " " + g| == |t|
    ensures forall i :: 0 <= i < |t| ==> (head + " " + g)[i] == FormattedChar(t, i)
  {
  }

  /** The formatted name has the type's length and, at every position, the character `FormattedChar` prescribes. */
  lemma {:induction false} FormatEventNamePointwise(t: string)
    ensures |FormatEventName(t)| == |t|
    ensures forall i :: 0 <= i < |t| ==> FormatEventName(t)[i] == FormattedChar(t, i)
    decreases |t|
  {
    if '_' !in t {
      assert t[..|t|] == t;
      HeadChars(t, |t|);
    } else {
      var k := IndexOf(t, '_');
      var rest := t[k + 1..];
      FormatFirstWord(t);
      FormatEventNamePointwise(rest);
      var head := Capitalize(t[..k]);
      var g := FormatEventName(rest);
      HeadChars(t, k);
      TailChars(t, k, g);
      Assemble(t, k, head, g);
    }
  }
}

=== FILE: event_store.dfy ===
/**
 * The backend's event store: the `events` table as a sequence of rows and
 * the queries run against it.
 *
 * - `FindAll` is the filtered, newest-first, paginated listing, written
 *   three times in the backend with the same meaning
 *   (events.service.ts, infrastructure/event.repository.ts and, mapped to
 *   the API shape, application/event-query.service.ts);
 * - `FindByShopId` is the unpaginated per-shop listing;
 * - `GetEventById`, `ToDto` and the `create`/`createBatch` constructors.
 *
 * Ids (`randomUUID`) and the clock are parameters.
 */
module EventStore {
  import opened Wrappers
  import opened Shared
  import Ordering
  import opened Paging

  const DefaultPage: nat := 1
  const DefaultLimit: nat := 20

  /** A row of the `events` table; `createdAt` is filled in by the database on insert. */
  datatype Event = Event(
    id: string,
    shopId: string,
    sessionId: string,
    eventType: string,
    eventName: string,
    properties: Props,
    timestamp: int,
    url: string,
    userAgent: string,
    createdAt: int)

  /** `TrackingEvent`: the nine fields the API exposes. */
  datatype TrackingEvent = TrackingEvent(
    id: string,
    shopId: string,
    sessionId: string,
    eventType: string,
    eventName: string,
    properties: Props,
    timestamp: int,
    url: string,
    userAgent: string)

  /** The filter fields of `EventsQueryDto`; the dates are timestamps. */
  datatype EventFilter = EventFilter(
    shopId: Option<string>,
    sessionId: Option<string>,
    eventType: Option<string>,
    startDate: Option<int>,
    endDate: Option<int>)

  /** `EventsQueryDto`: the filters, and the page and limit read as numbers. */
  datatype EventsQuery = EventsQuery(filter: EventFilter, page: NumParam, limit: NumParam)

  function Timestamp(e: Event): int {
    e.timestamp
  }

  function DtoTimestamp(e: TrackingEvent): int {
    e.timestamp
  }

  /** A string filter applies only when it is truthy: absent and `""` both mean "any". */
  predicate Given(f: Option<string>) {
    f.Some? && f.value != ""
  }

  /** The `andWhere` clauses: equality on the given ids and type, the inclusive date range. */
  predicate Matches(e: Event, f: EventFilter) {
    && (Given(f.shopId) ==> e.shopId == f.shopId.value)
    && (Given(f.sessionId) ==> e.sessionId == f.sessionId.value)
    && (Given(f.eventType) ==> e.eventType == f.eventType.value)
    && (f.startDate.Some? ==> e.timestamp >= f.startDate.value)
    && (f.endDate.Some? ==> e.timestamp <= f.endDate.value)
  }

  /** The rows the `WHERE` clause selects, each as often as the table holds it. */
  function Filter(rows: seq<Event>, f: EventFilter): (r: seq<Event>)
    ensures |r| <= |rows|
    ensures forall e :: multiset(r)[e] == if Matches(e, f) then multiset(rows)[e] else 0
    ensures forall e :: e in r <==> e in rows && Matches(e, f)
  {
    if rows == [] then []
    else
      assert rows == [rows[0]] + rows[1..];
      (if Matches(rows[0], f) then [rows[0]] else []) + Filter(rows[1..], f)
  }

  /** `page || 1`, `limit || 20`, `skip = (page - 1) * limit`. */
  function PageParam(q: EventsQuery): (p: nat)
    ensures p >= 1
    ensures q.page.Value? && q.page.n != 0 ==> p == q.page.n
  {
    OrDefault(q.page, DefaultPage)
  }

  function LimitParam(q: EventsQuery): (l: nat)
    ensures l >= 1
    ensures q.limit.Value? && q.limit.n != 0 ==> l == q.limit.n
  {
    OrDefault(q.limit, DefaultLimit)
  }

  /** The filtered rows, newest first: the query before `OFFSET`/`LIMIT`. */
  function Ordered(rows: seq<Event>, f: EventFilter): seq<Event> {
    Ordering.SortDesc(Filter(rows, f), Timestamp)
  }

  /** `findAll(filters)`: one page of the matching rows, newest first, with the match count and page count. */
  function FindAll(rows: seq<Event>, q: EventsQuery): (r: Paginated<Event>)
    ensures r.page == PageParam(q) && r.limit == LimitParam(q)
    ensures |r.data| <= r.limit
    ensures forall e :: e in r.data ==> e in rows && Matches(e, q.filter)
    ensures Ordering.SortedDesc(r.data, Timestamp)
    ensures r.total == |Filter(rows, q.filter)|
    ensures r.totalPages * r.limit >= r.total && (r.totalPages > 0 ==> (r.totalPages - 1) * r.limit < r.total)
    ensures Skip(r.page, r.limit) < r.total ==> |r.data| >= 1
  {
    var page := PageParam(q);
    var limit := LimitParam(q);
    var ordered := Ordered(rows, q.filter);
    OrderedRows(rows, q.filter);
    Ordering.WindowOfSorted(ordered, Skip(page, limit), limit, Timestamp);
    PageOf(ordered, Skip(page, limit), page, limit)
  }

  /** The ordered listing holds exactly the matching rows. */
  lemma OrderedRows(rows: seq<Event>, f: EventFilter)
    ensures forall e :: e in Ordered(rows, f) <==> e in rows && Matches(e, f)
    ensures |Ordered(rows, f)| == |Filter(rows, f)|
  {
    var o := Ordered(rows, f);
    forall e
      ensures e in o <==> e in rows && Matches(e, f)
    {
      assert e in o <==> multiset(o)[e] > 0;
      assert e in Filter(rows, f) <==> multiset(Filter(rows, f))[e] > 0;
    }
  }

  /**
   * Pages tile the listing: every matching row is on some reported page
   * (a page between 1 and `totalPages`), and it is found there.
   */
  lemma EveryMatchIsOnAPage(rows: seq<Event>, q: EventsQuery, e: Event) returns (page: nat)
    requires e in rows && Matches(e, q.filter)
    ensures 1 <= page <= FindAll(rows, q).totalPages
    ensures e in FindAll(rows, q.(page := Value(page))).data
  {
    var limit := LimitParam(q);
    var ordered := Ordered(rows, q.filter);
    OrderedRows(rows, q.filter);
    var i :| 0 <= i < |ordered| && ordered[i] == e;
    var skip;
    page, skip := Ordering.EveryRowOnItsPage(ordered, limit, i);
    var w := Ordering.Window(ordered, skip, limit);
    assert w[i - skip] == e;
    var q' := q.(page := Value(page));
    FindAllPage(rows, q);
    FindAllPage(rows, q');
    assert Skip(page, limit) == skip;
  }

  lemma FindAllPage(rows: seq<Event>, q: EventsQuery)
    ensures var limit := LimitParam(q);
            var ordered := Ordered(rows, q.filter);
            && FindAll(rows, q).data == Ordering.Window(ordered, Skip(PageParam(q), limit), limit)
            && FindAll(rows, q).totalPages == Ordering.CeilDiv(|ordered|, limit)
  {
  }

  /** `toDto(event)`: the nine API fields, copied. */
  function ToDto(e: Event): (d: TrackingEvent)
    ensures d.id == e.id && d.shopId == e.shopId && d.sessionId == e.sessionId
    ensures d.eventType == e.eventType && d.eventName == e.eventName && d.properties == e.properties
    ensures d.timestamp == e.timestamp && d.url == e.url && d.userAgent == e.userAgent
  {
    TrackingEvent(e.id, e.shopId, e.sessionId, e.eventType, e.eventName, e.properties, e.timestamp, e.url, e.userAgent)
  }

  /** A row rebuilt from its API shape and its insertion time. */
  function FromDto(d: TrackingEvent, createdAt: int): Event {
    Event(d.id, d.shopId, d.sessionId, d.eventType, d.eventName, d.properties, d.timestamp, d.url, d.userAgent, createdAt)
  }

  /** `toDto` loses nothing but `createdAt`. */
  lemma ToDtoRoundTrip(e: Event, d: TrackingEvent, createdAt: int)
    ensures FromDto(ToDto(e), e.createdAt) == e
    ensures ToDto(FromDto(d, createdAt)) == d
  {
  }

  function MapToDto(es: seq<Event>): (ds: seq<TrackingEvent>)
    ensures |ds| == |es|
    ensures forall i :: 0 <= i < |es| ==> ds[i] == ToDto(es[i])
  {
    if es == [] then [] else [ToDto(es[0])] + MapToDto(es[1..])
  }

  /** `getEvents(filters)`: the `findAll` page in the API shape. */
  function GetEvents(rows: seq<Event>, q: EventsQuery): (r: Paginated<TrackingEvent>)
    ensures r.page == PageParam(q) && r.limit == LimitParam(q)
    ensures |r.data| <= r.limit
    ensures forall d :: d in r.data ==> exists e :: e in rows && Matches(e, q.filter) && ToDto(e) == d
    ensures forall i, j :: 0 <= i < j < |r.data| ==> DtoTimestamp(r.data[i]) >= DtoTimestamp(r.data[j])
    ensures r.total == |Filter(rows, q.filter)|
    ensures r.totalPages * r.limit >= r.total && (r.totalPages > 0 ==> (r.totalPages - 1) * r.limit < r.total)
  {
    var p := FindAll(rows, q);
    var ds := MapToDto(p.data);
    forall d | d in ds
      ensures exists e :: e in rows && Matches(e, q.filter) && ToDto(e) == d
    {
      var i :| 0 <= i < |ds| && ds[i] == d;
      assert p.data[i] in p.data;
    }
    forall i, j | 0 <= i < j < |ds|
      ensures DtoTimestamp(ds[i]) >= DtoTimestamp(ds[j])
    {
      assert Timestamp(p.data[i]) >= Timestamp(p.data[j]);
    }
    Paginated(ds, p.total, p.page, p.limit, p.totalPages)
  }

  /** Position of the first row with that id: `findOne({where: {id}})`. */
  function FindById(rows: seq<Event>, id: string): (k: Option<nat>)
    ensures k.Some? ==> k.value < |rows| && rows[k.value].id == id
    ensures k.None? ==> forall e :: e in rows ==> e.id != id
  {
    if rows == [] then None
    else if rows[0].id == id then Some(0)
    else
      var k := FindById(rows[1..], id);
      if k.Some? then Some(k.value + 1) else None
  }

  /** `getEventById(id)`: the row's API shape, or `null`. */
  function GetEventById(rows: seq<Event>, id: string): (r: Option<TrackingEvent>)
    ensures r.None? <==> forall e :: e in rows ==> e.id != id
    ensures r.Some? ==> r.value.id == id && exists e :: e in rows && ToDto(e) == r.value
  {
    var k := FindById(rows, id);
    if k.None? then None
    else
      assert rows[k.value] in rows;
      Some(ToDto(rows[k.value]))
  }

  /** `{id: randomUUID(), ...dto, timestamp: dto.timestamp || now}` as saved; the database stamps `createdAt`. */
  function Create(dto: CreateEventDto, id: string, now: int): (e: Event)
    ensures e.id == id && e.createdAt == now
    ensures dto.timestamp.Some? ==> e.timestamp == dto.timestamp.value
    ensures dto.timestamp.None? ==> e.timestamp == now
    ensures e.shopId == dto.shopId && e.sessionId == dto.sessionId && e.eventType == dto.eventType
    ensures e.eventName == dto.eventName && e.properties == dto.properties
    ensures e.url == dto.url && e.userAgent == dto.userAgent
  {
    Event(id, dto.shopId, dto.sessionId, dto.eventType, dto.eventName, dto.properties,
          dto.timestamp.GetOr(now), dto.url, dto.userAgent, now)
  }

  /** `createBatch(dtos)`: one row per DTO, in order; `ids[i]` and `nows[i]` are the id and clock reading drawn for `dtos[i]`. */
  function CreateBatch(dtos: seq<CreateEventDto>, ids: seq<string>, nows: seq<int>): (es: seq<Event>)
    requires |ids| == |dtos| && |nows| == |dtos|
    ensures |es| == |dtos|
    ensures forall i :: 0 <= i < |dtos| ==> es[i] == Create(dtos[i], ids[i], nows[i])
  {
    if dtos == [] then [] else [Create(dtos[0], ids[0], nows[0])] + CreateBatch(dtos[1..], ids[1..], nows[1..])
  }

  /** What `create` saves under a fresh id, `getEventById` finds again, with the DTO's fields. */
  lemma CreatedEventIsFound(rows: seq<Event>, dto: CreateEventDto, id: string, now: int)
    requires forall e :: e in rows ==> e.id != id
    ensures var r := GetEventById(rows + [Create(dto, id, now)], id);
            && r == Some(ToDto(Create(dto, id, now)))
            && r.value.shopId == dto.shopId && r.value.timestamp == dto.timestamp.GetOr(now)
  {
    var x := Create(dto, id, now);
    FindAppendedId(rows, x);
  }

  lemma {:induction false} FindAppendedId(rows: seq<Event>, x: Event)
    requires forall e :: e in rows ==> e.id != x.id
    ensures FindById(rows + [x], x.id) == Some(|rows|)
    decreases |rows|
  {
    if rows == [] {
      assert rows + [x] == [x];
    } else {
      assert (rows + [x])[1..] == rows[1..] + [x];
      assert rows[0] in rows;
      FindAppendedId(rows[1..], x);
    }
  }

  /** `findByShopId(shopId)`: `find({where: {shopId}, order: {timestamp: 'DESC'}})`, exact equality, no paging. */
  function FindByShopId(rows: seq<Event>, shopId: string): (r: seq<Event>)
    ensures Ordering.SortedDesc(r, Timestamp)
    ensures forall e :: multiset(r)[e] == if e.shopId == shopId then multiset(rows)[e] else 0
  {
    Ordering.SortDesc(ShopRows(rows, shopId), Timestamp)
  }

  function ShopRows(rows: seq<Event>, shopId: string): (r: seq<Event>)
    ensures forall e :: multiset(r)[e] == if e.shopId == shopId then multiset(rows)[e] else 0
  {
    if rows == [] then []
    else
      assert rows == [rows[0]] + rows[1..];
      (if rows[0].shopId == shopId then [rows[0]] else []) + ShopRows(rows[1..], shopId)
  }

  /** The filter on the shop alone. */
  function ShopFilter(shopId: string): EventFilter {
    EventFilter(Some(shopId), None, None, None, None)
  }

  /**
   * Unlike `findAll`, `findByShopId` also filters on an empty shop id: `""`
   * is falsy in a query-builder guard but a value in a `where` object.
   */
  lemma EmptyShopIdDiffers(rows: seq<Event>, e: Event)
    requires e in rows && e.shopId != ""
    ensures e !in FindByShopId(rows, "")
    ensures e in Filter(rows, ShopFilter(""))
  {
  }
}

=== FILE: ingestion.dfy ===
/**
 * Event ingestion (packages/backend/src/events/application/event-ingestion.service.ts):
 * required-field validation, single and batch ingestion with timestamp
 * defaulting, and the notification each ingestion emits.
 *
 * A thrown `BadRequestException` is a `Failure`; its message is
 * `ErrorMessage` of the error. Saving is the identity (the repository
 * returns what it was given, with the database's `createdAt`).
 */
module Ingestion {
  import opened Wrappers
  import opened Shared
  import opened Text
  import EventStore

  /** The required fields, in the order `validateEvent` checks them. */
  datatype Field = ShopId | SessionId | EventType | EventName

  function FieldName(f: Field): string {
    match f
    case ShopId => "shopId"
    case SessionId => "sessionId"
    case EventType => "eventType"
    case EventName => "eventName"
  }

  datatype IngestError =
    | MissingField(field: Field)
    | EmptyBatch
    | InvalidAt(index: nat, field: Field)

  /** The message of the `BadRequestException` thrown. */
  function ErrorMessage(e: IngestError): string {
    match e
    case MissingField(f) => FieldName(f) + " is required"
    case EmptyBatch => "Batch must contain at least one event"
    case InvalidAt(i, f) => "Event at index " + NatToString(i) + ": " + FieldName(f) + " is required"
  }

  /** `EventIngestedEvent`. */
  datatype EventIngested = EventIngested(eventId: string, shopId: string, eventType: string, timestamp: int)

  /** `BatchEventsIngestedEvent`. */
  datatype BatchIngested = BatchIngested(eventIds: seq<string>, shopId: string, count: nat, timestamp: int)

  datatype Ingested = Ingested(event: EventStore.Event, notice: EventIngested)

  datatype BatchResult = BatchResult(events: seq<EventStore.Event>, notice: BatchIngested)

  /** All four required fields are truthy. */
  predicate Valid(dto: CreateEventDto) {
    dto.shopId != "" && dto.sessionId != "" && dto.eventType != "" && dto.eventName != ""
  }

  /** `validateEvent(dto)`: the first empty required field, if any. */
  function ValidateEvent(dto: CreateEventDto): (r: Option<Field>)
    ensures r.None? <==> Valid(dto)
    ensures r == Some(ShopId) <==> dto.shopId == ""
    ensures r == Some(SessionId) <==> dto.shopId != "" && dto.sessionId == ""
    ensures r == Some(EventType) <==> dto.shopId != "" && dto.sessionId != "" && dto.eventType == ""
    ensures r == Some(EventName) <==> dto.shopId != "" && dto.sessionId != "" && dto.eventType != "" && dto.eventName == ""
  {
    if dto.shopId == "" then Some(ShopId)
    else if dto.sessionId == "" then Some(SessionId)
    else if dto.eventType == "" then Some(EventType)
    else if dto.eventName == "" then Some(EventName)
    else None
  }

  /** `ingestEvent(dto)` with the id drawn and the clock read at the call. */
  function IngestEvent(dto: CreateEventDto, id: string, now: int): (r: Result<Ingested, IngestError>)
    ensures r.Failure? <==> !Valid(dto)
    ensures r.Failure? ==> r.error == MissingField(ValidateEvent(dto).value)
    ensures r.Success? ==> r.value.event.id == id && r.value.event.shopId == dto.shopId
    ensures r.Success? ==> r.value.event.timestamp == if dto.timestamp.Some? then dto.timestamp.value else now
    ensures r.Success? ==>
              r.value.notice == EventIngested(id, dto.shopId, dto.eventType, r.value.event.timestamp)
  {
    match ValidateEvent(dto)
    case Some(f) => Failure(MissingField(f))
    case None =>
      var e := EventStore.Create(dto, id, now);
      Success(Ingested(e, EventIngested(e.id, e.shopId, e.eventType, e.timestamp)))
  }

  /** The first DTO that fails validation, with its field. */
  function FirstInvalid(dtos: seq<CreateEventDto>): (r: Option<(nat, Field)>)
    ensures r.None? <==> forall i :: 0 <= i < |dtos| ==> Valid(dtos[i])
    ensures r.Some? ==> r.value.0 < |dtos| && ValidateEvent(dtos[r.value.0]) == Some(r.value.1)
    ensures r.Some? ==> forall j :: 0 <= j < r.value.0 ==> Valid(dtos[j])
  {
    if dtos == [] then None
    else match ValidateEvent(dtos[0])
      case Some(f) => Some((0, f))
      case None =>
        var r := FirstInvalid(dtos[1..]);
        if r.Some? then Some((r.value.0 + 1, r.value.1)) else None
  }

  /** The saved rows of a batch: one per DTO, the DTO's timestamp or the batch's. */
  function StampAll(dtos: seq<CreateEventDto>, ids: seq<string>, now: int): (es: seq<EventStore.Event>)
    requires |ids| == |dtos|
    ensures |es| == |dtos|
    ensures forall i :: 0 <= i < |dtos| ==> es[i] == EventStore.Create(dtos[i], ids[i], now)
  {
    if dtos == [] then [] else [EventStore.Create(dtos[0], ids[0], now)] + StampAll(dtos[1..], ids[1..], now)
  }

  function Ids(es: seq<EventStore.Event>): (ids: seq<string>)
    ensures |ids| == |es|
    ensures forall i :: 0 <= i < |es| ==> ids[i] == es[i].id
  {
    if es == [] then [] else [es[0].id] + Ids(es[1..])
  }

  /**
   * `ingestBatch(dtos)`: reject an empty batch, then the first invalid DTO
   * by index; otherwise save one row per DTO and announce them. `ids[i]` is
   * the id drawn for `dtos[i]`; `now` is the one clock reading of the batch.
   */
  function IngestBatch(dtos: seq<CreateEventDto>, ids: seq<string>, now: int): (r: Result<BatchResult, IngestError>)
    requires |ids| == |dtos|
    ensures r == Failure(EmptyBatch) <==> dtos == []
    ensures r.Failure? && r.error.InvalidAt? ==>
              && r.error.index < |dtos|
              && ValidateEvent(dtos[r.error.index]) == Some(r.error.field)
              && forall j :: 0 <= j < r.error.index ==> Valid(dtos[j])
    ensures r.Success? <==> dtos != [] && forall i :: 0 <= i < |dtos| ==> Valid(dtos[i])
    ensures r.Success? ==>
              && |r.value.events| == |dtos|
              && forall i :: 0 <= i < |dtos| ==>
                   && r.value.events[i].id == ids[i]
                   && r.value.events[i].shopId == dtos[i].shopId
                   && r.value.events[i].timestamp == if dtos[i].timestamp.Some? then dtos[i].timestamp.value else now
    ensures r.Success? ==> r.value.notice == BatchIngested(ids, dtos[0].shopId, |dtos|, now)
  {
    if dtos == [] then Failure(EmptyBatch)
    else match FirstInvalid(dtos)
      case Some((i, f)) => Failure(InvalidAt(i, f))
      case None =>
        var events := StampAll(dtos, ids, now);
        var shopId := if events[0].shopId != "" then events[0].shopId else "";
        assert Ids(events) == ids;
        Success(BatchResult(events, BatchIngested(Ids(events), shopId, |events|, now)))
  }

  /** Within one batch, every event that came without a timestamp carries the same one. */
  lemma BatchSharesOneTimestamp(dtos: seq<CreateEventDto>, ids: seq<string>, now: int, i: nat, j: nat)
    requires |ids| == |dtos|
    requires IngestBatch(dtos, ids, now).Success?
    requires i < |dtos| && j < |dtos| && dtos[i].timestamp.None? && dtos[j].timestamp.None?
    ensures var es := IngestBatch(dtos, ids, now).value.events;
            es[i].timestamp == es[j].timestamp == IngestBatch(dtos, ids, now).value.notice.timestamp
  {
  }

  /** A batch of one is ingested as the single event would be, and fails on the same field. */
  lemma SingletonBatchIsSingleIngest(dto: CreateEventDto, id: string, now: int)
    ensures IngestBatch([dto], [id], now).Success? <==> IngestEvent(dto, id, now).Success?
    ensures IngestEvent(dto, id, now).Success? ==>
              IngestBatch([dto], [id], now).value.events == [IngestEvent(dto, id, now).value.event]
    ensures IngestEvent(dto, id, now).Failure? ==>
              IngestBatch([dto], [id], now).error == InvalidAt(0, IngestEvent(dto, id, now).error.field)
  {
    if Valid(dto) {
      var es := IngestBatch([dto], [id], now).value.events;
      assert es[0] == EventStore.Create(dto, id, now);
    }
  }

  /** An invalid DTO anywhere in a batch means nothing of the batch is saved. */
  lemma OneInvalidRejectsBatch(dtos: seq<CreateEventDto>, ids: seq<string>, now: int, k: nat)
    requires |ids| == |dtos| && k < |dtos| && !Valid(dtos[k])
    ensures IngestBatch(dtos, ids, now).Failure?
    ensures IngestBatch(dtos, ids, now).error.index <= k
  {
  }
}

=== FILE: insight_store.dfy ===
/**
 * The insight repository
 * (packages/backend/src/insights/infrastructure/insight.repository.ts):
 * the paginated listing with its offset/page/limit derivation, the latest
 * insights, and the insights of one type. The table is a sequence of rows.
 */
module InsightStore {
  import opened Wrappers
  import opened Shared
  import Ordering
  import opened Paging

  const DefaultLimit: nat := 20
  const DefaultLatest: nat := 10

  /** `InsightsQueryOptions`: an absent `offset` is `None`; an offset of 0 is given. */
  datatype InsightsQuery = InsightsQuery(
    insightType: Option<InsightType>,
    page: NumParam,
    limit: NumParam,
    offset: Option<nat>)

  function GeneratedAt(i: Insight): int {
    i.generatedAt
  }

  /** The `type = :type` clause, applied only when a type is given. */
  function ByType(rows: seq<Insight>, t: Option<InsightType>): (r: seq<Insight>)
    ensures |r| <= |rows|
    ensures forall x :: multiset(r)[x] == if t.None? || x.insightType == t.value then multiset(rows)[x] else 0
    ensures t.None? ==> r == rows
  {
    if rows == [] then []
    else
      assert rows == [rows[0]] + rows[1..];
      (if t.None? || rows[0].insightType == t.value then [rows[0]] else []) + ByType(rows[1..], t)
  }

  /** The selected rows, newest first. */
  function Ordered(rows: seq<Insight>, t: Option<InsightType>): seq<Insight> {
    Ordering.SortDesc(ByType(rows, t), GeneratedAt)
  }

  /** `limit || 20`, the same falsy default as the event listing. */
  function LimitOf(q: InsightsQuery): (l: nat)
    ensures l >= 1
    ensures !(q.limit.Value? && q.limit.n != 0) ==> l == DefaultLimit
  {
    OrDefault(q.limit, DefaultLimit)
  }

  /** `offset ?? ((page || 1) - 1) * limit`. */
  function SkipOf(q: InsightsQuery): (s: nat)
    ensures q.offset.Some? ==> s == q.offset.value
    ensures q.offset.None? ==> s == Skip(OrDefault(q.page, 1), LimitOf(q))
  {
    if q.offset.Some? then q.offset.value else Skip(OrDefault(q.page, 1), LimitOf(q))
  }

  /** `page || Math.floor(skip / limit) + 1`. */
  function PageOfQuery(q: InsightsQuery): (p: nat)
    ensures p >= 1
    ensures q.page.Value? && q.page.n != 0 ==> p == q.page.n
    ensures !(q.page.Value? && q.page.n != 0) ==> p == SkipOf(q) / LimitOf(q) + 1
  {
    OrDefault(q.page, SkipOf(q) / LimitOf(q) + 1)
  }

  /** `findAll(options)`: one window of the selected insights, newest first. */
  function FindAll(rows: seq<Insight>, q: InsightsQuery): (r: Paginated<Insight>)
    ensures r.limit == LimitOf(q) && r.page == PageOfQuery(q)
    ensures |r.data| <= r.limit
    ensures forall x :: x in r.data ==> x in rows && (q.insightType.Some? ==> x.insightType == q.insightType.value)
    ensures Ordering.SortedDesc(r.data, GeneratedAt)
    ensures r.total == |ByType(rows, q.insightType)|
    ensures r.totalPages * r.limit >= r.total && (r.totalPages > 0 ==> (r.totalPages - 1) * r.limit < r.total)
    ensures SkipOf(q) < r.total ==> |r.data| >= 1
  {
    var limit := LimitOf(q);
    var ordered := Ordered(rows, q.insightType);
    OrderedRows(rows, q.insightType);
    Ordering.WindowOfSorted(ordered, SkipOf(q), limit, GeneratedAt);
    PageOf(ordered, SkipOf(q), PageOfQuery(q), limit)
  }

  /** The ordered listing holds exactly the selected rows. */
  lemma OrderedRows(rows: seq<Insight>, t: Option<InsightType>)
    ensures forall x :: x in Ordered(rows, t) <==> x in rows && (t.None? || x.insightType == t.value)
    ensures |Ordered(rows, t)| == |ByType(rows, t)|
    ensures multiset(Ordered(rows, t)) == multiset(ByType(rows, t))
  {
    var o := Ordered(rows, t);
    forall x
      ensures x in o <==> x in rows && (t.None? || x.insightType == t.value)
    {
      assert x in o <==> multiset(o)[x] > 0;
      assert x in rows <==> multiset(rows)[x] > 0;
    }
  }

  lemma FindAllWindow(rows: seq<Insight>, q: InsightsQuery)
    ensures FindAll(rows, q).data == Ordering.Window(Ordered(rows, q.insightType), SkipOf(q), LimitOf(q))
  {
  }

  /** `floor((p - 1) * l / l) + 1 == p`. */
  lemma PageFromSkip(p: nat, l: nat)
    requires p >= 1 && l >= 1
    ensures Skip(p, l) / l + 1 == p
  {
    DivUnique(Skip(p, l), l, p - 1);
  }

  /** Euclidean division is determined by its bracketing multiples. */
  lemma DivUnique(x: nat, l: nat, q: nat)
    requires l >= 1 && q * l <= x < q * l + l
    ensures x / l == q
  {
    var d := x / l;
    assert d * l <= x < d * l + l;
    MulMono(q + 1, d, l);
    MulMono(d + 1, q, l);
    assert (q + 1) * l == q * l + l;
    assert (d + 1) * l == d * l + l;
  }

  lemma MulMono(a: nat, b: nat, c: nat)
    ensures a <= b ==> a * c <= b * c
  {
  }

  /** The 1-based page an offset falls on brackets the offset. */
  lemma PageBracketsOffset(o: nat, l: nat)
    requires l >= 1
    ensures Skip(o / l + 1, l) <= o < Skip(o / l + 1, l) + l
  {
    var d := o / l;
    assert d * l <= o < d * l + l;
    assert (d + 1) * l == d * l + l;
  }

  /**
   * Paging by offset and paging by page number agree: asking for the offset
   * `(p - 1) * limit` yields the same response, reported page included, as
   * asking for page `p`.
   */
  lemma OffsetAndPageAgree(rows: seq<Insight>, t: Option<InsightType>, p: nat, limit: NumParam)
    requires p >= 1
    ensures var byPage := InsightsQuery(t, Value(p), limit, None);
            var byOffset := InsightsQuery(t, Missing, limit, Some(Skip(p, LimitOf(byPage))));
            FindAll(rows, byOffset) == FindAll(rows, byPage)
  {
    var byPage := InsightsQuery(t, Value(p), limit, None);
    var byOffset := InsightsQuery(t, Missing, limit, Some(Skip(p, LimitOf(byPage))));
    assert LimitOf(byOffset) == LimitOf(byPage);
    assert SkipOf(byOffset) == SkipOf(byPage);
    PageFromSkip(p, LimitOf(byPage));
    assert PageOfQuery(byOffset) == PageOfQuery(byPage);
  }

  /** With an offset and no page, the reported page is the one the first returned row belongs to. */
  lemma ReportedPageHoldsOffset(rows: seq<Insight>, q: InsightsQuery)
    requires q.offset.Some? && !(q.page.Value? && q.page.n != 0)
    ensures var r := FindAll(rows, q);
            Skip(r.page, r.limit) <= q.offset.value < Skip(r.page, r.limit) + r.limit
  {
    var r := FindAll(rows, q);
    OffsetOnReportedPage(q);
    assert r.page == PageOfQuery(q) && r.limit == LimitOf(q);
  }

  lemma OffsetOnReportedPage(q: InsightsQuery)
    requires q.offset.Some? && !(q.page.Value? && q.page.n != 0)
    ensures Skip(PageOfQuery(q), LimitOf(q)) <= q.offset.value < Skip(PageOfQuery(q), LimitOf(q)) + LimitOf(q)
  {
    PageBracketsOffset(q.offset.value, LimitOf(q));
  }

  /** `findLatest(limit = 10)`: `take` of a falsy 0 returns every row. */
  function FindLatest(rows: seq<Insight>, take: Option<nat>): (r: seq<Insight>)
    ensures var n := if take.Some? then take.value else DefaultLatest;
            && (n != 0 ==> |r| == if |rows| < n then |rows| else n)
            && (n == 0 ==> |r| == |rows|)
    ensures Ordering.SortedDesc(r, GeneratedAt)
    ensures forall x :: x in r ==> x in rows
  {
    var n := if take.Some? then take.value else DefaultLatest;
    var ordered := Ordered(rows, None);
    OrderedRows(rows, None);
    Ordering.WindowOfSorted(ordered, 0, n, GeneratedAt);
    if n == 0 then ordered else Ordering.Window(ordered, 0, n)
  }

  /** The latest `n` insights are the first page of the unfiltered listing with limit `n`. */
  lemma LatestIsFirstPage(rows: seq<Insight>, n: nat)
    requires n >= 1
    ensures FindLatest(rows, Some(n)) == FindAll(rows, InsightsQuery(None, Missing, Value(n), None)).data
  {
    var q := InsightsQuery(None, Missing, Value(n), None);
    assert SkipOf(q) == 0;
    FindAllWindow(rows, q);
  }

  /** No row left out of the latest is newer than a row kept. */
  lemma LatestAreNewest(rows: seq<Insight>, take: Option<nat>)
    ensures forall x, y :: x in rows && x !in FindLatest(rows, take) && y in FindLatest(rows, take) ==>
              y.generatedAt >= x.generatedAt
  {
    var n := if take.Some? then take.value else DefaultLatest;
    var o := Ordered(rows, None);
    var latest := FindLatest(rows, take);
    assert latest == if n == 0 then o else Ordering.Window(o, 0, n);
    OrderedRows(rows, None);
    forall x | x in rows && x !in latest
      ensures forall y :: y in latest ==> y.generatedAt >= x.generatedAt
    {
      var k :| 0 <= k < |o| && o[k] == x;
      Ordering.FirstWindowDominates(o, n, k, GeneratedAt);
    }
  }

  /** `findByType(type)`: every insight of that type, newest first. */
  function FindByType(rows: seq<Insight>, t: InsightType): (r: seq<Insight>)
    ensures Ordering.SortedDesc(r, GeneratedAt)
    ensures forall x :: multiset(r)[x] == if x.insightType == t then multiset(rows)[x] else 0
  {
    Ordered(rows, Some(t))
  }

  /** One page large enough to hold every row of a type is `findByType`. */
  lemma ByTypeIsOneBigPage(rows: seq<Insight>, t: InsightType, limit: nat)
    requires limit >= 1 && limit >= |rows|
    ensures FindAll(rows, InsightsQuery(Some(t), Missing, Value(limit), None)).data == FindByType(rows, t)
  {
    var q := InsightsQuery(Some(t), Missing, Value(limit), None);
    FindAllWindow(rows, q);
    assert SkipOf(q) == 0 && LimitOf(q) == limit;
    OrderedRows(rows, Some(t));
    Ordering.WholeWindow(Ordered(rows, Some(t)), limit);
  }
}

=== FILE: insights_controller.dfy ===
/**
 * `POST /api/insights/generate`
 * (packages/backend/src/insights/insights.controller.ts): the shop id
 * default and the mapping of a failed generation to an HTTP error.
 *
 * The controller answers 503 when an `LlmServiceError`'s lower-cased
 * message mentions a transient condition (`rate`, `timeout`,
 * `unavailable`), 500 otherwise. As written the test is a substring test,
 * and the only `LlmServiceError` that reaches the controller carries
 * "Failed to generate insights", in which "gene*rate*" matches: every LLM
 * failure becomes a 503. `GenerateAsWritten` models that;
 * `Generate` matches the keywords as whole words.
 */
module InsightsController {
  import opened Wrappers
  import opened Text
  import opened Shared
  import Llm

  const DefaultShopId: string := "default"
  const ServiceUnavailable: nat := 503
  const InternalServerError: nat := 500
  const UnavailableMessage: string := "LLM service temporarily unavailable"
  const FailedMessage: string := "Failed to generate insights"

  /** What `generateInsights(shopId)` threw: an `LlmServiceError`, or anything else. */
  datatype Thrown = LlmFailure(cause: Llm.LlmServiceError) | OtherFailure

  /** The `HttpException` raised: status and body; `error` is absent from the body when `None`. */
  datatype HttpError = HttpError(status: nat, message: string, error: Option<string>)

  /** `dto.shopId || 'default'`. */
  function ShopIdOf(shopId: Option<string>): (s: string)
    ensures s != ""
    ensures shopId.Some? && shopId.value != "" ==> s == shopId.value
    ensures !(shopId.Some? && shopId.value != "") ==> s == DefaultShopId
  {
    if shopId.Some? && shopId.value != "" then shopId.value else DefaultShopId
  }

  /** The three `message.includes(...)` tests on the lower-cased message. */
  predicate MentionsTransientAsWritten(message: string) {
    var m := LowerString(message);
    Contains(m, "rate") || Contains(m, "timeout") || Contains(m, "unavailable")
  }

  predicate IsLetter(c: char) {
    'a' <= c <= 'z' || 'A' <= c <= 'Z'
  }

  predicate AllLetters(s: string) {
    forall i :: 0 <= i < |s| ==> IsLetter(s[i])
  }

  /** The number of letters `s` starts with. */
  function LetterRun(s: string): (k: nat)
    ensures k <= |s|
    ensures forall j :: 0 <= j < k ==> IsLetter(s[j])
    ensures k < |s| ==> !IsLetter(s[k])
  {
    if s == [] || !IsLetter(s[0]) then 0 else 1 + LetterRun(s[1..])
  }

  /** The maximal runs of letters in `s`, in order. */
  function Words(s: string): (ws: seq<string>)
    ensures forall i :: 0 <= i < |ws| ==> |ws[i]| >= 1 && AllLetters(ws[i])
    decreases |s|
  {
    if s == [] then []
    else if !IsLetter(s[0]) then Words(s[1..])
    else
      var k := LetterRun(s);
      [s[..k]] + Words(s[k..])
  }

  /** A keyword occurs in the lower-cased message as a whole word. */
  predicate MentionsTransient(message: string) {
    var ws := Words(LowerString(message));
    exists i :: 0 <= i < |ws| && (ws[i] == "rate" || ws[i] == "timeout" || ws[i] == "unavailable")
  }

  /** The error response for a thrown error, given the controller's transient test. */
  function ErrorResponse(e: Thrown, transient: bool): (h: HttpError)
    ensures e.OtherFailure? ==> h == HttpError(InternalServerError, FailedMessage, None)
    ensures e.LlmFailure? && transient ==> h == HttpError(ServiceUnavailable, UnavailableMessage, Some(e.cause.message))
    ensures e.LlmFailure? && !transient ==> h == HttpError(InternalServerError, FailedMessage, Some(e.cause.message))
  {
    match e
    case OtherFailure => HttpError(InternalServerError, FailedMessage, None)
    case LlmFailure(cause) =>
      if transient then HttpError(ServiceUnavailable, UnavailableMessage, Some(cause.message))
      else HttpError(InternalServerError, FailedMessage, Some(cause.message))
  }

  /** `generate(dto)` as written: substring matching. */
  function GenerateAsWritten(outcome: Result<seq<Insight>, Thrown>): (r: Result<seq<Insight>, HttpError>)
    ensures r.Success? <==> outcome.Success?
    ensures r.Success? ==> r.value == outcome.value
    ensures r.Failure? && outcome.error.LlmFailure? ==>
              (r.error.status == ServiceUnavailable <==> MentionsTransientAsWritten(outcome.error.cause.message))
    ensures r.Failure? && outcome.error.LlmFailure? ==> r.error.error == Some(outcome.error.cause.message)
    ensures r.Failure? && outcome.error.OtherFailure? ==> r.error == HttpError(InternalServerError, FailedMessage, None)
  {
    match outcome
    case Success(insights) => Success(insights)
    case Failure(e) => Failure(ErrorResponse(e, e.LlmFailure? && MentionsTransientAsWritten(e.cause.message)))
  }

  /** `generate(dto)` with the keywords matched as whole words. */
  function Generate(outcome: Result<seq<Insight>, Thrown>): (r: Result<seq<Insight>, HttpError>)
    ensures r.Success? <==> outcome.Success?
    ensures r.Success? ==> r.value == outcome.value
    ensures r.Failure? && outcome.error.LlmFailure? ==>
              (r.error.status == ServiceUnavailable <==> MentionsTransient(outcome.error.cause.message))
    ensures r.Failure? && outcome.error.LlmFailure? ==> r.error.error == Some(outcome.error.cause.message)
    ensures r.Failure? && outcome.error.OtherFailure? ==> r.error == HttpError(InternalServerError, FailedMessage, None)
    ensures r.Failure? ==> r.error.status == ServiceUnavailable || r.error.status == InternalServerError
  {
    match outcome
    case Success(insights) => Success(insights)
    case Failure(e) => Failure(ErrorResponse(e, e.LlmFailure? && MentionsTransient(e.cause.message)))
  }

  /** The generation pipeline's failure as the controller sees it. */
  function FromGeneration(r: Result<seq<Insight>, Llm.LlmServiceError>): Result<seq<Insight>, Thrown> {
    match r
    case Success(v) => Success(v)
    case Failure(e) => Failure(LlmFailure(e))
  }

  // ----- Words of a message built from words -----

  lemma {:induction false} LetterRunOfWord(x: string, rest: string)
    requires AllLetters(x) && (rest == [] || !IsLetter(rest[0]))
    ensures LetterRun(x + rest) == |x|
  {
    if x != [] {
      assert (x + rest)[1..] == x[1..] + rest;
      LetterRunOfWord(x[1..], rest);
    }
  }

  lemma WordsOfWord(x: string)
    requires |x| >= 1 && AllLetters(x)
    ensures Words(x) == [x]
  {
    LetterRunOfWord(x, []);
    assert x + [] == x;
    assert x[..|x|] == x;
  }

  lemma WordsOfSpaced(x: string, y: string)
    requires |x| >= 1 && AllLetters(x)
    ensures Words(x + " " + y) == [x] + Words(y)
  {
    var s := x + " " + y;
    assert s == x + (" " + y);
    LetterRunOfWord(x, " " + y);
    assert s[..|x|] == x;
    assert s[|x|..] == " " + y;
    assert (" " + y)[1..] == y;
  }

  lemma LowerConcat(a: string, b: string)
    ensures LowerString(a + b) == LowerString(a) + LowerString(b)
  {
    assert forall i :: 0 <= i < |a + b| ==> LowerString(a + b)[i] == (LowerString(a) + LowerString(b))[i];
  }

  lemma LowerSpaced(a: string, b: string)
    ensures LowerString(a + " " + b) == LowerString(a) + " " + LowerString(b)
  {
    LowerConcat(a + " ", b);
    LowerConcat(a, " ");
    assert LowerString(" ") == " ";
  }

  lemma LowerKeepsLetters(x: string)
    requires |x| >= 1 && AllLetters(x)
    ensures |LowerString(x)| >= 1 && AllLetters(LowerString(x))
  {
  }

  /** The generator's message, cut at its spaces. */
  lemma FailedMessagePieces()
    ensures Llm.GenerateFailedMessage == "Failed" + " " + ("to" + " " + ("generate" + " " + "insights"))
  {
  }

  lemma PiecesAreWords()
    ensures AllLetters("Failed") && AllLetters("to") && AllLetters("generate") && AllLetters("insights")
  {
  }

  /** Four words joined by single spaces split back into those four words. */
  lemma WordsOfFour(f: string, t: string, g: string, n: string)
    requires |f| >= 1 && AllLetters(f) && |t| >= 1 && AllLetters(t)
    requires |g| >= 1 && AllLetters(g) && |n| >= 1 && AllLetters(n)
    ensures Words(f + " " + (t + " " + (g + " " + n))) == [f, t, g, n]
  {
    WordsOfWord(n);
    WordsOfSpaced(g, n);
    WordsOfSpaced(t, g + " " + n);
    WordsOfSpaced(f, t + " " + (g + " " + n));
  }

  /** A message of four words of these lengths, lower-cased, splits into those words and names no keyword. */
  lemma FourWordsNotTransient(f: string, t: string, g: string, n: string)
    requires AllLetters(f) && AllLetters(t) && AllLetters(g) && AllLetters(n)
    requires |f| == 6 && |t| == 2 && |g| == 8 && |n| == 8
    ensures !MentionsTransient(f + " " + (t + " " + (g + " " + n)))
  {
    LowerSpaced(f, t + " " + (g + " " + n));
    LowerSpaced(t, g + " " + n);
    LowerSpaced(g, n);
    var lf, lt, lg, ln := LowerString(f), LowerString(t), LowerString(g), LowerString(n);
    LowerKeepsLetters(f);
    LowerKeepsLetters(t);
    LowerKeepsLetters(g);
    LowerKeepsLetters(n);
    WordsOfFour(lf, lt, lg, ln);
    var ws := Words(LowerString(f + " " + (t + " " + (g + " " + n))));
    assert ws == [lf, lt, lg, ln];
    forall i | 0 <= i < |ws|
      ensures ws[i] != "rate" && ws[i] != "timeout" && ws[i] != "unavailable"
    {
      assert |ws[i]| != 4 && |ws[i]| != 7 && |ws[i]| != 11;
    }
  }

  /** No word of the generator's message is a transient keyword. */
  lemma FailedMessageNotTransient()
    ensures !MentionsTransient(Llm.GenerateFailedMessage)
  {
    FailedMessagePieces();
    PiecesAreWords();
    FourWordsNotTransient("Failed", "to", "generate", "insights");
  }

  /** Some word followed by "rate" and more text, lower-cased, contains "rate". */
  lemma RateAfter(head: string, tail: string)
    ensures Contains(LowerString(head + ("rate" + tail)), "rate")
  {
    LowerConcat(head, "rate" + tail);
    LowerConcat("rate", tail);
    LowerOfLower("rate");
    OccursBetween(LowerString(head), "rate", LowerString(tail));
  }

  /** "generate" lower-cased holds "rate". */
  lemma RateInsideGenerate()
    ensures Contains(LowerString(Llm.GenerateFailedMessage), "rate")
  {
    FailedMessageSplitAtRate();
    RateAfter("Failed to gene", " insights");
  }

  /** Text without capitals is its own lower case. */
  lemma LowerOfLower(x: string)
    requires forall i :: 0 <= i < |x| ==> !IsUpperAscii(x[i])
    ensures LowerString(x) == x
  {
  }

  lemma OccursBetween(a: string, w: string, b: string)
    ensures OccursAt(a + (w + b), w, |a|)
  {
    assert (a + (w + b))[|a|..|a| + |w|] == w;
  }

  lemma FailedMessageSplitAtRate()
    ensures Llm.GenerateFailedMessage == "Failed to gene" + ("rate" + " insights")
  {
  }

  /**
   * Finding, as written: every failure of the LLM call reaches the
   * controller as "Failed to generate insights", and is answered 503.
   */
  lemma EveryLlmFailureIsUnavailableAsWritten(c: Llm.Completion, uuids: nat -> string, nows: nat -> int)
    requires c.CallFailed?
    ensures GenerateAsWritten(FromGeneration(Llm.GenerateInsight(c, uuids, nows))).error.status == ServiceUnavailable
  {
    RateInsideGenerate();
  }

  /** Corrected: the same failure is answered 500, carrying the message. */
  lemma LlmFailureIsInternalError(c: Llm.Completion, uuids: nat -> string, nows: nat -> int)
    requires c.CallFailed?
    ensures Generate(FromGeneration(Llm.GenerateInsight(c, uuids, nows))).error
            == HttpError(InternalServerError, FailedMessage, Some(Llm.GenerateFailedMessage))
  {
    FailedMessageNotTransient();
  }

  /** A whole-word match is a substring match: the correction only ever turns a 503 into a 500. */
  lemma WholeWordImpliesSubstring(message: string)
    requires MentionsTransient(message)
    ensures MentionsTransientAsWritten(message)
  {
    var m := LowerString(message);
    var ws := Words(m);
    var i :| 0 <= i < |ws| && (ws[i] == "rate" || ws[i] == "timeout" || ws[i] == "unavailable");
    var j := WordOccurs(m, i);
    assert OccursAt(m, ws[i], j);
  }

  /** Each word is found in the text it was cut from. */
  lemma {:induction false} WordOccurs(s: string, i: nat) returns (j: nat)
    requires i < |Words(s)|
    ensures OccursAt(s, Words(s)[i], j)
    decreases |s|
  {
    if !IsLetter(s[0]) {
      assert Words(s) == Words(s[1..]);
      var j' := WordOccurs(s[1..], i);
      OccursShift(s, 1, Words(s)[i], j');
      j := j' + 1;
    } else {
      var k := LetterRun(s);
      assert Words(s) == [s[..k]] + Words(s[k..]);
      if i == 0 {
        assert Words(s)[0] == s[..k] == s[0..0 + k];
        j := 0;
      } else {
        assert Words(s)[i] == Words(s[k..])[i - 1];
        var j' := WordOccurs(s[k..], i - 1);
        OccursShift(s, k, Words(s)[i], j');
        j := j' + k;
      }
    }
  }

  /** An occurrence in a suffix is an occurrence in the whole text, shifted by the cut. */
  lemma OccursShift(s: string, d: nat, w: string, j: nat)
    requires d <= |s| && OccursAt(s[d..], w, j)
    ensures OccursAt(s, w, j + d)
  {
    assert s[j + d..j + d + |w|] == s[d..][j..j + |w|];
  }
}

=== FILE: llm.dfy ===
/**
 * The insight generator's deterministic parts
 * (packages/backend/src/llm/llm.service.ts): provider selection from the
 * environment, the filter that keeps well-formed insights from a model's
 * JSON answer, the conversion of a kept insight into a stored `Insight`,
 * and the wrapping of every failure as one `LlmServiceError`.
 *
 * The model's answer, already parsed from JSON, is a parameter; so are the
 * UUIDs drawn and the clock.
 */
module Llm {
  import opened Wrappers
  import opened Shared
  import opened Text

  datatype Provider = OpenAI | Anthropic

  datatype LlmConfig = LlmConfig(
    provider: Provider,
    apiKey: string,
    model: string,
    maxTokens: Option<nat>,
    temperature: string)

  /** The error class thrown by the service. */
  datatype LlmServiceError = LlmServiceError(message: string)

  /** Environment variables; an unset variable reads as `""`. */
  type Settings = map<string, string>

  function Setting(env: Settings, key: string): string {
    if key in env then env[key] else ""
  }

  const MissingKeyMessage: string := "Either OPENAI_API_KEY or ANTHROPIC_API_KEY must be set"
  const DefaultOpenAIModel: string := "gpt-4o-mini"
  const DefaultAnthropicModel: string := "claude-3-haiku-20240307"
  const DefaultMaxTokens: string := "1024"
  const DefaultTemperature: string := "0.7"
  const MaxTitleLength: nat := 60
  const GenerateFailedMessage: string := "Failed to generate insights"

  predicate IsDigit(c: char) {
    '0' <= c <= '9'
  }

  /** How many decimal digits `s` starts with. */
  function DigitPrefixLength(s: string): (k: nat)
    ensures k <= |s|
    ensures forall i :: 0 <= i < k ==> IsDigit(s[i])
    ensures k < |s| ==> !IsDigit(s[k])
  {
    if s == [] || !IsDigit(s[0]) then 0 else 1 + DigitPrefixLength(s[1..])
  }

  /** `parseInt(s, 10)` on text that starts with its digits: `None` is `NaN`. */
  function ParseInt(s: string): (n: Option<nat>)
    ensures n.None? <==> s == [] || !IsDigit(s[0])
  {
    var k := DigitPrefixLength(s);
    if k == 0 then None else Some(DigitsValue(s[..k]))
  }

  lemma {:induction false} AllDigitsPrefix(s: string)
    requires forall i :: 0 <= i < |s| ==> IsDigit(s[i])
    ensures DigitPrefixLength(s) == |s|
  {
    if s != [] {
      AllDigitsPrefix(s[1..]);
    }
  }

  /** `parseInt` reads back any rendered count. */
  lemma ParseIntRoundTrip(n: nat)
    ensures ParseInt(NatToString(n)) == Some(n)
  {
    var s := NatToString(n);
    AllDigitsPrefix(s);
    assert s[..|s|] == s;
    NatToStringRoundTrip(n);
  }

  /** `loadConfig()`: OpenAI whenever its key is set, otherwise Anthropic; no key at all is an error. */
  function LoadConfig(env: Settings): (r: Result<LlmConfig, LlmServiceError>)
    ensures var openaiKey := Setting(env, "OPENAI_API_KEY");
            var anthropicKey := Setting(env, "ANTHROPIC_API_KEY");
            && (r.Failure? <==> openaiKey == "" && anthropicKey == "")
            && (r.Failure? ==> r.error.message == MissingKeyMessage)
            && (r.Success? ==> r.value.apiKey != "")
            && (r.Success? ==> (r.value.provider == OpenAI <==> openaiKey != ""))
            && (r.Success? && r.value.provider == OpenAI ==> r.value.apiKey == openaiKey)
            && (r.Success? && r.value.provider == Anthropic ==> r.value.apiKey == anthropicKey)
    ensures r.Success? && r.value.provider == OpenAI ==>
              r.value.model == if Setting(env, "OPENAI_MODEL") != "" then Setting(env, "OPENAI_MODEL") else DefaultOpenAIModel
    ensures r.Success? && r.value.provider == Anthropic ==>
              r.value.model == if Setting(env, "ANTHROPIC_MODEL") != "" then Setting(env, "ANTHROPIC_MODEL") else DefaultAnthropicModel
    ensures r.Success? && Setting(env, "LLM_MAX_TOKENS") == "" ==> r.value.maxTokens == Some(1024)
    ensures r.Success? && Setting(env, "LLM_MAX_TOKENS") != "" ==> r.value.maxTokens == ParseInt(Setting(env, "LLM_MAX_TOKENS"))
    ensures r.Success? ==>
              r.value.temperature == if Setting(env, "LLM_TEMPERATURE") != "" then Setting(env, "LLM_TEMPERATURE") else DefaultTemperature
  {
    var openaiKey := Setting(env, "OPENAI_API_KEY");
    var anthropicKey := Setting(env, "ANTHROPIC_API_KEY");
    if openaiKey == "" && anthropicKey == "" then Failure(LlmServiceError(MissingKeyMessage))
    else
      var provider := if openaiKey != "" then OpenAI else Anthropic;
      var apiKey := if openaiKey != "" then openaiKey else anthropicKey;
      var model :=
        if provider == OpenAI then
          (if Setting(env, "OPENAI_MODEL") != "" then Setting(env, "OPENAI_MODEL") else DefaultOpenAIModel)
        else
          (if Setting(env, "ANTHROPIC_MODEL") != "" then Setting(env, "ANTHROPIC_MODEL") else DefaultAnthropicModel);
      var maxTokens := if Setting(env, "LLM_MAX_TOKENS") != "" then Setting(env, "LLM_MAX_TOKENS") else DefaultMaxTokens;
      var temperature := if Setting(env, "LLM_TEMPERATURE") != "" then Setting(env, "LLM_TEMPERATURE") else DefaultTemperature;
      DefaultMaxTokensParses();
      Success(LlmConfig(provider, apiKey, model, ParseInt(maxTokens), temperature))
  }

  lemma DefaultMaxTokensParses()
    ensures ParseInt(DefaultMaxTokens) == Some(1024)
  {
    assert NatToString(1024) == DefaultMaxTokens by {
      assert NatToString(1) == "1";
      assert NatToString(10) == "10";
      assert NatToString(102) == "102";
    }
    ParseIntRoundTrip(1024);
  }

  /**
   * One element of the model's parsed JSON array: a non-object (or `null`),
   * or an object whose `type`, `title`, `content` and `metadata` keys may be
   * absent. A present `title`/`content` is held as its `String(...)`
   * rendering; `metadata` is `None` when it is absent or falsy.
   */
  datatype RawInsight =
    | NotAnObject
    | RawObject(insightType: Option<string>, title: Option<string>, content: Option<string>, metadata: Option<Props>)

  /** `GeneratedInsight`. */
  datatype GeneratedInsight = GeneratedInsight(insightType: InsightType, title: string, content: string, metadata: Props)

  /** The filter's test: an object with `type`, `title` and `content`, and a known type. */
  predicate Keep(c: RawInsight) {
    && c.RawObject?
    && c.insightType.Some? && c.title.Some? && c.content.Some?
    && ParseInsightType(c.insightType.value).Some?
  }

  /** `title.slice(0, 60)`. */
  function TruncateTitle(title: string): (t: string)
    ensures |t| <= MaxTitleLength
    ensures t <= title
    ensures |title| <= MaxTitleLength ==> t == title
  {
    if |title| <= MaxTitleLength then title else title[..MaxTitleLength]
  }

  /** The `map` step applied to a kept object. */
  function Normalize(c: RawInsight): (g: GeneratedInsight)
    requires Keep(c)
    ensures InsightTypeName(g.insightType) == c.insightType.value
    ensures g.title == TruncateTitle(c.title.value) && g.content == c.content.value
    ensures c.metadata.Some? ==> g.metadata == c.metadata.value
    ensures c.metadata.None? ==> g.metadata == map[]
  {
    GeneratedInsight(
      ParseInsightType(c.insightType.value).value,
      TruncateTitle(c.title.value),
      c.content.value,
      c.metadata.GetOr(map[]))
  }

  /** `g` is the normalisation of a well-formed element of `cs`. */
  predicate NormalizedFrom(cs: seq<RawInsight>, g: GeneratedInsight) {
    exists c :: c in cs && Keep(c) && g == Normalize(c)
  }

  /** `validateInsights(insights)`: the well-formed objects, normalised, in order. */
  function ValidateInsights(cs: seq<RawInsight>): (gs: seq<GeneratedInsight>)
    ensures |gs| <= |cs|
    ensures forall g :: g in gs ==> |g.title| <= MaxTitleLength
    ensures forall g :: g in gs ==> NormalizedFrom(cs, g)
  {
    if cs == [] then []
    else (if Keep(cs[0]) then [Normalize(cs[0])] else []) + ValidateInsights(cs[1..])
  }

  /** Validation looks at each element on its own: it distributes over concatenation. */
  lemma {:induction false} ValidateConcat(a: seq<RawInsight>, b: seq<RawInsight>)
    ensures ValidateInsights(a + b) == ValidateInsights(a) + ValidateInsights(b)
  {
    if a == [] {
      assert a + b == b;
    } else {
      var h := if Keep(a[0]) then [Normalize(a[0])] else [];
      calc {
        ValidateInsights(a + b);
        { assert a + b == [a[0]] + (a[1..] + b); ValidateCons(a[0], a[1..] + b); }
        h + ValidateInsights(a[1..] + b);
        { ValidateConcat(a[1..], b); }
        h + (ValidateInsights(a[1..]) + ValidateInsights(b));
        (h + ValidateInsights(a[1..])) + ValidateInsights(b);
        { assert a == [a[0]] + a[1..]; ValidateCons(a[0], a[1..]); }
        ValidateInsights(a) + ValidateInsights(b);
      }
    }
  }

  lemma ValidateCons(c: RawInsight, rest: seq<RawInsight>)
    ensures ValidateInsights([c] + rest) == (if Keep(c) then [Normalize(c)] else []) + ValidateInsights(rest)
  {
    assert ([c] + rest)[0] == c;
    assert ([c] + rest)[1..] == rest;
  }

  /** An element is kept, normalised, exactly when it passes the filter. */
  lemma ValidateOne(c: RawInsight)
    ensures ValidateInsights([c]) == if Keep(c) then [Normalize(c)] else []
  {
  }

  /** Every well-formed element of the answer survives validation. */
  lemma {:induction false} KeptAreValidated(cs: seq<RawInsight>, i: nat)
    requires i < |cs| && Keep(cs[i])
    ensures Normalize(cs[i]) in ValidateInsights(cs)
  {
    assert cs == cs[..i] + [cs[i]] + cs[i + 1..];
    ValidateConcat(cs[..i] + [cs[i]], cs[i + 1..]);
    ValidateConcat(cs[..i], [cs[i]]);
    ValidateOne(cs[i]);
  }

  /** A generated insight written back as JSON. */
  function ToRaw(g: GeneratedInsight): RawInsight {
    RawObject(Some(InsightTypeName(g.insightType)), Some(g.title), Some(g.content), Some(g.metadata))
  }

  function AllToRaw(gs: seq<GeneratedInsight>): (cs: seq<RawInsight>)
    ensures |cs| == |gs|
    ensures forall i :: 0 <= i < |gs| ==> cs[i] == ToRaw(gs[i])
  {
    if gs == [] then [] else [ToRaw(gs[0])] + AllToRaw(gs[1..])
  }

  /** Validation is a projection: its output, written back, validates to itself. */
  lemma {:induction false} ValidateIdempotent(cs: seq<RawInsight>)
    ensures ValidateInsights(AllToRaw(ValidateInsights(cs))) == ValidateInsights(cs)
  {
    var gs := ValidateInsights(cs);
    ValidatedFixed(gs);
  }

  lemma {:induction false} ValidatedFixed(gs: seq<GeneratedInsight>)
    requires forall g :: g in gs ==> |g.title| <= MaxTitleLength
    ensures ValidateInsights(AllToRaw(gs)) == gs
  {
    if gs != [] {
      var cs := AllToRaw(gs);
      InsightTypeRoundTrip(gs[0].insightType);
      assert Keep(cs[0]) && Normalize(cs[0]) == gs[0];
      assert cs[1..] == AllToRaw(gs[1..]);
      assert forall g :: g in gs[1..] ==> g in gs;
      ValidatedFixed(gs[1..]);
    }
  }

  /** `toInsight(generated)`: an `ins-` id around a fresh UUID, stamped now, content copied. */
  function ToInsight(g: GeneratedInsight, uuid: string, now: int): (i: Insight)
    ensures |i.id| == 4 + |uuid| && i.id[..4] == "ins-" && i.id[4..] == uuid
    ensures i.generatedAt == now
    ensures i.insightType == g.insightType && i.title == g.title && i.content == g.content
    ensures i.metadata == g.metadata
  {
    Insight("ins-" + uuid, now, g.insightType, g.title, g.content, g.metadata)
  }

  /** Distinct UUIDs give distinct insight ids. */
  lemma ToInsightIdsDistinct(g: GeneratedInsight, h: GeneratedInsight, u: string, v: string, now: int, later: int)
    requires u != v
    ensures ToInsight(g, u, now).id != ToInsight(h, v, later).id
  {
    assert ToInsight(g, u, now).id[4..] == u;
    assert ToInsight(h, v, later).id[4..] == v;
  }

  /** The `map(toInsight)` step; `uuids(i)` is the UUID drawn for the `i`-th insight. */
  function ToInsights(gs: seq<GeneratedInsight>, uuids: nat -> string, nows: nat -> int, from: nat): (ins: seq<Insight>)
    ensures |ins| == |gs|
    ensures forall i :: 0 <= i < |gs| ==> ins[i] == ToInsight(gs[i], uuids(from + i), nows(from + i))
    decreases |gs|
  {
    if gs == [] then [] else [ToInsight(gs[0], uuids(from), nows(from))] + ToInsights(gs[1..], uuids, nows, from + 1)
  }

  /** What the provider call produced: the parsed answer array, or a thrown error. */
  datatype Completion = Answer(candidates: seq<RawInsight>) | CallFailed(message: string)

  /**
   * `generateInsight(stats)`: every failure inside, whatever its message, is
   * rethrown as `LlmServiceError('Failed to generate insights')`. Each
   * insight draws its own UUID and its own clock reading: `uuids(i)` and
   * `nows(i)` are those of the `i`-th validated candidate.
   */
  function GenerateInsight(completion: Completion, uuids: nat -> string, nows: nat -> int): (r: Result<seq<Insight>, LlmServiceError>)
    ensures r.Failure? <==> completion.CallFailed?
    ensures r.Failure? ==> r.error.message == GenerateFailedMessage
    ensures r.Success? ==> |r.value| == |ValidateInsights(completion.candidates)|
    ensures r.Success? ==> forall i :: 0 <= i < |r.value| ==>
              r.value[i].generatedAt == nows(i) && |r.value[i].title| <= MaxTitleLength
    ensures r.Success? ==> forall i :: 0 <= i < |r.value| ==>
              var g := ValidateInsights(completion.candidates)[i];
              && r.value[i].insightType == g.insightType && r.value[i].title == g.title
              && r.value[i].content == g.content && r.value[i].metadata == g.metadata
              && |r.value[i].id| >= 4 && r.value[i].id[..4] == "ins-"
  {
    match completion
    case CallFailed(_) => Failure(LlmServiceError(GenerateFailedMessage))
    case Answer(cs) =>
      var gs := ValidateInsights(cs);
      assert forall i :: 0 <= i < |gs| ==> gs[i] in gs;
      Success(ToInsights(gs, uuids, nows, 0))
  }
}

=== FILE: ordering.dfy ===
/**
 * The database side of the backend's list queries, reduced to sequences:
 * `ORDER BY <key> DESC`, `OFFSET skip LIMIT take`, and the
 * `Math.ceil(total / limit)` page count that every paginated response reports.
 */
module Ordering {

  /** Newest first: keys never increase along the sequence. */
  predicate SortedDesc<T>(s: seq<T>, key: T -> int) {
    forall i, j :: 0 <= i < j < |s| ==> key(s[i]) >= key(s[j])
  }

  /** Places `x` in front of the first element whose key is smaller. */
  function InsertDesc<T>(x: T, s: seq<T>, key: T -> int): (r: seq<T>)
    requires SortedDesc(s, key)
    ensures SortedDesc(r, key)
    ensures multiset(r) == multiset(s) + multiset{x}
    ensures |r| == |s| + 1
  {
    if s == [] then [x]
    else if key(x) >= key(s[0]) then [x] + s
    else
      var rest := InsertDesc(x, s[1..], key);
      assert s == [s[0]] + s[1..];
      HeadDominates(s[0], x, s[1..], rest, key);
      [s[0]] + rest
  }

  /** An element at least as new as every element of `s` and as `x` stays so after `x` joins `s`. */
  lemma HeadDominates<T>(h: T, x: T, s: seq<T>, r: seq<T>, key: T -> int)
    requires forall k :: 0 <= k < |s| ==> key(h) >= key(s[k])
    requires key(h) >= key(x)
    requires multiset(r) == multiset(s) + multiset{x}
    ensures forall k :: 0 <= k < |r| ==> key(h) >= key(r[k])
  {
    forall k | 0 <= k < |r|
      ensures key(h) >= key(r[k])
    {
      assert r[k] in multiset(r);
      if r[k] != x {
        assert r[k] in multiset(s);
        var m :| 0 <= m < |s| && s[m] == r[k];
      }
    }
  }

  /** `ORDER BY key DESC`: a rearrangement of the rows, newest first. */
  function SortDesc<T>(s: seq<T>, key: T -> int): (r: seq<T>)
    ensures SortedDesc(r, key)
    ensures multiset(r) == multiset(s)
    ensures |r| == |s|
  {
    if s == [] then []
    else
      assert s == [s[0]] + s[1..];
      InsertDesc(s[0], SortDesc(s[1..], key), key)
  }

  /** `OFFSET skip LIMIT take` over an ordered result. */
  function Window<T>(s: seq<T>, skip: nat, take: nat): (r: seq<T>)
    ensures |r| <= take
    ensures skip <= |s| ==> |r| == if skip + take <= |s| then take else |s| - skip
    ensures skip > |s| ==> r == []
    ensures forall i :: 0 <= i < |r| ==> skip + i < |s| && r[i] == s[skip + i]
  {
    if skip >= |s| then []
    else if skip + take <= |s| then s[skip..skip + take]
    else s[skip..]
  }

  /** A first window at least as long as the result is the whole result. */
  lemma WholeWindow<T>(s: seq<T>, take: nat)
    requires take >= |s|
    ensures Window(s, 0, take) == s
  {
    if s != [] {
      assert s[0..] == s;
    }
  }

  /** A window holds rows of the result only, and keeps an ordered result ordered. */
  lemma WindowOfSorted<T>(s: seq<T>, skip: nat, take: nat, key: T -> int)
    ensures forall x :: x in Window(s, skip, take) ==> x in s
    ensures SortedDesc(s, key) ==> SortedDesc(Window(s, skip, take), key)
  {
    var w := Window(s, skip, take);
    forall x | x in w
      ensures x in s
    {
      var i :| 0 <= i < |w| && w[i] == x;
      assert s[skip + i] == x;
    }
    if SortedDesc(s, key) {
      forall i, j | 0 <= i < j < |w|
        ensures key(w[i]) >= key(w[j])
      {
        assert w[i] == s[skip + i] && w[j] == s[skip + j];
      }
    }
  }

  /** A row of a sorted result that the first window leaves out is no newer than any row it keeps. */
  lemma FirstWindowDominates<T>(s: seq<T>, take: nat, k: nat, key: T -> int)
    requires SortedDesc(s, key) && k < |s| && s[k] !in Window(s, 0, take)
    ensures forall y :: y in Window(s, 0, take) ==> key(y) >= key(s[k])
  {
    var w := Window(s, 0, take);
    assert forall i :: 0 <= i < |w| ==> s[i] != s[k];
    forall y | y in w
      ensures key(y) >= key(s[k])
    {
      var j :| 0 <= j < |w| && w[j] == y;
      assert s[j] == y;
    }
  }

  /** `Math.ceil(total / limit)` for a positive limit. */
  function CeilDiv(total: nat, limit: nat): (pages: nat)
    requires limit > 0
    ensures pages * limit >= total
    ensures pages > 0 ==> (pages - 1) * limit < total
  {
    (total + limit - 1) / limit
  }

  /**
   * Pages tile the ordered result: the row at position `i` is found on page
   * `i / limit + 1`, which is one of the `CeilDiv(|s|, limit)` reported pages.
   */
  lemma {:induction false} EveryRowOnItsPage<T>(s: seq<T>, limit: nat, i: nat) returns (page: nat, skip: nat)
    requires limit > 0 && i < |s|
    ensures page == i / limit + 1 && skip == (page - 1) * limit && skip <= i
    ensures 1 <= page <= CeilDiv(|s|, limit)
    ensures i - skip < |Window(s, skip, limit)| && Window(s, skip, limit)[i - skip] == s[i]
  {
    page := i / limit + 1;
    skip := (i / limit) * limit;
    assert skip <= i < skip + limit;
    var pages := CeilDiv(|s|, limit);
    assert (page - 1) * limit < pages * limit;
    MulCancel(page - 1, pages, limit);
  }

  lemma MulCancel(a: nat, b: nat, c: nat)
    requires a * c < b * c
    ensures a < b
  {
  }
}

=== FILE: pageview.dfy ===
/**
 * Automatic page-view tracking (packages/tracker/src/pageview.ts).
 *
 * The module-level variables become one `PageViewState`; the browser's
 * History API entry points and the `popstate` listener are part of it, so
 * patching and unpatching are state transitions that can be undone. The
 * deferred `setTimeout(triggerPageView, 0)` after `pushState`/`replaceState`
 * is modelled as running right after the URL has changed. Each step reports
 * the properties it passed to the track callback, if it called it.
 */
module PageView {
  import opened Wrappers
  import opened Shared

  const PageViewEvent: string := "page_view"

  /** What the page reports at a navigation signal: `location.href`, `document.title`, `document.referrer`, `location.pathname`. */
  datatype PageContext = PageContext(href: string, title: string, referrer: string, pathname: string)

  /** A History API entry point: the browser's own, or the tracker's wrapper around an earlier one. */
  datatype HistoryFn = Native(id: nat) | Wrapped(inner: HistoryFn)

  /** The parts of `window.history` and `window` the tracker touches. */
  datatype Browser = Browser(pushState: HistoryFn, replaceState: HistoryFn, popstateListening: bool)

  /** `HistoryState`: the saved originals and whether the patch is installed. */
  datatype HistoryState = HistoryState(
    originalPushState: Option<HistoryFn>,
    originalReplaceState: Option<HistoryFn>,
    popstateHandler: bool,
    isSetup: bool)

  datatype PageViewState = PageViewState(
    history: HistoryState,
    browser: Browser,
    lastTrackedUrl: Option<string>,
    hasCallback: bool,
    debug: bool)

  /** A step's new state and the page-view properties it handed to the callback, if any. */
  datatype Emitted = Emitted(state: PageViewState, emitted: Option<Props>)

  /** A navigation signal the tracker observes. */
  datatype Navigation = Push(page: PageContext) | Replace(page: PageContext) | Pop(page: PageContext)

  /** A page before any tracking: native History API, nothing saved, nothing tracked. */
  function Initial(push: nat, replace: nat): (s: PageViewState)
    ensures !s.history.isSetup && s.lastTrackedUrl.None? && !s.hasCallback
  {
    PageViewState(HistoryState(None, None, false, false), Browser(Native(push), Native(replace), false), None, false, false)
  }

  /** `capturePageViewProperties()`. */
  function CaptureProperties(page: PageContext): (p: Props)
    ensures p.Keys == {"url", "title", "referrer", "path"}
    ensures p["url"] == page.href && p["path"] == page.pathname
    ensures p["title"] == page.title && p["referrer"] == page.referrer
  {
    map["url" := page.href, "title" := page.title, "referrer" := page.referrer, "path" := page.pathname]
  }

  /** `triggerPageView()`: suppress the URL tracked last; otherwise remember it and call the callback if there is one. */
  function TriggerPageView(s: PageViewState, page: PageContext): (e: Emitted)
    ensures s.lastTrackedUrl == Some(page.href) ==> e == Emitted(s, None)
    ensures s.lastTrackedUrl != Some(page.href) ==> e.state == s.(lastTrackedUrl := Some(page.href))
    ensures s.lastTrackedUrl != Some(page.href) ==> e.emitted == if s.hasCallback then Some(CaptureProperties(page)) else None
  {
    if s.lastTrackedUrl == Some(page.href) then Emitted(s, None)
    else
      var s' := s.(lastTrackedUrl := Some(page.href));
      Emitted(s', if s.hasCallback then Some(CaptureProperties(page)) else None)
  }

  /** `patchHistoryApi()`: save the current entry points, install wrappers and the `popstate` listener; once only. */
  function PatchHistoryApi(s: PageViewState): (s': PageViewState)
    ensures s.history.isSetup ==> s' == s
    ensures s'.history.isSetup
    ensures !s.history.isSetup ==> s'.browser.popstateListening && s'.history.popstateHandler
    ensures !s.history.isSetup ==> s'.history.originalPushState == Some(s.browser.pushState)
    ensures !s.history.isSetup ==> s'.history.originalReplaceState == Some(s.browser.replaceState)
    ensures !s.history.isSetup ==> s'.browser.pushState == Wrapped(s.browser.pushState)
    ensures !s.history.isSetup ==> s'.browser.replaceState == Wrapped(s.browser.replaceState)
    ensures s'.lastTrackedUrl == s.lastTrackedUrl && s'.hasCallback == s.hasCallback
  {
    if s.history.isSetup then s
    else
      var saved := HistoryState(Some(s.browser.pushState), Some(s.browser.replaceState), true, true);
      var browser := Browser(Wrapped(s.browser.pushState), Wrapped(s.browser.replaceState), true);
      s.(history := saved, browser := browser)
  }

  /** `unpatchHistoryApi()`: put the saved entry points back, drop the listener, forget everything saved. */
  function UnpatchHistoryApi(s: PageViewState): (s': PageViewState)
    ensures !s.history.isSetup ==> s' == s
    ensures s'.history == HistoryState(None, None, false, false) || (!s.history.isSetup && s' == s)
    ensures s.history.isSetup && s.history.originalPushState.Some? ==> s'.browser.pushState == s.history.originalPushState.value
    ensures s.history.isSetup && s.history.originalReplaceState.Some? ==> s'.browser.replaceState == s.history.originalReplaceState.value
    ensures s.history.isSetup && s.history.popstateHandler ==> !s'.browser.popstateListening
    ensures s'.lastTrackedUrl == s.lastTrackedUrl && s'.hasCallback == s.hasCallback
  {
    if !s.history.isSetup then s
    else
      var h := s.history;
      var push := if h.originalPushState.Some? then h.originalPushState.value else s.browser.pushState;
      var replace := if h.originalReplaceState.Some? then h.originalReplaceState.value else s.browser.replaceState;
      var listening := if h.popstateHandler then false else s.browser.popstateListening;
      s.(history := HistoryState(None, None, false, false), browser := Browser(push, replace, listening))
  }

  /** Patching twice is patching once. */
  lemma PatchIsIdempotent(s: PageViewState)
    ensures PatchHistoryApi(PatchHistoryApi(s)) == PatchHistoryApi(s)
  {
  }

  /** Unpatching undoes patching: the browser gets back entry points equivalent to the ones it had (the source restores bound copies of them). */
  lemma UnpatchUndoesPatch(s: PageViewState)
    requires !s.history.isSetup && !s.browser.popstateListening
    ensures UnpatchHistoryApi(PatchHistoryApi(s)).browser == s.browser
    ensures !UnpatchHistoryApi(PatchHistoryApi(s)).history.isSetup
  {
  }

  /** `setupPageViewTracking(callback, debug)`: register the callback, patch, track the initial page. */
  function Setup(s: PageViewState, debug: bool, page: PageContext): (e: Emitted)
    ensures e.state.history.isSetup && e.state.hasCallback
    ensures e.state.lastTrackedUrl == Some(page.href)
    ensures e.emitted.Some? <==> s.lastTrackedUrl != Some(page.href)
    ensures e.emitted.Some? ==> e.emitted.value == CaptureProperties(page)
  {
    var s1 := s.(hasCallback := true, debug := debug);
    TriggerPageView(PatchHistoryApi(s1), page)
  }

  /** `teardownPageViewTracking()`: unpatch, drop the callback, forget the last URL. */
  function Teardown(s: PageViewState): (s': PageViewState)
    ensures !s'.history.isSetup && !s'.hasCallback && s'.lastTrackedUrl.None? && !s'.debug
  {
    UnpatchHistoryApi(s).(hasCallback := false, lastTrackedUrl := None, debug := false)
  }

  /** `trackPageView(trackFn)`: the manual path, which always emits the current page. */
  function ManualPageView(page: PageContext): Props {
    CaptureProperties(page)
  }

  /** The tracker's reaction to a navigation: a trigger if its wrapper or listener is installed. */
  function Navigate(s: PageViewState, nav: Navigation): (e: Emitted)
    ensures !s.history.isSetup && !s.browser.pushState.Wrapped? && !s.browser.replaceState.Wrapped? && !s.browser.popstateListening
            ==> e == Emitted(s, None)
  {
    match nav
    case Push(page) => if s.browser.pushState.Wrapped? then TriggerPageView(s, page) else Emitted(s, None)
    case Replace(page) => if s.browser.replaceState.Wrapped? then TriggerPageView(s, page) else Emitted(s, None)
    case Pop(page) => if s.browser.popstateListening then TriggerPageView(s, page) else Emitted(s, None)
  }

  /** Tracking is installed: wrappers in place, listener attached, callback registered. */
  predicate Observing(s: PageViewState) {
    s.history.isSetup && s.browser.pushState.Wrapped? && s.browser.replaceState.Wrapped?
    && s.browser.popstateListening && s.hasCallback
  }

  function NavPage(nav: Navigation): PageContext {
    match nav
    case Push(p) => p
    case Replace(p) => p
    case Pop(p) => p
  }

  /** Runs navigations in order; returns the final state and how many page views were emitted. */
  function RunNavigations(s: PageViewState, navs: seq<Navigation>): (PageViewState, nat)
    decreases |navs|
  {
    if navs == [] then (s, 0)
    else
      var e := Navigate(s, navs[0]);
      var (s', n) := RunNavigations(e.state, navs[1..]);
      (s', n + if e.emitted.Some? then 1 else 0)
  }

  /** How many URLs in `urls` differ from the one before them, the first compared with `last`. */
  function UrlChanges(last: Option<string>, urls: seq<string>): nat
    decreases |urls|
  {
    if urls == [] then 0
    else (if last == Some(urls[0]) then 0 else 1) + UrlChanges(Some(urls[0]), urls[1..])
  }

  function Hrefs(navs: seq<Navigation>): (urls: seq<string>)
    ensures |urls| == |navs|
    ensures forall i :: 0 <= i < |navs| ==> urls[i] == NavPage(navs[i]).href
  {
    if navs == [] then [] else [NavPage(navs[0]).href] + Hrefs(navs[1..])
  }

  /**
   * While tracking is installed, every pushState, replaceState or popstate
   * emits exactly one page view per change of URL and none for a repeat.
   */
  lemma {:induction false} OnePageViewPerDistinctUrl(s: PageViewState, navs: seq<Navigation>)
    requires Observing(s)
    ensures RunNavigations(s, navs).1 == UrlChanges(s.lastTrackedUrl, Hrefs(navs))
    ensures Observing(RunNavigations(s, navs).0)
    decreases |navs|
  {
    if navs != [] {
      var e := Navigate(s, navs[0]);
      assert e == TriggerPageView(s, NavPage(navs[0]));
      assert Hrefs(navs)[1..] == Hrefs(navs[1..]);
      OnePageViewPerDistinctUrl(e.state, navs[1..]);
    }
  }

  /** Two triggers on one URL emit at most one page view. */
  lemma RepeatedTriggerEmitsOnce(s: PageViewState, page: PageContext)
    ensures var e1 := TriggerPageView(s, page);
            TriggerPageView(e1.state, page) == Emitted(e1.state, None)
  {
  }

  /** Tearing down forgets the last URL, so setting up again on the same page tracks it again. */
  lemma SetupAfterTeardownTracksAgain(s: PageViewState, debug: bool, page: PageContext)
    ensures Setup(Teardown(s), debug, page).emitted == Some(CaptureProperties(page))
  {
  }
}

=== FILE: pagination.dfy ===
/**
 * The dashboard's event-list pager
 * (packages/dashboard/src/components/EventList/Pagination.tsx): the
 * "Showing start-end of total" range, the previous/next requests, the hide
 * condition and the page count it displays.
 */
module Pagination {
  import opened Wrappers
  import Ordering

  /** `startItem`: the 1-based position of the page's first row, 0 for an empty list. */
  function StartItem(currentPage: int, total: int, limit: int): (start: int)
    ensures total == 0 ==> start == 0
    ensures total != 0 ==> start - 1 == (currentPage - 1) * limit
  {
    if total == 0 then 0 else (currentPage - 1) * limit + 1
  }

  /** `endItem`: the position of the page's last row, never past the total. */
  function EndItem(currentPage: int, total: int, limit: int): (end: int)
    ensures end <= total && end <= currentPage * limit
    ensures end == total || end == currentPage * limit
  {
    if currentPage * limit < total then currentPage * limit else total
  }

  /** `handlePrevious`: the page requested, if any. */
  function Previous(currentPage: int): (p: Option<int>)
    ensures p.Some? <==> currentPage > 1
    ensures p.Some? ==> p.value == currentPage - 1
  {
    if currentPage > 1 then Some(currentPage - 1) else None
  }

  /** `handleNext`: the page requested, if any. */
  function Next(currentPage: int, totalPages: int): (p: Option<int>)
    ensures p.Some? <==> currentPage < totalPages
    ensures p.Some? ==> p.value == currentPage + 1
  {
    if currentPage < totalPages then Some(currentPage + 1) else None
  }

  /** `totalPages <= 1 && total === 0`: the component renders nothing, which happens only when there is nothing to page. */
  predicate IsHidden(totalPages: int, total: int): (b: bool)
    ensures b ==> total == 0
    ensures totalPages > 1 ==> !b
  {
    totalPages <= 1 && total == 0
  }

  /** Against the backend's `ceil(total / limit)`, the control is hidden exactly when there are no rows. */
  lemma HiddenIffNoRows(total: nat, limit: nat)
    requires limit > 0
    ensures IsHidden(Ordering.CeilDiv(total, limit), total) <==> total == 0
  {
    if total == 0 {
      assert Ordering.CeilDiv(0, limit) == 0;
    }
  }

  /** `totalPages || 1`. */
  function DisplayedPageCount(totalPages: int): (n: int)
    ensures totalPages != 0 ==> n == totalPages
    ensures totalPages == 0 ==> n == 1
  {
    if totalPages == 0 then 1 else totalPages
  }

  /** From any page in range, previous and next only ever request a page in range. */
  lemma NavigationStaysInRange(currentPage: int, totalPages: int)
    requires 1 <= currentPage <= totalPages
    ensures Previous(currentPage).Some? ==> 1 <= Previous(currentPage).value <= totalPages
    ensures Next(currentPage, totalPages).Some? ==> 1 <= Next(currentPage, totalPages).value <= totalPages
    ensures Previous(currentPage).None? <==> currentPage == 1
    ensures Next(currentPage, totalPages).None? <==> currentPage == totalPages
  {
  }

  /**
   * Against the backend's page (the `limit` rows from `(page-1)*limit`, with
   * `totalPages = ceil(total/limit)`), the range label counts exactly the
   * rows on the page, and an in-range page is never hidden.
   */
  lemma {:induction false} RangeLabelCountsPageRows<T>(rows: seq<T>, currentPage: nat, limit: nat)
    requires limit > 0
    requires 1 <= currentPage <= Ordering.CeilDiv(|rows|, limit)
    ensures var page := Ordering.Window(rows, (currentPage - 1) * limit, limit);
            && |page| == EndItem(currentPage, |rows|, limit) - StartItem(currentPage, |rows|, limit) + 1
            && |page| >= 1
    ensures !IsHidden(Ordering.CeilDiv(|rows|, limit), |rows|)
  {
    var pages := Ordering.CeilDiv(|rows|, limit);
    assert (currentPage - 1) * limit < |rows| by {
      assert (pages - 1) * limit < |rows|;
      MulMono(currentPage - 1, pages - 1, limit);
    }
    assert currentPage * limit == (currentPage - 1) * limit + limit;
  }

  lemma MulMono(a: nat, b: nat, c: nat)
    requires a <= b
    ensures a * c <= b * c
  {
  }
}

=== FILE: paging.dfy ===
/**
 * The paginated response every list endpoint returns
 * (`PaginatedResponseDto`, packages/shared/src/types/api.ts) and the way the
 * backend reads its numeric query parameters: `x || d` replaces a missing,
 * zero or non-numeric value by the default.
 */
module Paging {
  import Ordering

  /** A numeric query parameter after `Number(...)`: absent, `NaN`, or a count. */
  datatype NumParam = Missing | NotANumber | Value(n: nat)

  /** `param || default`: `undefined`, `NaN` and `0` are falsy. */
  function OrDefault(p: NumParam, default: nat): (n: nat)
    ensures p.Value? && p.n != 0 ==> n == p.n
    ensures !(p.Value? && p.n != 0) ==> n == default
  {
    if p.Value? && p.n != 0 then p.n else default
  }

  /** `(page - 1) * limit`: the rows before a 1-based page. */
  function Skip(page: nat, limit: nat): (skip: nat)
    requires page >= 1
    ensures page == 1 ==> skip == 0
    ensures skip + limit == page * limit
  {
    (page - 1) * limit
  }

  datatype Paginated<T> = Paginated(data: seq<T>, total: nat, page: nat, limit: nat, totalPages: nat)

  /**
   * One page of an ordered result: the rows from `skip`, at most `limit`
   * of them, with `totalPages = Math.ceil(total / limit)`.
   */
  function PageOf<T>(ordered: seq<T>, skip: nat, page: nat, limit: nat): (r: Paginated<T>)
    requires limit > 0
    ensures r.total == |ordered| && r.page == page && r.limit == limit
    ensures r.data == Ordering.Window(ordered, skip, limit)
    ensures r.totalPages * limit >= r.total && (r.totalPages > 0 ==> (r.totalPages - 1) * limit < r.total)
  {
    Paginated(Ordering.Window(ordered, skip, limit), |ordered|, page, limit, Ordering.CeilDiv(|ordered|, limit))
  }
}

=== FILE: sender.dfy ===
/**
 * The tracker's HTTP sender (packages/tracker/src/sender.ts): one POST of a
 * batch, retried with exponential backoff on 5xx, status 0 and network
 * errors, given up at once on 4xx. The network is an oracle: attempt `k`
 * receives `outcomes[k]`, and the backoff waits are recorded, not slept.
 */
module Sender {
  import opened Wrappers

  const DefaultMaxRetries: int := 3
  const DefaultRetryDelayMs: int := 1000

  /** What one `fetch` produced: a response with a status, or a rejection. */
  datatype HttpOutcome = Status(code: int) | NetworkError

  datatype SenderConfig = SenderConfig(
    endpoint: string,
    debug: bool,
    maxRetries: Option<int>,
    retryDelayMs: Option<int>)

  datatype SendError =
    | ClientError(status: int)
    | ServerError(status: int)
    | NetworkFailure
    | MaxRetriesExceeded

  /** `SendResult`: `success: true`, or a failure with its `retryable` flag. */
  datatype SendResult = Sent | Failed(error: SendError, retryable: bool)

  /** What a whole send did: its result, how many fetches it made, the backoff waits between them. */
  datatype Delivery = Delivery(result: SendResult, attempts: nat, delays: seq<int>)

  /** The verdict on one attempt: stop with a result, or wait and try again. */
  datatype Step = Done(result: SendResult) | Retry(delayMs: int)

  function MaxRetriesOf(config: SenderConfig): int {
    config.maxRetries.GetOr(DefaultMaxRetries)
  }

  function BaseDelayOf(config: SenderConfig): int {
    config.retryDelayMs.GetOr(DefaultRetryDelayMs)
  }

  /** `response.ok`. */
  predicate IsOk(code: int) {
    200 <= code < 300
  }

  predicate IsClientError(code: int) {
    400 <= code < 500
  }

  /** `isRetryableStatus`: the status 0 of a failed `fetch`, or a 5xx; never a success or a client error. */
  predicate IsRetryableStatus(code: int): (b: bool)
    ensures b ==> !IsOk(code) && !IsClientError(code)
    ensures b && code != 0 ==> code / 100 == 5
  {
    code == 0 || 500 <= code < 600
  }

  /** An outcome that earns another attempt while attempts remain. */
  predicate IsTransient(o: HttpOutcome) {
    o.NetworkError? || IsRetryableStatus(o.code)
  }

  function Pow2(k: nat): (p: nat)
    ensures p >= 1
  {
    if k == 0 then 1 else 2 * Pow2(k - 1)
  }

  /** `baseDelayMs * Math.pow(2, attempt)`. */
  function RetryDelay(attempt: nat, baseDelayMs: int): (d: int)
    ensures attempt == 0 ==> d == baseDelayMs
    ensures baseDelayMs >= 0 ==> d >= baseDelayMs
  {
    var p := Pow2(attempt);
    assert baseDelayMs >= 0 ==> baseDelayMs * p >= baseDelayMs * 1 by {
      if baseDelayMs >= 0 {
        MulGrows(baseDelayMs, p);
      }
    }
    baseDelayMs * p
  }

  lemma MulGrows(a: nat, p: nat)
    requires p >= 1
    ensures a * p >= a
  {
  }

  /** Each backoff wait is twice the previous one, starting from the base delay. */
  lemma RetryDelayDoubles(attempt: nat, baseDelayMs: int)
    ensures RetryDelay(0, baseDelayMs) == baseDelayMs
    ensures RetryDelay(attempt + 1, baseDelayMs) == 2 * RetryDelay(attempt, baseDelayMs)
  {
  }

  /** How one attempt's outcome is handled, in the order the sender tests it. */
  function AttemptStep(o: HttpOutcome, attempt: nat, maxRetries: int, baseDelayMs: int): (s: Step)
    ensures s == Done(Sent) <==> o.Status? && IsOk(o.code)
    ensures (s.Done? && s.result.Failed? && !s.result.retryable) <==> o.Status? && IsClientError(o.code)
    ensures s.Retry? <==> attempt < maxRetries && IsTransient(o)
    ensures s.Retry? ==> s.delayMs == RetryDelay(attempt, baseDelayMs)
    ensures s.Done? && s.result.Failed? ==> s.result.error != MaxRetriesExceeded
  {
    match o
    case Status(code) =>
      if IsOk(code) then Done(Sent)
      else if IsClientError(code) then Done(Failed(ClientError(code), false))
      else if IsRetryableStatus(code) && attempt < maxRetries then Retry(RetryDelay(attempt, baseDelayMs))
      else Done(Failed(ServerError(code), true))
    case NetworkError =>
      if attempt < maxRetries then Retry(RetryDelay(attempt, baseDelayMs))
      else Done(Failed(NetworkFailure, true))
  }

  /** The retry loop from attempt `attempt` onwards. */
  function SendFrom(outcomes: seq<HttpOutcome>, attempt: nat, maxRetries: int, baseDelayMs: int): (d: Delivery)
    requires |outcomes| > maxRetries
    ensures attempt <= maxRetries ==> 1 <= d.attempts <= maxRetries + 1 - attempt
    ensures attempt > maxRetries ==> d == Delivery(Failed(MaxRetriesExceeded, true), 0, [])
    ensures |d.delays| == if d.attempts == 0 then 0 else d.attempts - 1
    decreases maxRetries + 1 - attempt
  {
    if attempt > maxRetries then Delivery(Failed(MaxRetriesExceeded, true), 0, [])
    else
      match AttemptStep(outcomes[attempt], attempt, maxRetries, baseDelayMs)
      case Done(r) => Delivery(r, 1, [])
      case Retry(wait) =>
        var rest := SendFrom(outcomes, attempt + 1, maxRetries, baseDelayMs);
        Delivery(rest.result, rest.attempts + 1, [wait] + rest.delays)
  }

  /**
   * What the retry loop went through: every attempt but the last met a
   * transient failure and waited the doubled delay; the last one decided.
   */
  lemma {:induction false} SendFromTrace(outcomes: seq<HttpOutcome>, attempt: nat, maxRetries: int, baseDelayMs: int)
    requires |outcomes| > maxRetries
    ensures var d := SendFrom(outcomes, attempt, maxRetries, baseDelayMs);
            && (forall k :: 0 <= k < |d.delays| ==> d.delays[k] == RetryDelay(attempt + k, baseDelayMs))
            && (forall j :: attempt <= j < attempt + d.attempts - 1 ==> IsTransient(outcomes[j]))
            && (d.attempts >= 1 ==> AttemptStep(outcomes[attempt + d.attempts - 1], attempt + d.attempts - 1, maxRetries, baseDelayMs) == Done(d.result))
    decreases maxRetries + 1 - attempt
  {
    if attempt <= maxRetries {
      SendFromUnfolds(outcomes, attempt, maxRetries, baseDelayMs);
      if AttemptStep(outcomes[attempt], attempt, maxRetries, baseDelayMs).Retry? {
        SendFromTrace(outcomes, attempt + 1, maxRetries, baseDelayMs);
      }
    }
  }

  /** `sendEvents(events, config)` as a function of the network's answers. */
  function Send<T>(events: seq<T>, config: SenderConfig, outcomes: seq<HttpOutcome>): (d: Delivery)
    requires |outcomes| > MaxRetriesOf(config)
    ensures events == [] ==> d == Delivery(Sent, 0, [])
    ensures d.attempts <= if MaxRetriesOf(config) >= 0 then MaxRetriesOf(config) + 1 else 0
    ensures events != [] && MaxRetriesOf(config) >= 0 ==> d.attempts >= 1
    ensures d.result == Failed(MaxRetriesExceeded, true) <==> events != [] && MaxRetriesOf(config) < 0
    ensures d.result.Sent? && events != [] ==> outcomes[d.attempts - 1].Status? && IsOk(outcomes[d.attempts - 1].code)
    ensures (d.result.Failed? && !d.result.retryable) ==> outcomes[d.attempts - 1].Status? && IsClientError(outcomes[d.attempts - 1].code)
    ensures forall k :: 0 <= k < d.attempts - 1 ==> IsTransient(outcomes[k])
    ensures forall k :: 0 <= k < |d.delays| ==> d.delays[k] == RetryDelay(k, BaseDelayOf(config))
  {
    if |events| == 0 then Delivery(Sent, 0, [])
    else
      SendFromTrace(outcomes, 0, MaxRetriesOf(config), BaseDelayOf(config));
      SendFrom(outcomes, 0, MaxRetriesOf(config), BaseDelayOf(config))
  }

  /** After `attempt` retried attempts that waited `delays`, the rest of the loop completes the whole send. */
  predicate SentSoFar(outcomes: seq<HttpOutcome>, attempt: nat, maxRetries: int, baseDelayMs: int, delays: seq<int>)
    requires |outcomes| > maxRetries
  {
    var rest := SendFrom(outcomes, attempt, maxRetries, baseDelayMs);
    SendFrom(outcomes, 0, maxRetries, baseDelayMs) == Delivery(rest.result, rest.attempts + attempt, delays + rest.delays)
  }

  lemma SentSoFarStep(outcomes: seq<HttpOutcome>, attempt: nat, maxRetries: int, baseDelayMs: int, delays: seq<int>, wait: int)
    requires |outcomes| > maxRetries && attempt <= maxRetries
    requires SentSoFar(outcomes, attempt, maxRetries, baseDelayMs, delays)
    requires AttemptStep(outcomes[attempt], attempt, maxRetries, baseDelayMs) == Retry(wait)
    ensures SentSoFar(outcomes, attempt + 1, maxRetries, baseDelayMs, delays + [wait])
  {
    SendFromUnfolds(outcomes, attempt, maxRetries, baseDelayMs);
    var rest := SendFrom(outcomes, attempt + 1, maxRetries, baseDelayMs);
    assert delays + ([wait] + rest.delays) == (delays + [wait]) + rest.delays;
  }

  /**
   * The `for` loop of `sendEvents`, attempt by attempt; it computes exactly
   * what `Send` describes.
   */
  method SendEvents<T>(events: seq<T>, config: SenderConfig, outcomes: seq<HttpOutcome>) returns (d: Delivery)
    requires |outcomes| > MaxRetriesOf(config)
    ensures d == Send(events, config, outcomes)
    ensures d.attempts <= if MaxRetriesOf(config) >= 0 then MaxRetriesOf(config) + 1 else 0
  {
    if |events| == 0 {
      return Delivery(Sent, 0, []);
    }
    var maxRetries := MaxRetriesOf(config);
    var baseDelay := BaseDelayOf(config);
    var attempt: nat := 0;
    var delays: seq<int> := [];
    while attempt <= maxRetries
      invariant maxRetries >= 0 ==> attempt <= maxRetries
      invariant maxRetries < 0 ==> attempt == 0
      invariant |delays| == attempt
      invariant SentSoFar(outcomes, attempt, maxRetries, baseDelay, delays)
      decreases maxRetries + 1 - attempt
    {
      var step := AttemptStep(outcomes[attempt], attempt, maxRetries, baseDelay);
      match step {
        case Done(r) =>
          SendFromUnfolds(outcomes, attempt, maxRetries, baseDelay);
          return Delivery(r, attempt + 1, delays);
        case Retry(wait) =>
          SentSoFarStep(outcomes, attempt, maxRetries, baseDelay, delays, wait);
          delays := delays + [wait];
          attempt := attempt + 1;
      }
    }
    return Delivery(Failed(MaxRetriesExceeded, true), attempt, delays);
  }

  /** One attempt of the retry loop: stop with its verdict, or record the wait and go on. */
  lemma SendFromUnfolds(outcomes: seq<HttpOutcome>, attempt: nat, maxRetries: int, baseDelayMs: int)
    requires |outcomes| > maxRetries && attempt <= maxRetries
    ensures var d := SendFrom(outcomes, attempt, maxRetries, baseDelayMs);
            match AttemptStep(outcomes[attempt], attempt, maxRetries, baseDelayMs)
            case Done(r) => d == Delivery(r, 1, [])
            case Retry(wait) =>
              var rest := SendFrom(outcomes, attempt + 1, maxRetries, baseDelayMs);
              d == Delivery(rest.result, rest.attempts + 1, [wait] + rest.delays)
  {
  }

  /** A 2xx on the first attempt ends the send at once. */
  lemma OkFirstAttemptSends<T>(events: seq<T>, config: SenderConfig, outcomes: seq<HttpOutcome>, code: int)
    requires events != [] && MaxRetriesOf(config) >= 0
    requires |outcomes| > MaxRetriesOf(config)
    requires outcomes[0] == Status(code) && IsOk(code)
    ensures Send(events, config, outcomes) == Delivery(Sent, 1, [])
  {
  }

  /** A 4xx after any run of transient failures stops the send: no further attempt, not retryable. */
  lemma {:induction false} ClientErrorIsFinal(outcomes: seq<HttpOutcome>, attempt: nat, maxRetries: int, baseDelayMs: int, k: nat)
    requires |outcomes| > maxRetries
    requires attempt <= k <= maxRetries
    requires forall j :: attempt <= j < k ==> IsTransient(outcomes[j])
    requires outcomes[k].Status? && IsClientError(outcomes[k].code)
    ensures SendFrom(outcomes, attempt, maxRetries, baseDelayMs).result == Failed(ClientError(outcomes[k].code), false)
    ensures SendFrom(outcomes, attempt, maxRetries, baseDelayMs).attempts == k - attempt + 1
    decreases k - attempt
  {
    if attempt < k {
      ClientErrorIsFinal(outcomes, attempt + 1, maxRetries, baseDelayMs, k);
    }
  }

  /** When every attempt fails transiently, all `maxRetries + 1` attempts are made and the failure is retryable. */
  lemma {:induction false} TransientFailuresExhaustAttempts(outcomes: seq<HttpOutcome>, attempt: nat, maxRetries: int, baseDelayMs: int)
    requires |outcomes| > maxRetries
    requires attempt <= maxRetries
    requires forall j :: attempt <= j <= maxRetries ==> IsTransient(outcomes[j])
    ensures var d := SendFrom(outcomes, attempt, maxRetries, baseDelayMs);
            d.attempts == maxRetries + 1 - attempt && d.result.Failed? && d.result.retryable
    decreases maxRetries - attempt
  {
    if attempt < maxRetries {
      TransientFailuresExhaustAttempts(outcomes, attempt + 1, maxRetries, baseDelayMs);
    }
  }

  /** With the defaults, a batch meeting only 503s is tried four times, waiting 1s, 2s and 4s in between. */
  lemma DefaultBackoffSchedule<T>(events: seq<T>, endpoint: string, debug: bool)
    requires events != []
    ensures var config := SenderConfig(endpoint, debug, None, None);
            var outcomes := [Status(503), Status(503), Status(503), Status(503)];
            Send(events, config, outcomes) == Delivery(Failed(ServerError(503), true), 4, [1000, 2000, 4000])
  {
  }

  /** A 3xx is neither ok, nor a client error, nor retryable: it fails at once, flagged retryable. */
  lemma RedirectFailsRetryableWithoutRetry<T>(events: seq<T>, config: SenderConfig, outcomes: seq<HttpOutcome>)
    requires events != [] && MaxRetriesOf(config) >= 0
    requires |outcomes| > MaxRetriesOf(config)
    requires outcomes[0] == Status(302)
    ensures Send(events, config, outcomes) == Delivery(Failed(ServerError(302), true), 1, [])
  {
  }
}

=== FILE: shared.dfy ===
/**
 * Record shapes shared by the tracker and the backend
 * (packages/shared/src/types/api.ts, insights.ts).
 *
 * Timestamps, ISO-8601 strings in the system, are integers (milliseconds):
 * strings of one fixed ISO format compare as the instants they denote.
 * A property map `Record<string, unknown>` holds each value as the text a
 * template literal renders it to; a key whose value is `undefined` is absent.
 */
module Shared {
  import opened Wrappers

  type Props = map<string, string>

  /** `CreateEventDto`: what the tracker sends and the backend ingests. */
  datatype CreateEventDto = CreateEventDto(
    shopId: string,
    sessionId: string,
    eventType: string,
    eventName: string,
    properties: Props,
    url: string,
    userAgent: string,
    timestamp: Option<int>)

  /** `InsightType`: 'summary' | 'trend' | 'anomaly'. */
  datatype InsightType = Summary | Trend | Anomaly

  function InsightTypeName(t: InsightType): string {
    match t
    case Summary => "summary"
    case Trend => "trend"
    case Anomaly => "anomaly"
  }

  /** Reads an insight type back from its name, as a string-literal union admits it. */
  function ParseInsightType(s: string): (t: Option<InsightType>)
    ensures t.Some? ==> InsightTypeName(t.value) == s
    ensures t.None? ==> s !in {"summary", "trend", "anomaly"}
  {
    if s == "summary" then Some(Summary)
    else if s == "trend" then Some(Trend)
    else if s == "anomaly" then Some(Anomaly)
    else None
  }

  /** Every insight type's name parses back to it. */
  lemma InsightTypeRoundTrip(t: InsightType)
    ensures ParseInsightType(InsightTypeName(t)) == Some(t)
  {
  }

  datatype Insight = Insight(
    id: string,
    generatedAt: int,
    insightType: InsightType,
    title: string,
    content: string,
    metadata: Props)
}

=== FILE: stats.dfy ===
/**
 * The statistics aggregation (packages/backend/src/stats/stats.service.ts):
 * folding the per-type count rows into the `Stats` totals, the conversion
 * rate, and naming the top products from the catalog.
 *
 * The four SQL queries are parameters (`QueryResults`); `GroupCount` models
 * what the `GROUP BY eventType` query returns for a shop's events, so the
 * totals can be related to the events themselves.
 */
module Stats {
  import opened Wrappers

  const PageView: string := "page_view"
  const ProductViewed: string := "product_viewed"
  const AddToCart: string := "add_to_cart"
  const PurchaseCompleted: string := "purchase_completed"
  const UnknownProduct: string := "Unknown Product"

  /** One row of the count query: an event type and `COUNT(*)`. */
  datatype CountRow = CountRow(eventType: string, count: nat)

  /** One row of the top-products query. */
  datatype ProductRow = ProductRow(productId: string, count: nat)

  datatype TopProduct = TopProduct(productId: string, name: string, count: nat)

  /** A catalog entry (`products` of the shared package), reduced to what is read here. */
  datatype Product = Product(id: string, name: string)

  /**
   * What the queries returned. `revenue` is `None` when the sum is `null`
   * or not a number; the session counts are already `Number(...) || 0`.
   */
  datatype QueryResults = QueryResults(
    eventCounts: seq<CountRow>,
    revenue: Option<int>,
    topProducts: seq<ProductRow>,
    sessionsWithProductViews: nat,
    sessionsWithPurchases: nat)

  /**
   * `Stats`. The conversion rate is held in hundredths of a percent, the
   * integer `Math.round(rate * 100)` before its final division by 100.
   */
  datatype Stats = Stats(
    totalEvents: nat,
    totalPageViews: nat,
    totalProductViews: nat,
    totalAddToCarts: nat,
    totalPurchases: nat,
    totalRevenue: int,
    conversionRateHundredths: nat,
    topProducts: seq<TopProduct>)

  /** `new Map(rows.map(r => [r.eventType, count]))`: a later row for a type overwrites an earlier one. */
  function CountsMap(rows: seq<CountRow>): (m: map<string, nat>)
    ensures forall t :: t in m <==> exists i :: 0 <= i < |rows| && rows[i].eventType == t
  {
    if rows == [] then map[]
    else
      var m := CountsMap(rows[..|rows| - 1]);
      var last := rows[|rows| - 1];
      assert forall i :: 0 <= i < |rows| - 1 ==> rows[..|rows| - 1][i] == rows[i];
      m[last.eventType := last.count]
  }

  /** The last row of type `t` decides its count. */
  lemma {:induction false} CountsMapLastWins(rows: seq<CountRow>, i: nat)
    requires i < |rows|
    requires forall j :: i < j < |rows| ==> rows[j].eventType != rows[i].eventType
    ensures CountsMap(rows)[rows[i].eventType] == rows[i].count
  {
    if i < |rows| - 1 {
      var init := rows[..|rows| - 1];
      assert init[i] == rows[i];
      CountsMapLastWins(init, i);
    }
  }

  /** The map's keys in insertion order: each type where it first appears. */
  function KeyOrder(rows: seq<CountRow>): (ks: seq<string>)
    ensures forall a, b :: 0 <= a < b < |ks| ==> ks[a] != ks[b]
    ensures forall t :: t in ks <==> t in CountsMap(rows)
  {
    if rows == [] then []
    else
      var ks := KeyOrder(rows[..|rows| - 1]);
      var t := rows[|rows| - 1].eventType;
      if t in ks then ks else ks + [t]
  }

  function SumOver(m: map<string, nat>, ks: seq<string>): nat
    requires forall k :: k in ks ==> k in m
  {
    if ks == [] then 0 else m[ks[0]] + SumOver(m, ks[1..])
  }

  /** `Array.from(countsMap.values()).reduce((sum, c) => sum + c, 0)`. */
  function TotalEvents(rows: seq<CountRow>): nat {
    SumOver(CountsMap(rows), KeyOrder(rows))
  }

  /** `countsMap.get(t) || 0`. */
  function CountOf(rows: seq<CountRow>, t: string): (n: nat)
    ensures (forall i :: 0 <= i < |rows| ==> rows[i].eventType != t) ==> n == 0
  {
    var m := CountsMap(rows);
    if t in m then m[t] else 0
  }

  /** `calculateConversionRate(purchases, views)`, in hundredths of a percent, rounded half up. */
  function ConversionRate(sessionsWithPurchases: nat, sessionsWithProductViews: nat): (r: nat)
    ensures sessionsWithProductViews == 0 ==> r == 0
    ensures sessionsWithProductViews > 0 ==>
              2 * sessionsWithProductViews * r <= 20000 * sessionsWithPurchases + sessionsWithProductViews
              < 2 * sessionsWithProductViews * (r + 1)
  {
    if sessionsWithProductViews == 0 then 0
    else
      var d := 2 * sessionsWithProductViews;
      var x := 20000 * sessionsWithPurchases + sessionsWithProductViews;
      assert d * (x / d) <= x < d * (x / d) + d;
      x / d
  }

  /** When every purchasing session also viewed a product, the rate is at most 100%, and exactly 100% when they coincide. */
  lemma ConversionRateBounded(purchases: nat, views: nat)
    requires purchases <= views
    ensures ConversionRate(purchases, views) <= 10000
    ensures views > 0 && purchases == views ==> ConversionRate(purchases, views) == 10000
    ensures purchases == 0 ==> ConversionRate(purchases, views) == 0
  {
    if views > 0 {
      var r := ConversionRate(purchases, views);
      var d := 2 * views;
      assert 20000 * purchases <= 20000 * views;
      if r > 10000 {
        MulMono(10001, r, d);
        assert false;
      }
      if purchases == views {
        assert 20000 * purchases + views == d * 10000 + views;
        if r < 10000 {
          MulMono(r + 1, 10000, d);
          assert false;
        }
      }
      if purchases == 0 && r > 0 {
        MulMono(1, r, d);
        assert false;
      }
    }
  }

  lemma MulMono(a: nat, b: nat, c: nat)
    requires a <= b
    ensures a * c <= b * c
  {
  }

  /** `productMap`: a later catalog entry for an id overwrites an earlier one. */
  function ProductMap(catalog: seq<Product>): (m: map<string, string>)
    ensures forall id :: id in m <==> exists i :: 0 <= i < |catalog| && catalog[i].id == id
  {
    if catalog == [] then map[]
    else
      var m := ProductMap(catalog[..|catalog| - 1]);
      var last := catalog[|catalog| - 1];
      assert forall i :: 0 <= i < |catalog| - 1 ==> catalog[..|catalog| - 1][i] == catalog[i];
      m[last.id := last.name]
  }

  /** `productMap.get(id) || 'Unknown Product'`. */
  function ProductName(names: map<string, string>, id: string): (n: string)
    ensures n != ""
    ensures id in names && names[id] != "" ==> n == names[id]
    ensures (id !in names || names[id] == "") ==> n == UnknownProduct
  {
    if id in names && names[id] != "" then names[id] else UnknownProduct
  }

  /** `mapTopProducts(results)`: one entry per row, same order, same count, named from the catalog. */
  function MapTopProducts(rows: seq<ProductRow>, names: map<string, string>): (ps: seq<TopProduct>)
    ensures |ps| == |rows|
    ensures forall i :: 0 <= i < |rows| ==>
              ps[i].productId == rows[i].productId && ps[i].count == rows[i].count
              && ps[i].name == ProductName(names, rows[i].productId)
  {
    if rows == [] then [] else [TopProduct(rows[0].productId, ProductName(names, rows[0].productId), rows[0].count)] + MapTopProducts(rows[1..], names)
  }

  /** `getStats(shopId)` once its queries have answered. */
  function GetStats(q: QueryResults, catalog: seq<Product>): (s: Stats)
    ensures s.totalEvents == TotalEvents(q.eventCounts)
    ensures s.totalPageViews == CountOf(q.eventCounts, PageView)
    ensures s.totalProductViews == CountOf(q.eventCounts, ProductViewed)
    ensures s.totalAddToCarts == CountOf(q.eventCounts, AddToCart)
    ensures s.totalPurchases == CountOf(q.eventCounts, PurchaseCompleted)
    ensures s.totalRevenue == if q.revenue.Some? && q.revenue.value != 0 then q.revenue.value else 0
    ensures s.conversionRateHundredths == ConversionRate(q.sessionsWithPurchases, q.sessionsWithProductViews)
    ensures |s.topProducts| == |q.topProducts|
    ensures forall i :: 0 <= i < |q.topProducts| ==>
              s.topProducts[i].productId == q.topProducts[i].productId
              && s.topProducts[i].count == q.topProducts[i].count
  {
    Stats(
      TotalEvents(q.eventCounts),
      CountOf(q.eventCounts, PageView),
      CountOf(q.eventCounts, ProductViewed),
      CountOf(q.eventCounts, AddToCart),
      CountOf(q.eventCounts, PurchaseCompleted),
      if q.revenue.Some? && q.revenue.value != 0 then q.revenue.value else 0,
      ConversionRate(q.sessionsWithPurchases, q.sessionsWithProductViews),
      MapTopProducts(q.topProducts, ProductMap(catalog)))
  }

  /** The last catalog entry for an id decides its name. */
  lemma {:induction false} ProductMapLastWins(catalog: seq<Product>, k: nat)
    requires k < |catalog|
    requires forall j :: k < j < |catalog| ==> catalog[j].id != catalog[k].id
    ensures ProductMap(catalog)[catalog[k].id] == catalog[k].name
  {
    if k < |catalog| - 1 {
      var init := catalog[..|catalog| - 1];
      assert init[k] == catalog[k];
      ProductMapLastWins(init, k);
    }
  }

  /**
   * A top product is named from the catalog: the name of the catalog's last
   * entry for its id when that name is non-empty, and `Unknown Product` for
   * an id the catalog does not list.
   */
  lemma TopProductsNamedFromCatalog(q: QueryResults, catalog: seq<Product>, i: nat)
    requires i < |q.topProducts|
    ensures var name := GetStats(q, catalog).topProducts[i].name;
            && (forall k :: 0 <= k < |catalog| && catalog[k].id == q.topProducts[i].productId
                  && catalog[k].name != "" && (forall j :: k < j < |catalog| ==> catalog[j].id != catalog[k].id)
                  ==> name == catalog[k].name)
            && ((forall k :: 0 <= k < |catalog| ==> catalog[k].id != q.topProducts[i].productId) ==> name == UnknownProduct)
  {
    var id := q.topProducts[i].productId;
    forall k | 0 <= k < |catalog| && catalog[k].id == id && catalog[k].name != ""
                 && (forall j :: k < j < |catalog| ==> catalog[j].id != catalog[k].id)
      ensures GetStats(q, catalog).topProducts[i].name == catalog[k].name
    {
      ProductMapLastWins(catalog, k);
    }
  }

  /** How often `t` occurs. */
  function Occurrences(ts: seq<string>, t: string): nat {
    if ts == [] then 0 else Occurrences(ts[..|ts| - 1], t) + (if ts[|ts| - 1] == t then 1 else 0)
  }

  predicate DistinctTypes(rows: seq<CountRow>) {
    forall a, b :: 0 <= a < b < |rows| ==> rows[a].eventType != rows[b].eventType
  }

  predicate HasType(rows: seq<CountRow>, t: string) {
    exists i :: 0 <= i < |rows| && rows[i].eventType == t
  }

  function SumCounts(rows: seq<CountRow>): nat {
    if rows == [] then 0 else rows[0].count + SumCounts(rows[1..])
  }

  /** The counts the rows give type `t`. */
  function CountFor(rows: seq<CountRow>, t: string): nat {
    if rows == [] then 0 else (if rows[0].eventType == t then rows[0].count else 0) + CountFor(rows[1..], t)
  }

  /** Counts `t` into the grouped rows: bumps its row, or adds one. */
  function Bump(rows: seq<CountRow>, t: string): (r: seq<CountRow>)
    requires DistinctTypes(rows)
    ensures DistinctTypes(r)
    ensures SumCounts(r) == SumCounts(rows) + 1
    ensures forall u :: HasType(r, u) <==> u == t || HasType(rows, u)
    ensures forall u :: CountFor(r, u) == CountFor(rows, u) + (if u == t then 1 else 0)
  {
    if rows == [] then
      HasTypeCons(CountRow(t, 1), []);
      [CountRow(t, 1)]
    else
      assert rows == [rows[0]] + rows[1..];
      HasTypeCons(rows[0], rows[1..]);
      NotInTail(rows);
      if rows[0].eventType == t then
        var r := [CountRow(t, rows[0].count + 1)] + rows[1..];
        HasTypeCons(r[0], rows[1..]);
        DistinctCons(r[0], rows[1..]);
        NoRowNoCount(rows[1..], t);
        r
      else
        var rest := Bump(rows[1..], t);
        var r := [rows[0]] + rest;
        HasTypeCons(rows[0], rest);
        DistinctCons(rows[0], rest);
        r
  }

  lemma HasTypeCons(h: CountRow, rest: seq<CountRow>)
    ensures forall u :: HasType([h] + rest, u) <==> h.eventType == u || HasType(rest, u)
  {
    forall u
      ensures HasType([h] + rest, u) <==> h.eventType == u || HasType(rest, u)
    {
      HasTypeConsAt(h, rest, u);
    }
  }

  lemma HasTypeConsAt(h: CountRow, rest: seq<CountRow>, u: string)
    ensures HasType([h] + rest, u) <==> h.eventType == u || HasType(rest, u)
  {
    var r := [h] + rest;
    assert r[0] == h;
    assert forall i :: 0 <= i < |rest| ==> r[i + 1] == rest[i];
    assert forall i :: 0 < i < |r| ==> r[i] == rest[i - 1];
  }

  /** In rows of distinct types, the head's type does not recur. */
  lemma NotInTail(rows: seq<CountRow>)
    requires |rows| >= 1 && DistinctTypes(rows)
    ensures !HasType(rows[1..], rows[0].eventType)
  {
    var tail := rows[1..];
    forall i | 0 <= i < |tail|
      ensures tail[i].eventType != rows[0].eventType
    {
      assert tail[i] == rows[i + 1];
    }
  }

  lemma DistinctCons(h: CountRow, rest: seq<CountRow>)
    requires DistinctTypes(rest) && !HasType(rest, h.eventType)
    ensures DistinctTypes([h] + rest)
  {
    var r := [h] + rest;
    forall a, b | 0 <= a < b < |r|
      ensures r[a].eventType != r[b].eventType
    {
      if a == 0 {
        assert rest[b - 1] == r[b];
      } else {
        assert rest[a - 1] == r[a] && rest[b - 1] == r[b];
      }
    }
  }

  /** `SELECT eventType, COUNT(*) ... GROUP BY eventType` over the shop's event types. */
  function GroupCount(ts: seq<string>): (rows: seq<CountRow>)
    ensures DistinctTypes(rows)
    ensures SumCounts(rows) == |ts|
    ensures forall u :: CountFor(rows, u) == Occurrences(ts, u)
  {
    if ts == [] then [] else Bump(GroupCount(ts[..|ts| - 1]), ts[|ts| - 1])
  }

  /**
   * With one row per type, as `GROUP BY` returns, the map keeps every row
   * and `totalEvents` is the sum of the query's counts.
   */
  lemma TotalOfDistinctRows(rows: seq<CountRow>)
    requires DistinctTypes(rows)
    ensures TotalEvents(rows) == SumCounts(rows)
  {
    KeyOrderOfDistinct(rows);
    forall i | 0 <= i < |rows|
      ensures CountsMap(rows)[rows[i].eventType] == rows[i].count
    {
      CountsMapLastWins(rows, i);
    }
    SumOverRows(CountsMap(rows), rows);
  }

  function TypesOf(rows: seq<CountRow>): (ts: seq<string>)
    ensures |ts| == |rows|
    ensures forall i :: 0 <= i < |rows| ==> ts[i] == rows[i].eventType
  {
    seq(|rows|, i requires 0 <= i < |rows| => rows[i].eventType)
  }

  lemma {:induction false} KeyOrderOfDistinct(rows: seq<CountRow>)
    requires DistinctTypes(rows)
    ensures KeyOrder(rows) == TypesOf(rows)
  {
    if rows != [] {
      var init := rows[..|rows| - 1];
      var last := rows[|rows| - 1].eventType;
      assert DistinctTypes(init) by {
        assert forall a :: 0 <= a < |init| ==> init[a] == rows[a];
      }
      KeyOrderOfDistinct(init);
      assert last !in TypesOf(init) by {
        var ts := TypesOf(init);
        assert forall i :: 0 <= i < |ts| ==> ts[i] == rows[i].eventType && ts[i] != last;
      }
      TypesOfSnoc(rows);
    }
  }

  lemma TypesOfSnoc(rows: seq<CountRow>)
    requires |rows| >= 1
    ensures TypesOf(rows) == TypesOf(rows[..|rows| - 1]) + [rows[|rows| - 1].eventType]
  {
    var init := rows[..|rows| - 1];
    var a := TypesOf(rows);
    var b := TypesOf(init) + [rows[|rows| - 1].eventType];
    assert a == b by {
      assert |a| == |b|;
      forall i | 0 <= i < |a|
        ensures a[i] == b[i]
      {
        if i < |init| {
          assert b[i] == TypesOf(init)[i] == init[i].eventType;
          assert init[i] == rows[i];
        }
      }
    }
  }

  lemma {:induction false} SumOverRows(m: map<string, nat>, rows: seq<CountRow>)
    requires forall i :: 0 <= i < |rows| ==> rows[i].eventType in m && m[rows[i].eventType] == rows[i].count
    ensures forall k :: k in TypesOf(rows) ==> k in m
    ensures SumOver(m, TypesOf(rows)) == SumCounts(rows)
  {
    if rows != [] {
      SumOverRows(m, rows[1..]);
      assert TypesOf(rows)[1..] == TypesOf(rows[1..]);
    }
  }

  /** Fed the grouped counts of a shop's events, `totalEvents` is the number of those events. */
  lemma TotalEventsCountsEvents(ts: seq<string>, q: QueryResults, catalog: seq<Product>)
    requires q.eventCounts == GroupCount(ts)
    ensures GetStats(q, catalog).totalEvents == |ts|
  {
    TotalOfDistinctRows(GroupCount(ts));
  }

  /** With one row per type, `countsMap.get(t) || 0` is that row's count. */
  lemma {:induction false} CountOfDistinctRows(rows: seq<CountRow>, t: string)
    requires DistinctTypes(rows)
    ensures CountOf(rows, t) == CountFor(rows, t)
  {
    if rows != [] {
      CountOfDistinctRows(rows[1..], t);
      if rows[0].eventType == t {
        CountsMapLastWins(rows, 0);
        assert CountFor(rows[1..], t) == 0 by {
          NoRowNoCount(rows[1..], t);
        }
      } else {
        assert CountOf(rows, t) == CountOf(rows[1..], t) by {
          CountsMapSkipsHead(rows, t);
        }
      }
    }
  }

  lemma {:induction false} NoRowNoCount(rows: seq<CountRow>, t: string)
    requires forall i :: 0 <= i < |rows| ==> rows[i].eventType != t
    ensures CountFor(rows, t) == 0
  {
    if rows != [] {
      NoRowNoCount(rows[1..], t);
    }
  }

  /** Rows of other types do not change the count of `t`. */
  lemma {:induction false} CountsMapSkipsHead(rows: seq<CountRow>, t: string)
    requires |rows| >= 1 && rows[0].eventType != t
    ensures CountOf(rows, t) == CountOf(rows[1..], t)
  {
    if |rows| > 1 {
      var init := rows[..|rows| - 1];
      assert init[1..] == rows[1..][..|rows[1..]| - 1];
      CountsMapSkipsHead(init, t);
    }
  }

  /** Fed the grouped counts of a shop's events, each per-type total is that type's number of events. */
  lemma PerTypeTotalsCountEvents(ts: seq<string>, q: QueryResults, catalog: seq<Product>)
    requires q.eventCounts == GroupCount(ts)
    ensures GetStats(q, catalog).totalPageViews == Occurrences(ts, PageView)
    ensures GetStats(q, catalog).totalProductViews == Occurrences(ts, ProductViewed)
    ensures GetStats(q, catalog).totalAddToCarts == Occurrences(ts, AddToCart)
    ensures GetStats(q, catalog).totalPurchases == Occurrences(ts, PurchaseCompleted)
  {
    var rows := GroupCount(ts);
    CountOfDistinctRows(rows, PageView);
    CountOfDistinctRows(rows, ProductViewed);
    CountOfDistinctRows(rows, AddToCart);
    CountOfDistinctRows(rows, PurchaseCompleted);
  }
}

=== FILE: text.dfy ===
/**
 * String helpers for the parts of the model that build or inspect text.
 * Case mapping is ASCII-only: JavaScript's Unicode `toUpperCase` /
 * `toLowerCase` agree with it on ASCII letters and are not modelled beyond them.
 */
module Text {

  predicate IsUpperAscii(c: char) {
    'A' <= c <= 'Z'
  }

  predicate IsLowerAscii(c: char) {
    'a' <= c <= 'z'
  }

  /** `String.prototype.toUpperCase` on one character (ASCII letters only). */
  function UpperChar(c: char): (u: char)
    ensures IsLowerAscii(c) ==> IsUpperAscii(u) && u as int == c as int - 32
    ensures !IsLowerAscii(c) ==> u == c
  {
    if IsLowerAscii(c) then (c as int - 32) as char else c
  }

  /** `String.prototype.toLowerCase` on one character (ASCII letters only). */
  function LowerChar(c: char): (l: char)
    ensures IsUpperAscii(c) ==> IsLowerAscii(l) && l as int == c as int + 32
    ensures !IsUpperAscii(c) ==> l == c
  {
    if IsUpperAscii(c) then (c as int + 32) as char else c
  }

  function LowerString(s: string): (r: string)
    ensures |r| == |s|
    ensures forall i :: 0 <= i < |s| ==> r[i] == LowerChar(s[i])
  {
    if s == [] then [] else [LowerChar(s[0])] + LowerString(s[1..])
  }

  /** `needle` occurs in `haystack` starting at index `i`. */
  predicate OccursAt(haystack: string, needle: string, i: int) {
    0 <= i <= |haystack| - |needle| && haystack[i..i + |needle|] == needle
  }

  /** `haystack.includes(needle)`. */
  predicate Contains(haystack: string, needle: string) {
    exists i :: 0 <= i <= |haystack| && OccursAt(haystack, needle, i)
  }

  /** `parts.join(sep)`. */
  function Join(sep: string, parts: seq<string>): string {
    if |parts| == 0 then ""
    else if |parts| == 1 then parts[0]
    else parts[0] + sep + Join(sep, parts[1..])
  }

  function DigitChar(d: nat): (c: char)
    requires d < 10
    ensures '0' <= c <= '9'
  {
    ('0' as int + d) as char
  }

  /** Decimal rendering of a non-negative integer, as a template literal prints it. */
  function NatToString(n: nat): (s: string)
    ensures |s| >= 1
    ensures forall i :: 0 <= i < |s| ==> '0' <= s[i] <= '9'
    decreases n
  {
    if n < 10 then [DigitChar(n)] else NatToString(n / 10) + [DigitChar(n % 10)]
  }

  /** Reads back a string of decimal digits. */
  function DigitsValue(s: string): nat
    requires forall i :: 0 <= i < |s| ==> '0' <= s[i] <= '9'
  {
    if s == [] then 0 else DigitsValue(s[..|s| - 1]) * 10 + (s[|s| - 1] as int - '0' as int)
  }

  /** Rendering a count and reading it back gives the count: the text is unambiguous. */
  lemma {:induction false} NatToStringRoundTrip(n: nat)
    ensures DigitsValue(NatToString(n)) == n
    decreases n
  {
    var s := NatToString(n);
    if n >= 10 {
      NatToStringRoundTrip(n / 10);
      assert s[..|s| - 1] == NatToString(n / 10);
    }
  }
}

=== FILE: tracker.dfy ===
/**
 * The tracker facade (packages/tracker/src/index.ts): `init`, `track`,
 * `trackPageView`, `flush`, `destroy` over one module-level state.
 *
 * What the browser supplies at a call (the clock, the location, the user
 * agent, whether a `window` exists) is an `Env`; the session id that
 * `generateId` draws is a parameter of `Init`. Page-view tracking calls back
 * into `track` synchronously, so `Init` and `Navigate` return the state after
 * that nested `track`.
 */
module Tracker {
  import opened Wrappers
  import opened Shared
  import Dedup
  import EventNames
  import PageView
  import Batcher
  import Sender

  const DefaultBatchSize: int := 10
  const DefaultFlushIntervalMs: int := 5000

  /** `TrackerConfig` as the site passes it; an absent optional field is `None`. */
  datatype TrackerConfig = TrackerConfig(
    shopId: string,
    endpoint: string,
    apiKey: string,
    batchSize: Option<int>,
    flushInterval: Option<int>,
    debug: Option<bool>,
    autoTrackPageViews: Option<bool>)

  /** The configuration after the defaults are spread under it. */
  datatype Settings = Settings(
    shopId: string,
    endpoint: string,
    apiKey: string,
    batchSize: int,
    flushInterval: int,
    debug: bool,
    autoTrackPageViews: bool)

  /** The three errors `init` throws, in the order it checks for them. */
  /**
   * Why `init` threw. The page-view setup throws outside a browser (it
   * touches `history` and `window.location` unguarded) after `init` has
   * already marked the tracker initialized and built the batcher; `state`
   * is the module state the throw leaves behind.
   */
  datatype InitError = MissingShopId | MissingEndpoint | MissingApiKey | PageViewSetupThrew(state: TrackerState)

  datatype TrackerState = TrackerState(
    initialized: bool,
    config: Option<Settings>,
    sessionId: Option<string>,
    batcher: Option<Batcher.Batcher>,
    recentEvents: map<string, int>,
    pageViews: PageView.PageViewState)

  /** The browser at the moment of a call. */
  datatype Env = Env(now: int, page: PageView.PageContext, userAgent: string, hasWindow: bool)

  /** A `track` call's new state and the event it queued, if it queued one. */
  datatype Tracked = Tracked(state: TrackerState, event: Option<CreateEventDto>)

  /** `destroy()`'s new state and the events its final synchronous flush handed over. */
  datatype Destroyed = Destroyed(state: TrackerState, sent: seq<CreateEventDto>)

  /** The state at script load: nothing configured, page views untouched. */
  function Fresh(pageViews: PageView.PageViewState): (s: TrackerState)
    ensures !s.initialized && s.recentEvents == map[] && s.batcher.None?
  {
    TrackerState(false, None, None, None, map[], pageViews)
  }

  /** `{batchSize: 10, flushInterval: 5000, debug: false, autoTrackPageViews: true, ...config}`. */
  function Resolve(c: TrackerConfig): (r: Settings)
    ensures r.shopId == c.shopId && r.endpoint == c.endpoint && r.apiKey == c.apiKey
    ensures r.batchSize == c.batchSize.GetOr(DefaultBatchSize)
    ensures r.flushInterval == c.flushInterval.GetOr(DefaultFlushIntervalMs)
    ensures r.debug == c.debug.GetOr(false)
    ensures r.autoTrackPageViews == c.autoTrackPageViews.GetOr(true)
  {
    Settings(c.shopId, c.endpoint, c.apiKey,
             c.batchSize.GetOr(DefaultBatchSize), c.flushInterval.GetOr(DefaultFlushIntervalMs),
             c.debug.GetOr(false), c.autoTrackPageViews.GetOr(true))
  }

  /** The batcher `init` builds: the sender gets the endpoint and debug flag and keeps its own retry defaults. */
  function BatcherConfigOf(r: Settings): (bc: Batcher.BatcherConfig)
    ensures bc.batchSize == r.batchSize && bc.flushInterval == r.flushInterval
    ensures bc.sender.endpoint == r.endpoint && bc.sender.maxRetries.None? && bc.sender.retryDelayMs.None?
  {
    Batcher.BatcherConfig(r.batchSize, r.flushInterval, Sender.SenderConfig(r.endpoint, r.debug, None, None), r.debug)
  }

  /** `track` accepts calls only when initialized, configured, with a (non-empty) session id and a batcher. */
  predicate Ready(s: TrackerState) {
    s.initialized && s.config.Some? && s.sessionId.Some? && s.sessionId.value != "" && s.batcher.Some?
  }

  /** The event `track` builds: `window.location.href` only when a window exists. */
  function MakeEvent(s: TrackerState, eventType: string, props: Props, env: Env): (e: CreateEventDto)
    requires Ready(s)
    ensures e.shopId == s.config.value.shopId && e.sessionId == s.sessionId.value
    ensures e.eventType == eventType && e.properties == props
    ensures e.eventName == EventNames.FormatEventName(eventType)
    ensures e.timestamp == Some(env.now) && e.userAgent == env.userAgent
    ensures e.url == (if env.hasWindow then env.page.href else "")
  {
    CreateEventDto(s.config.value.shopId, s.sessionId.value, eventType, EventNames.FormatEventName(eventType),
                   props, if env.hasWindow then env.page.href else "", env.userAgent, Some(env.now))
  }

  /** `track(eventName, properties)`: ignored before `init`, dropped as a duplicate, or queued once. */
  function Track(s: TrackerState, eventType: string, props: Props, env: Env): (t: Tracked)
    ensures !Ready(s) ==> t == Tracked(s, None)
    ensures Ready(s) ==>
              var v := Dedup.CheckDuplicate(s.recentEvents, eventType, Dedup.DedupKey(eventType, props), env.now);
              && t.state.recentEvents == v.ledger
              && (v.duplicate <==> t.event.None?)
              && (v.duplicate ==> t.state == s)
    ensures t.event.Some? ==>
              && Ready(t.state)
              && t.event.value == MakeEvent(s, eventType, props, env)
              && (!s.batcher.value.destroyed ==>
                    Batcher.Outstanding(t.state.batcher.value) == Batcher.Outstanding(s.batcher.value) + [t.event.value])
    ensures t.state.initialized == s.initialized && t.state.config == s.config
    ensures t.state.sessionId == s.sessionId && t.state.pageViews == s.pageViews
  {
    if !Ready(s) then Tracked(s, None)
    else
      var v := Dedup.CheckDuplicate(s.recentEvents, eventType, Dedup.DedupKey(eventType, props), env.now);
      if v.duplicate then Tracked(s, None)
      else
        var e := MakeEvent(s, eventType, props, env);
        var a := Batcher.Add(s.batcher.value, e);
        Tracked(s.(recentEvents := v.ledger, batcher := Some(a.batcher)), Some(e))
  }

  /** `init(config)`: a no-op once initialized; otherwise validate, configure, start the batcher, start page views. */
  function Init(s: TrackerState, c: TrackerConfig, sessionId: string, env: Env): (r: Result<TrackerState, InitError>)
    ensures s.initialized ==> r == Success(s)
    ensures !s.initialized ==>
              && (c.shopId == "" <==> r == Failure(MissingShopId))
              && (c.shopId != "" && c.endpoint == "" <==> r == Failure(MissingEndpoint))
              && (c.shopId != "" && c.endpoint != "" && c.apiKey == "" <==> r == Failure(MissingApiKey))
    ensures !s.initialized && r.Success? ==>
              && r.value.initialized && r.value.config == Some(Resolve(c)) && r.value.sessionId == Some(sessionId)
              && r.value.batcher.Some? && r.value.batcher.value.config == BatcherConfigOf(Resolve(c))
              && r.value.batcher.value.listenersAttached == env.hasWindow
    ensures !s.initialized && r.Success? && !Resolve(c).autoTrackPageViews ==> r.value.pageViews == s.pageViews
    ensures !s.initialized && r.Success? && Resolve(c).autoTrackPageViews ==> env.hasWindow
    ensures !s.initialized && c.shopId != "" && c.endpoint != "" && c.apiKey != ""
            && Resolve(c).autoTrackPageViews && !env.hasWindow
            ==> && r.Failure? && r.error.PageViewSetupThrew?
                && r.error.state.initialized && r.error.state.config == Some(Resolve(c))
                && r.error.state.sessionId == Some(sessionId)
                && r.error.state.batcher == Some(Batcher.New(BatcherConfigOf(Resolve(c)), false))
                && r.error.state.recentEvents == s.recentEvents
                && r.error.state.pageViews == s.pageViews.(hasCallback := true, debug := Resolve(c).debug)
    ensures !s.initialized && r.Success? && Resolve(c).autoTrackPageViews
            ==> r.value.pageViews.history.isSetup && r.value.pageViews.hasCallback
                && r.value.pageViews.lastTrackedUrl == Some(env.page.href)
    ensures !s.initialized && r.Success? && Resolve(c).autoTrackPageViews && !s.pageViews.history.isSetup
            ==> PageView.Observing(r.value.pageViews)
  {
    if s.initialized then Success(s)
    else if c.shopId == "" then Failure(MissingShopId)
    else if c.endpoint == "" then Failure(MissingEndpoint)
    else if c.apiKey == "" then Failure(MissingApiKey)
    else
      var settings := Resolve(c);
      var b := Batcher.New(BatcherConfigOf(settings), env.hasWindow);
      var s1 := s.(initialized := true, config := Some(settings), sessionId := Some(sessionId), batcher := Some(b));
      if !settings.autoTrackPageViews then Success(s1)
      else if !env.hasWindow then
        // `setupPageViewTracking` stores the callback and debug flag, then throws before patching or tracking.
        Failure(PageViewSetupThrew(s1.(pageViews := s1.pageViews.(hasCallback := true, debug := settings.debug))))
      else
        var e := PageView.Setup(s1.pageViews, settings.debug, env.page);
        var s2 := s1.(pageViews := e.state);
        Success(if e.emitted.Some? then Track(s2, PageView.PageViewEvent, e.emitted.value, env).state else s2)
  }

  /** The `ReferenceError` that reading `window.location` raises outside a browser. */
  datatype PageViewThrow = WindowNotDefined

  /**
   * `trackPageView()`: the current page through `track`, whatever the last
   * tracked URL; the URL suppression state is neither consulted nor updated.
   * Capturing the page reads `window.location` unguarded, so outside a
   * browser the call throws before `track`, leaving the state as it was.
   */
  function TrackPageView(s: TrackerState, env: Env): (r: Result<Tracked, PageViewThrow>)
    ensures !s.initialized || s.config.None? ==> r == Success(Tracked(s, None))
    ensures s.initialized && s.config.Some? && !env.hasWindow ==> r == Failure(WindowNotDefined)
    ensures s.initialized && s.config.Some? && env.hasWindow ==>
              r == Success(Track(s, PageView.PageViewEvent, PageView.CaptureProperties(env.page), env))
    ensures r.Success? ==> r.value.state.pageViews == s.pageViews
  {
    if !s.initialized || s.config.None? then Success(Tracked(s, None))
    else if !env.hasWindow then Failure(WindowNotDefined)
    else Success(Track(s, PageView.PageViewEvent, PageView.ManualPageView(env.page), env))
  }

  /** A navigation the patched History API or the `popstate` listener observes, then its page view through `track`. */
  function Navigate(s: TrackerState, nav: PageView.Navigation, env: Env): (t: Tracked)
    ensures var e := PageView.Navigate(s.pageViews, nav);
            && t.state.pageViews == e.state
            && (e.emitted.None? ==> t == Tracked(s.(pageViews := e.state), None))
  {
    var e := PageView.Navigate(s.pageViews, nav);
    var s1 := s.(pageViews := e.state);
    if e.emitted.Some? then Track(s1, PageView.PageViewEvent, e.emitted.value, env.(page := PageView.NavPage(nav)))
    else Tracked(s1, None)
  }

  /**
   * When the page-view layer emits, the ready tracker queues exactly one `page_view` carrying the emitted
   * properties and the new page, unless the deduplication ledger holds its key inside the window.
   */
  lemma NavigateQueuesEmittedPageView(s: TrackerState, nav: PageView.Navigation, env: Env)
    requires Ready(s) && PageView.Navigate(s.pageViews, nav).emitted.Some?
    ensures var props := PageView.Navigate(s.pageViews, nav).emitted.value;
            var t := Navigate(s, nav, env);
            && (t.event.Some? <==> !Dedup.CheckDuplicate(s.recentEvents, PageView.PageViewEvent,
                                                        Dedup.DedupKey(PageView.PageViewEvent, props), env.now).duplicate)
            && (t.event.Some? ==>
                  && t.event.value == MakeEvent(s, PageView.PageViewEvent, props, env.(page := PageView.NavPage(nav)))
                  && (!s.batcher.value.destroyed ==>
                        Batcher.Outstanding(t.state.batcher.value) == Batcher.Outstanding(s.batcher.value) + [t.event.value]))
  {
    var e := PageView.Navigate(s.pageViews, nav);
    var env1 := env.(page := PageView.NavPage(nav));
    TrackIgnoresPageViews(s, e.state, PageView.PageViewEvent, e.emitted.value, env1);
  }

  /** `track` neither reads nor writes the page-view state. */
  lemma TrackIgnoresPageViews(s: TrackerState, p: PageView.PageViewState, eventType: string, props: Props, env: Env)
    ensures Track(s.(pageViews := p), eventType, props, env).event == Track(s, eventType, props, env).event
    ensures Track(s.(pageViews := p), eventType, props, env).state == Track(s, eventType, props, env).state.(pageViews := p)
  {
  }

  /** `flush()`: start a flush of the batcher, if there is one; completing it is `Batcher.CompleteFlush`. */
  function Flush(s: TrackerState): (s': TrackerState)
    ensures s.batcher.None? ==> s' == s
    ensures s.batcher.Some? ==>
              s'.batcher.Some? && Batcher.Outstanding(s'.batcher.value) == Batcher.Outstanding(s.batcher.value)
    ensures s.batcher.Some? && !Batcher.FlushSkips(s.batcher.value)
            ==> s'.batcher.value.inFlight == Some(s.batcher.value.queue)
  {
    if s.batcher.None? then s else s.(batcher := Some(Batcher.BeginFlush(s.batcher.value)))
  }

  /** `destroy()`: tear down page views, destroy the batcher (a last sync flush), forget everything. */
  function Destroy(s: TrackerState, transport: Batcher.SyncTransport): (d: Destroyed)
    ensures !s.initialized ==> d == Destroyed(s, [])
    ensures s.initialized ==>
              && !d.state.initialized && d.state.config.None? && d.state.sessionId.None?
              && d.state.batcher.None? && d.state.recentEvents == map[]
              && d.state.pageViews == PageView.Teardown(s.pageViews)
    ensures s.initialized && s.batcher.Some? && !s.batcher.value.destroyed ==> d.sent == s.batcher.value.queue
  {
    if !s.initialized then Destroyed(s, [])
    else
      var pv := PageView.Teardown(s.pageViews);
      var sent := if s.batcher.Some? then Batcher.Destroy(s.batcher.value, transport).sent else [];
      Destroyed(TrackerState(false, None, None, None, map[], pv), sent)
  }

  /**
   * Initialising a fresh tracker on a page queues exactly one event, the
   * landing page view, carrying the page's url, title, referrer and path.
   */
  lemma InitTracksLandingPage(c: TrackerConfig, sessionId: string, env: Env, pageViews: PageView.PageViewState)
    requires c.shopId != "" && c.endpoint != "" && c.apiKey != "" && sessionId != ""
    requires c.autoTrackPageViews.GetOr(true) && c.batchSize.GetOr(DefaultBatchSize) > 1
    requires pageViews.lastTrackedUrl.None? && env.hasWindow
    ensures var r := Init(Fresh(pageViews), c, sessionId, env);
            && r.Success?
            && Batcher.Outstanding(r.value.batcher.value)
               == [MakeEvent(r.value, PageView.PageViewEvent, PageView.CaptureProperties(env.page), env)]
  {
    var s := Fresh(pageViews);
    var settings := Resolve(c);
    var b := Batcher.New(BatcherConfigOf(settings), env.hasWindow);
    var s1 := s.(initialized := true, config := Some(settings), sessionId := Some(sessionId), batcher := Some(b));
    var e := PageView.Setup(s1.pageViews, settings.debug, env.page);
    var s2 := s1.(pageViews := e.state);
    assert e.emitted == Some(PageView.CaptureProperties(env.page));
    var t := Track(s2, PageView.PageViewEvent, e.emitted.value, env);
    assert t.event.Some?;
    assert Init(s, c, sessionId, env) == Success(t.state);
  }
  /**
   * Outside a browser, a first `init` with automatic page views throws, yet
   * leaves a tracker that accepts events with nothing queued; a retried
   * `init` only warns, so the page-view setup is never attempted again.
   */
  lemma InitWithoutWindowThrowsHalfInitialized(c: TrackerConfig, sessionId: string, env: Env, c2: TrackerConfig,
                                               id2: string, env2: Env, pageViews: PageView.PageViewState)
    requires c.shopId != "" && c.endpoint != "" && c.apiKey != "" && sessionId != ""
    requires c.autoTrackPageViews.GetOr(true) && !env.hasWindow
    ensures var r := Init(Fresh(pageViews), c, sessionId, env);
            && r.Failure? && r.error.PageViewSetupThrew?
            && Ready(r.error.state)
            && Batcher.Outstanding(r.error.state.batcher.value) == []
            && r.error.state.pageViews.history == pageViews.history && r.error.state.pageViews.browser == pageViews.browser
            && r.error.state.pageViews.lastTrackedUrl == pageViews.lastTrackedUrl
            && Init(r.error.state, c2, id2, env2) == Success(r.error.state)
  {
    var r := Init(Fresh(pageViews), c, sessionId, env);
    assert Batcher.Outstanding(Batcher.New(BatcherConfigOf(Resolve(c)), false)) == [];
  }

  /**
   * A manual page view is queued even on the page the URL suppression last
   * tracked, where the automatic trigger emits nothing; only the dedup window
   * can drop it.
   */
  lemma ManualPageViewBypassesUrlSuppression(s: TrackerState, env: Env)
    requires Ready(s) && !s.batcher.value.destroyed && env.hasWindow
    requires s.pageViews.lastTrackedUrl == Some(env.page.href)
    requires var key := Dedup.DedupKey(PageView.PageViewEvent, PageView.CaptureProperties(env.page));
             key !in s.recentEvents || s.recentEvents[key] == 0
             || env.now - s.recentEvents[key] >= Dedup.PageViewDedupWindowMs
    ensures TrackPageView(s, env).Success?
    ensures var t := TrackPageView(s, env).value;
            && t.event == Some(MakeEvent(s, PageView.PageViewEvent, PageView.CaptureProperties(env.page), env))
            && Batcher.Outstanding(t.state.batcher.value) == Batcher.Outstanding(s.batcher.value) + [t.event.value]
    ensures PageView.TriggerPageView(s.pageViews, env.page).emitted.None?
  {
    assert Dedup.WindowFor(PageView.PageViewEvent) == Dedup.PageViewDedupWindowMs;
  }

  /** The same event with the same identifying properties, again within its window, is dropped. */
  lemma RepeatWithinWindowIsDropped(s: TrackerState, eventType: string, props: Props, env: Env, d: int)
    requires Ready(s) && env.now != 0 && 0 <= d < Dedup.WindowFor(eventType)
    requires Track(s, eventType, props, env).event.Some?
    ensures var s1 := Track(s, eventType, props, env).state;
            Track(s1, eventType, props, env.(now := env.now + d)) == Tracked(s1, None)
  {
    var key := Dedup.DedupKey(eventType, props);
    Dedup.SecondSightingWithinWindow(s.recentEvents, eventType, key, env.now, d);
  }

  /** After `destroy`, `track` does nothing until the next `init`, which succeeds with the same configuration. */
  lemma DestroyThenReinit(s: TrackerState, t: Batcher.SyncTransport, c: TrackerConfig, id: string,
                          env: Env, eventType: string, props: Props)
    requires s.initialized
    requires c.shopId != "" && c.endpoint != "" && c.apiKey != ""
    ensures var d := Destroy(s, t).state;
            && Track(d, eventType, props, env) == Tracked(d, None)
            && (Init(d, c, id, env).Success? <==> env.hasWindow || !Resolve(c).autoTrackPageViews)
            && (Init(d, c, id, env).Success? ==> Init(d, c, id, env).value.initialized)
            && (Init(d, c, id, env).Failure? ==> Init(d, c, id, env).error.PageViewSetupThrew?
                                                 && Init(d, c, id, env).error.state.initialized)
  {
  }

  /**
   * After `destroy`, a new `init` on the very same page tracks its page
   * view again: teardown forgot the last tracked URL and the dedup ledger.
   */
  lemma ReinitTracksSamePageAgain(s: TrackerState, t: Batcher.SyncTransport, c: TrackerConfig, id: string, env: Env)
    requires s.initialized
    requires c.shopId != "" && c.endpoint != "" && c.apiKey != "" && id != ""
    requires c.autoTrackPageViews.GetOr(true) && c.batchSize.GetOr(DefaultBatchSize) > 1 && env.hasWindow
    ensures var r := Init(Destroy(s, t).state, c, id, env);
            && r.Success?
            && |Batcher.Outstanding(r.value.batcher.value)| == 1
            && Batcher.Outstanding(r.value.batcher.value)[0].eventType == PageView.PageViewEvent
  {
    var d := Destroy(s, t).state;
    assert d == Fresh(d.pageViews);
    InitTracksLandingPage(c, id, env, d.pageViews);
  }
}

=== FILE: wrappers.dfy ===
/** Failure-carrying datatypes shared by every module of the model. */
module Wrappers {

  /** A value that may be absent: JavaScript's `undefined`/`null`. */
  datatype Option<+T> = None | Some(value: T) {

    /** The carried value, or `default` when absent. */
    function GetOr(default: T): T {
      match this
      case Some(v) => v
      case None => default
    }
  }

  /** The outcome of an operation that can throw: `Failure` carries the thrown error. */
  datatype Result<+R, +E> = Success(value: R) | Failure(error: E) {

    predicate IsFailure() {
      Failure?
    }

    function PropagateFailure<U>(): Result<U, E>
      requires Failure?
    {
      Failure(error)
    }

    function Extract(): R
      requires Success?
    {
      value
    }
  }
}
